=== FILE: README.md ===
# my-awesome-library in Dafny

A model of the utility functions of `my-awesome-library` (TypeScript) and of the
version bump in its release script, with proofs of what each function promises.

JavaScript values are a datatype `Value`:
`Undefined | Null | Bool | Num(int) | Str | Arr(items) | Obj(fields)`.
An object is an ordered list of key/value `Field`s with distinct keys, kept in
insertion order. Every function of the library becomes a pure Dafny function or
method. A function that mutates its argument (mergeDeep, setNestedValue,
unflattenObject) returns the updated value instead, or the `TypeError` that a
write into a primitive raises in strict mode.

`Math.random()` draws are parameters: reals in [0, 1). `Date` is an integer
millisecond timestamp on the UTC calendar, so `getFullYear`, `getMonth` and
`getDate` come from the proleptic Gregorian day number. The cache of `memoize`
and the `lastTime` of `throttle` are explicit state. The clock of `throttle` and
the serializer of `memoize` are parameters.

Modules follow the source files:

| file | module | models |
|---|---|---|
| `jsvalues.dfy` | `JsValues` | values, property get and put, `Object.entries`, strict-mode assignment |
| `jstext.dfy`, `chars.dfy`, `decimal.dfy` | `JsText`, `Chars`, `Decimal` | `trim`, `split`, `replace`, character classes, number-to-string in radix 10 and 16 |
| `random.dfy`, `results.dfy` | `Random`, `Results` | `Math.floor(Math.random() * n)`, `Option` and `Result` |
| `arrays.dfy` | `Arrays` | `src/utilities/arrays.ts` |
| `numbers.dfy` | `Numbers` | `src/utilities/numbers.ts` on integers |
| `strings.dfy` | `Strings` | `src/utilities/strings.ts` on ASCII |
| `dates.dfy` | `Dates` | `src/utilities/dates.ts` |
| `helper.dfy` | `Helper` | `src/utilities/helper.ts` |
| `objects.dfy`, `equality.dfy`, `merge.dfy`, `nested.dfy` | `Objects`, `ObjectEquality`, `ObjectMerge`, `NestedObjects` | `src/utilities/objects.ts` |
| `version.dfy` | `Version` | `incrementVersion` of `scripts/version-management.ts` |

Where a plain reading of a function's purpose and its code disagree, the model
follows the code:

- `mergeDeep` descends into a source array as well as a source object, because
  `typeof [] === 'object'`; a source array does not simply overwrite.
- `countWords` of an empty or blank string is 1.

## Model

| member | source | states |
|---|---|---|
| `Arrays.ShuffleArray` | src/utilities/arrays.ts:8-15 | For every sequence of random draws, the shuffled copy has the input's length and holds the same elements with the same multiplicities. |
| `Arrays.SortByKey` | src/utilities/arrays.ts:23-25 | The sorted copy is a permutation of the input. |
| `Arrays.SortByKeySorted` | src/utilities/arrays.ts:23-25 | The sorted copy is in nondecreasing key order. |
| `Arrays.SortByKeyAscending` | src/utilities/arrays.ts:23-25 | When the keys are pairwise distinct, the sorted copy is in strictly ascending key order. |
| `Arrays.Chunk` | src/utilities/arrays.ts:33-39 | For size > 0, the chunks concatenate back to the input. Every chunk but the last has exactly `size` elements, and the last has 1 to `size`. There are no chunks only for an empty input. |
| `Arrays.ChunkCount` | src/utilities/arrays.ts:33-39 | Any chunking with that shape has ceil(n / size) chunks. |
| `Arrays.ChunkNeverEnds` | src/utilities/arrays.ts:35 | With size <= 0 the loop index is still at most 0 after any number of iterations, so on a non-empty array the loop guard never fails. |
| `Arrays.ChunkChecked` | src/utilities/arrays.ts:33-39 | The corrected chunking ends for every size. It gives no chunks for a size below 1, and otherwise the shape that `Arrays.Chunk` promises. |
| `Arrays.DifferenceIntersectMembers` | src/utilities/arrays.ts:47-59 | An element is in `difference` iff it is in array1 and not in array2. It is in `intersect` iff it is in both. |
| `Arrays.DifferenceIntersectPartition` | src/utilities/arrays.ts:47-59 | `difference` and `intersect` together hold every occurrence of array1 exactly once. |
| `Arrays.DifferenceIntersectOrder` | src/utilities/arrays.ts:47-59 | Both results list their elements in array1's order. |
| `Arrays.RemoveDuplicatesMembers` | src/utilities/arrays.ts:66-68 | The result has the same elements as the input, with none repeated. |
| `Arrays.RemoveDuplicatesKeepsFirstOccurrences` | src/utilities/arrays.ts:66-68 | The result equals an independent reference definition: keep each element whose value does not occur earlier, in input order. |
| `Arrays.NoDuplicatesFixed` | src/utilities/arrays.ts:66-68 | An array without repeated elements is returned unchanged. |
| `Arrays.RemoveDuplicatesIdempotent` | src/utilities/arrays.ts:66-68 | Removing duplicates twice is the same as removing them once. |
| `Numbers.RandomNumberInRange` | src/utilities/numbers.ts:9-11 | For min <= max, every draw in [0, 1) gives an integer in [min, max]. |
| `Numbers.RandomNumberReaches` | src/utilities/numbers.ts:9-11 | Every integer in [min, max] is the result of some draw. |
| `Numbers.JsRemTwo` | src/utilities/numbers.ts:18-29 | JavaScript's `% 2` is 0 or 1 for a non-negative number and 0 or -1 for a negative one. It always differs from the number by a multiple of 2. |
| `Numbers.ParityMeaning` | src/utilities/numbers.ts:18-29 | `isEven` holds iff n = 2k, and `isOdd` iff n = 2k + 1, negative numbers included. Exactly one of the two holds. |
| `Numbers.FindMax` | src/utilities/numbers.ts:45-47 | Returns none exactly for an empty array. Otherwise it returns an element that is >= every element. |
| `Numbers.FindMin` | src/utilities/numbers.ts:54-56 | Returns none exactly for an empty array. Otherwise it returns an element that is <= every element. |
| `Numbers.CommaAtOfNumber` | src/utilities/numbers.ts:63-65 | In a sign and digits, the grouping regular expression matches before the digit at j exactly when j >= 1 and the number of digits from j on is a multiple of three. |
| `Numbers.GroupsShape` | src/utilities/numbers.ts:63-65 | The reference grouping concatenates back to the digits. The first group has one to three digits and every later group exactly three. |
| `Numbers.FormatNumberGroups` | src/utilities/numbers.ts:63-65 | `formatNumber(n)` is the sign, then the reference digit groups of abs(n) joined by ",". |
| `Numbers.FormatNumberRemoveCommas` | src/utilities/numbers.ts:63-65 | Deleting the commas gives back the decimal text of n. |
| `Numbers.FormatNumberShape` | src/utilities/numbers.ts:63-65 | After the sign comes a digit, never a comma. Splitting the rest on "," gives all-digit groups: the first of one to three digits, the others of exactly three. |
| `Dates.DayNumberOfCivil` | src/utilities/dates.ts:48-54 | The calendar fields computed from a day number map back to that day number, so the (year, month, day) read off a timestamp identify its day. |
| `Dates.CivilOfDayInjective` | src/utilities/dates.ts:48-54 | Two day numbers have the same calendar fields iff they are equal. |
| `Dates.IsSameDayMeaning` | src/utilities/dates.ts:48-54 | `isSameDay` holds iff the two timestamps fall on the same calendar day. |
| `Dates.FormatDateFields` | src/utilities/dates.ts:9-16 | The month lies in 1..12 and the day in 1..31. Their padded texts are two digits long and read back as the month and the day. |
| `Dates.Pad2RoundTrip` | src/utilities/dates.ts:10 | A number below 100 padded to two digits is two characters long and reads back as itself. |
| `Dates.FormatDateNoTokens` | src/utilities/dates.ts:9-16 | A format without any YYYY, MM or DD is returned unchanged. |
| `Dates.FormatDateDefault` | src/utilities/dates.ts:9-16 | The default format gives the padded month, "/", the padded day, "/", then the year. |
| `JsText.IndexOf` | src/utilities/dates.ts:12-15 | The position found is an occurrence of the token, and no occurrence comes before it; -1 means the token does not occur at all. |
| `JsText.ReplaceFirst` | src/utilities/dates.ts:12-15 | Each `replace` with a text pattern acts on the pattern's least occurrence position: the result is the text before it, then the replacement, then the text after that occurrence. If the pattern occurs nowhere, the text comes back unchanged. |
| `Dates.DaysBetween` | src/utilities/dates.ts:24-28 | The result is non-negative and is the distance in days rounded to the nearest whole day: within half a day of the true distance. |
| `Dates.DaysBetweenProperties` | src/utilities/dates.ts:24-28 | `daysBetween` is symmetric and 0 for equal instants. Two instants exactly n days apart give abs(n). |
| `Dates.AddDaysShift` | src/utilities/dates.ts:36-40 | `addDays(d, k)` is the timestamp moved by exactly k days; the input timestamp is a value and is left as it was. |
| `Dates.AddDaysCompose` | src/utilities/dates.ts:36-40 | Adding 0 days gives the same date, and adding a then b days is adding a + b days. |
| `Helper.PackRgbValue` | src/utilities/helper.ts:9 | For bytes r, g, b, the shifted-and-or'ed value is 2^24 + r·2^16 + g·2^8 + b. |
| `Helper.RgbToHexDigits` | src/utilities/helper.ts:8-10 | The result is "#" followed by the upper-cased two-digit hex text of r, then of g, then of b. |
| `Helper.RgbToHexRoundTrip` | src/utilities/helper.ts:8-10 | For bytes r, g, b the result is 7 characters: "#" and six upper-case hex digits. Digits 1-2, 3-4 and 5-6 read as hex give back r, g and b. |
| `Helper.GenerateRandomColor` | src/utilities/helper.ts:16-23 | For any six draws, the color is "#" followed by six characters from "0123456789ABCDEF". |
| `Helper.GenerateRandomColorReaches` | src/utilities/helper.ts:16-23 | Every "#" plus six characters from that alphabet is produced by some six draws. |
| `Helper.MemoRunKeeps` | src/utilities/helper.ts:33-39 | A defined cache entry survives any run of calls, and every call whose arguments serialize to its key answers that entry, without regard to what `func` would now return. |
| `Helper.MemoRunSticky` | src/utilities/helper.ts:33-39 | Once a call answers a defined value, every later call whose arguments serialize alike answers the same value. |
| `Helper.MemoCallTransparent` | src/utilities/helper.ts:30-41 | If the cache agrees with `func` and the serializer separates arguments `func` treats differently, then the memoized call returns what `func` returns, and the cache keeps agreeing. |
| `Helper.MemoRunTransparent` | src/utilities/helper.ts:30-41 | Over any sequence of calls, each answer of the memoized function is what `func` gives for those arguments. |
| `Helper.InvocationsAllWhenSpaced` | src/utilities/helper.ts:69-79 | The converse of spacing: calls at clock readings already `delay` apart, the first at least `delay` after lastTime, all run. |
| `Helper.InvocationsFromStart` | src/utilities/helper.ts:70-75 | A fresh throttled function starts from lastTime 0, so with delay >= 0 it never runs before the clock reads `delay`. |
| `Helper.InvocationsSpaced` | src/utilities/helper.ts:69-79 | Over any sequence of call times, the first invocation is at least `delay` after the initial lastTime, and consecutive invocations are at least `delay` apart. |
| `Helper.InvocationsPairwiseSpaced` | src/utilities/helper.ts:69-79 | With delay >= 0, any two invocations are at least `delay` apart. |
| `Version.ToNumberOfDigits` | scripts/version-management.ts:16 | `Number` of a non-empty digit string is its decimal value. |
| `Version.BumpIncreases` | scripts/version-management.ts:15-27 | The bumped triple is strictly greater than the old one in lexicographic order. |
| `Version.ParseRender` | scripts/version-management.ts:16 | Splitting the text of a triple on "." and reading each part gives the triple back. |
| `Version.IncrementOfComponents` | scripts/version-management.ts:15-27 | Whenever the first three "."-separated parts of the input read as M, m, p, the output is the text of (M+1).0.0 for "major", M.(m+1).0 for "minor", and M.m.(p+1) for any other type. |
| `Version.IncrementVersionBumps` | scripts/version-management.ts:15-27 | On a well-formed "M.m.p", `incrementVersion` gives the text of the bumped triple. |
| `Version.IncrementVersionRoundTrip` | scripts/version-management.ts:15-27 | Splitting the output on "." and reading each part gives the bumped triple. |
| `Strings.Capitalize` | src/utilities/strings.ts:8-11 | The length is kept. For a non-empty string the tail is unchanged and the first character is upper-cased; "" stays "". |
| `Strings.CapitalizeIdempotent` | src/utilities/strings.ts:8-11 | Capitalizing twice is capitalizing once. A string is its own capitalization iff it is empty or does not start with a lower-case letter. |
| `Strings.TruncateString` | src/utilities/strings.ts:20-27 | A string of at most maxLength characters is returned unchanged. Otherwise the result is its first maxLength characters followed by the suffix, so its length is maxLength plus the suffix's length. A negative maxLength cuts from the end, as `slice` does. |
| `Strings.TruncateIsPrefixPlusSuffix` | src/utilities/strings.ts:20-27 | The result is the input, or a prefix of it followed by the suffix. |
| `Strings.AlphaNumericMeaning` | src/utilities/strings.ts:34-37 | `isAlphaNumeric` holds iff the string is non-empty and every character is an ASCII letter or digit. |
| `Strings.CountWordsMeaning` | src/utilities/strings.ts:44-46 | The result is the number of maximal runs of non-white-space characters, or 1 when there is none. |
| `Strings.KebabAlphabet` | src/utilities/strings.ts:53-59 | The output holds only a-z, 0-9, "_" and "-", and in particular no white space. |
| `Strings.EmailPatternMeaning` | src/utilities/strings.ts:81-84 | The pattern accepts a string iff it has no white space, exactly one "@" and a non-empty part before it, and a "." after it that is neither the domain's first nor its last character. |
| `Strings.NoDoubleSeparator` | src/utilities/strings.ts:96 | Replacing every run of separators by one separator leaves no two separators in a row. The result starts with one iff the input did. |
| `Strings.SlugShape` | src/utilities/strings.ts:91-97 | A slug holds only a-z, 0-9 and "-", never two "-" in a row. |
| `Strings.SlugFixedPoint` | src/utilities/strings.ts:91-97 | A string of slug shape is its own slug. |
| `Strings.SlugIdempotent` | src/utilities/strings.ts:91-97 | Slugifying twice is slugifying once. |
| `Objects.PickMeaning` | src/utilities/objects.ts:55-68 | The result holds exactly the requested keys that `obj` has, once each, in request order. Each is paired with `obj`'s value; any other key is absent. |
| `Objects.OmitFilters` | src/utilities/objects.ts:76-82 | `omit` keeps exactly the properties whose key is not listed, in their original order. |
| `Objects.OmitMeaning` | src/utilities/objects.ts:76-82 | The result's keys are `obj`'s keys minus the listed ones, in `obj`'s order. A listed key is absent, and any other key keeps its value. |
| `Objects.CompactObjectMeaning` | src/utilities/objects.ts:292-299 | No value of the result is null or undefined. A key keeps its value when that value is neither, and is absent otherwise. The kept keys stay in `obj`'s order. |
| `Objects.GroupByMeaning` | src/utilities/objects.ts:275-285 | The group names are the distinct selector results, in first-seen order. Each group lists, in the original order, exactly the values whose selector result is its name. |
| `Objects.GroupByPermutation` | src/utilities/objects.ts:275-285 | All groups together hold exactly `obj`'s values, each as often as in `obj`. |
| `Objects.RenameKeysMeaning` | src/utilities/objects.ts:336-342 | The result's keys are the renamed keys, deduplicated in first-seen order, and a key is present iff some original key renames to it. Its value comes from such an original key: the last one, since later writes win. |
| `Objects.RenameKeysInjective` | src/utilities/objects.ts:336-342 | When no two keys rename to the same key, the result is `obj` with each key renamed in place and the values unchanged. |
| `Objects.InvertObjectMeaning` | src/utilities/objects.ts:190-195 | The result's keys are the string forms of `obj`'s values, deduplicated in first-seen order, and a key is present iff some value has that form. Its value is the key of the last such property. |
| `Objects.InvertObjectDistinct` | src/utilities/objects.ts:190-195 | With pairwise distinct values, each property `k: v` becomes `String(v): k`, in the same order. |
| `Objects.InvertObjectTwice` | src/utilities/objects.ts:190-195 | For an object whose values are pairwise distinct strings, inverting twice gives the object back. |
| `Objects.KeyPartition` | src/utilities/objects.ts:350-366 | Key `difference` and `intersection` split obj1's keys between them, each keeping obj1's order. A key is in the first iff obj2 lacks it and in the second iff obj2 has it. |
| `ObjectEquality.ShallowEqualMissingKey` | src/utilities/objects.ts:156-161 | `shallowEqual({a: undefined}, {b: 1})` is true, but `shallowEqual({b: 1}, {a: undefined})` is false. |
| `ObjectEquality.ShallowEqualCheckedMeaning` | src/utilities/objects.ts:156-161 | The corrected comparison holds iff both objects have the same key set and identical values under each key. |
| `ObjectEquality.ShallowEqualCheckedSymmetric` | src/utilities/objects.ts:156-161 | The corrected comparison is symmetric. |
| `ObjectEquality.ShallowEqualWithoutUndefined` | src/utilities/objects.ts:156-161 | When no property of the first object holds `undefined`, the comparison as written and the corrected one agree. |
| `ObjectEquality.DeepEqualMissingKey` | src/utilities/objects.ts:169-183 | `deepEqual({a: undefined}, {b: 1})` is true, but `deepEqual({b: 1}, {a: undefined})` is false. |
| `ObjectEquality.DeepEqualReflexive` | src/utilities/objects.ts:169-183 | Every value deep-equals itself, objects and arrays included. |
| `ObjectEquality.DeepEqualCheckedImplies` | src/utilities/objects.ts:169-183 | The corrected comparison only narrows the original: what it accepts, `deepEqual` accepts too. |
| `ObjectEquality.DeepEqualCheckedReflexive` | src/utilities/objects.ts:169-183 | Every value equals itself under the corrected comparison. |
| `ObjectEquality.DeepEqualCheckedSymmetric` | src/utilities/objects.ts:169-183 | The corrected comparison is symmetric at every depth. |
| `ObjectMerge.MergeMeaning` | src/utilities/objects.ts:100-110 | When merging into an object succeeds, the result is an object. The source's keys are added after the target's, in source order. A key the source lacks keeps its value, and a source value that is not an object or array overwrites. A source object or array is merged recursively into the target's value under that key, or into `{}` when that value is falsy (in the corrected merge, when it is not an object). |
| `ObjectMerge.MergeIntoNonObject` | src/utilities/objects.ts:100-110 | Merging into anything but an object succeeds only for a source without keys; the first write throws. |
| `ObjectMerge.MergeDeepPrimitiveCollision` | src/utilities/objects.ts:100-110 | `mergeDeep({a: 1}, {a: {b: 2}})` throws a TypeError, while the corrected merge gives `{a: {b: 2}}`. |
| `ObjectMerge.MergeDeepFixedTotal` | src/utilities/objects.ts:100-110 | The corrected merge into an object never throws and gives an object. |
| `JsValues.SetKeyMeaning` | src/utilities/objects.ts:319-326 | A property write succeeds exactly on an object. Afterwards the written key reads the new value and every other key reads what it read before. `Object.keys` gains the key at the end exactly when it was missing. A write into a primitive, null or undefined is a TypeError. |
| `NestedObjects.GetNestedValueAppend` | src/utilities/objects.ts:307-309 | Walking a path in two parts is walking the first part, then the second from where it ended. |
| `NestedObjects.GetNestedValueOfUndefined` | src/utilities/objects.ts:307-309 | Any walk from `undefined` gives `undefined`. |
| `NestedObjects.GetNestedValueMissing` | src/utilities/objects.ts:307-309 | If some key along the path is missing (undefined), the whole walk gives `undefined`. |
| `NestedObjects.SetNestedValueMeaning` | src/utilities/objects.ts:318-328 | The write succeeds iff every intermediate on the path is an object or absent. Then the stored value is read back along the path, and every key beside the path's first keeps its value. |
| `NestedObjects.SetThenGet` | src/utilities/objects.ts:307-328 | After a successful `setNestedValue` on a non-empty path, `getNestedValue` on that path returns the stored value. |
| `NestedObjects.SetBesidePath` | src/utilities/objects.ts:318-328 | A successful write leaves every top-level key other than the path's first unchanged. |
| `NestedObjects.FlattenNoNested` | src/utilities/objects.ts:237-248 | No value of a flattened object is a nested object; arrays and primitives stay as leaves. |
| `NestedObjects.FlatKeyInjective` | src/utilities/objects.ts:237-248 | Two paths whose keys contain no "." give the same flattened key only if they are the same path. |
| `NestedObjects.FlattenMeaning` | src/utilities/objects.ts:237-248 | For an object whose keys contain no "." and whose nested objects are non-empty, the flattened properties are its leaves, in order. Each leaf's key is its path joined by ".", and its value is what `getNestedValue` finds there. |
| `NestedObjects.UnflattenFlat` | src/utilities/objects.ts:255-267 | Unflattening the "."-joined keys of a list of leaves writes the leaves one after another along their paths. |
| `NestedObjects.Rebuild` | src/utilities/objects.ts:255-267 | Writing the leaves of such an object into `{}` gives the object back. |
| `NestedObjects.FlattenRoundTrip` | src/utilities/objects.ts:237-267 | `unflattenObject(flattenObject(o))` is `o` when no key contains "." and no nested object is empty. An empty key is allowed only on a top-level leaf. |

## Left out

- `debounce` (src/utilities/helper.ts:49-61) schedules and cancels timers; its whole behaviour is timing.
- `roundTo` and `isNumber` work on floating point and NaN; the model's numbers are integers.
- `formatNumber` on non-integers is left out: there, the regular expression also groups fractional digits.
- `toCamelCase` is left out: it depends on the `\b` word-boundary regular expression with upper-casing of matches.
- `deepClone` is left out. On a value datatype it is the identity, and reference distinctness cannot be expressed.
- `freezeObject` and `isPlainObject` are left out because they depend on prototypes and runtime identity.
- `hasKey` is left out because of its prototype-chain lookup.
- `mergeObjects`, `getObjectKeys`, `getObjectValues`, `isEmptyObject` and `toEntries` are direct uses of `Object.assign`, `Object.keys`, `Object.values` and `Object.entries`. The model uses those operations (`AssignAll`, `Keys`, `Entries`) but states no separate contract for these wrappers.
- `mapObject` and `filterObject` take arbitrary callbacks. They are not modelled.
- `generateUUID` is not part of this model: its module is not in the repository's sources.
- The date functions the tests exercise but `dates.ts` does not define are not modelled.
- The release script's I/O is left out: `getCurrentVersion`, `updatePackageVersion`, `publishPackage` and `main` read files and run git and npm.
- Time zones and daylight saving are left out: dates use the UTC calendar, and the local getters are not modelled.
- JavaScript's `Object.keys`, `Object.entries` and for..in list array-index keys (the canonical decimal forms of 0 to 4294967294, such as "0" and "12") first, in ascending numeric order, and only then the other keys in insertion order. The model keeps every key in insertion order. A field sequence read from a JavaScript object already has its index keys first, and the filtering operations (`omit`, `compactObject`) keep that order. Where an operation adds keys, the order stated below differs from the source whenever an index key is added after a non-index key, or index keys are added out of ascending order:
- Objects.PickMeaning: the result lists the requested keys in request order; in the source `pick({1: 'a', 2: 'b'}, ['2', '1'])` has keys `["1", "2"]`, not `["2", "1"]`.
- Objects.GroupByMeaning: the groups are stated in first-seen label order; in the source a label that is an index key ("0", "7") comes first, so `groupBy({x: 'a', y: '0'}, v => v)` has keys `["0", "a"]`.
- Objects.RenameKeysMeaning: the result's keys are stated in first-use order; in the source `renameKeys({a: 1, b: 2}, {b: '0'})` has keys `["0", "a"]`, not `["a", "0"]`.
- Objects.RenameKeysInjective: "renamed in place" holds in the source only when no new name is an index key; with `{b: '0'}` the renamed key moves to the front (see Objects.RenameKeysMeaning).
- Objects.InvertObjectMeaning: the result's keys are stated in the order of the input's values; a number value (the documented `string | number` case) or a digit string becomes an index key, so `invertObject({a: 10, b: 2})` has keys `["2", "10"]` in the source, not `["10", "2"]`.
- Objects.InvertObjectDistinct: "in the same order" holds in the source only when no value's string form is an index key (see Objects.InvertObjectMeaning).
- Objects.InvertObjectTwice: the object comes back unchanged in the source only when its index keys already come first in ascending order and no value's string form is an index key; `invertObject(invertObject({a: '2', b: '1'}))` is `{b: '1', a: '2'}` in the source, so key order is not restored.
- ObjectMerge.MergeMeaning: the source's keys that the target lacks are stated to follow the target's keys; in the source an added index key goes before them, so `mergeDeep({a: 1}, {0: 2})` has keys `["0", "a"]`.
- JsValues.SetKeyMeaning: a new key is stated to land at the end; in the source a new index key goes before every non-index key and among the index keys in ascending order, so after `o = {a: 1}; o['1'] = 2` the keys are `["1", "a"]`, while the model gives `["a", "1"]`.
- `===` on two objects or arrays compares references; the model treats two compound values as never identical. This does not change `deepEqual`. It does change `shallowEqual` when a property holds a nested object or array: the source then answers true for one shared reference.
- `mergeDeep`, `setNestedValue` and `unflattenObject` mutate in place; the model returns the new value. When a write throws part-way, the partly updated object the source leaves behind is not modelled, only the TypeError. Every write into a primitive throws, as it does in strict mode, the mode of the compiled output.
- Writing a property into an array (mergeDeep or setNestedValue reaching an array target) is outside the model: it gives the `ArrayWrite` failure instead of updating the array. The lines below say which contracts this affects.
- JsValues.SetKeyMeaning: JavaScript also accepts a write into an array: an index key sets an element, and any other key adds a property. The model answers `ArrayWrite` there, so "succeeds exactly on an object" is narrower than the source.
- ObjectMerge.MergeIntoNonObject: an array target accepts the writes in the source, so merging a non-empty source into an array succeeds there. The model answers `ArrayWrite`; the lemma's "fails for any non-empty source" holds in the source only for primitive, null and undefined targets.
- NestedObjects.SetNestedValueMeaning: an array on the path accepts the write in the source; the model answers `ArrayWrite`, so "succeeds iff every intermediate is an object or absent" is narrower than the source.
- Keys that name `Object.prototype` properties ("toString", "constructor", "__proto__") are ordinary own keys in the model. Inherited properties and the `__proto__` setter are not modelled. The lines below say which contracts this affects.
- Objects.PickMeaning: the source's `key in obj` also finds inherited properties, so `pick({}, ["toString"])` copies the inherited function. The model copies own properties only.
- Objects.GroupByMeaning: a selector result naming an inherited property ("constructor") finds that function through `acc[groupKey]`, and the source then throws on `push`. The model starts a fresh group.
- Objects.GroupByPermutation: the same "constructor" case as Objects.GroupByMeaning: the source throws there, while the model gives groups holding every value.
- ObjectMerge.MergeMeaning: a source key "__proto__" reaches the prototype in the source, so `mergeDeep({}, {"__proto__": {x: 1}})` writes `x` into `Object.prototype` and adds no own key. The model adds an own key "__proto__". A target read of an inherited name such as "toString" finds a function in the source and nothing in the model. An array value under a key the source also holds as an object or array is merged into in the source (`mergeDeep({a: [1, 2]}, {a: [3]})` gives `{a: [3, 2]}`); the model answers `ArrayWrite`, so its contract says nothing about that case.
- NestedObjects.SetNestedValueMeaning: also, a path key "__proto__" or an inherited name reaches the prototype in the source; the model treats it as an own key.
- NestedObjects.SetThenGet: a path key "__proto__" or an inherited name ("toString") reaches the prototype in the source, so the value read back can differ; the model treats every path key as an own key.
- NestedObjects.SetBesidePath: a first path key "__proto__" writes into the prototype in the source and adds no own key; the model adds the key.
- NestedObjects.UnflattenFlat: a key part "__proto__" or an inherited name reaches the prototype in the source (`unflattenObject({"__proto__.x": 1})` writes `x` into `Object.prototype`); the model treats every part as an own key.
- NestedObjects.Rebuild: the same key-part case as NestedObjects.UnflattenFlat; in the source the object comes back only when no key part is "__proto__" or an inherited name.
- NestedObjects.GetNestedValueMissing: `getNestedValue({}, ["toString"])` gives the inherited function in the source; the model reads own properties only and gives undefined.
- NestedObjects.GetNestedValueAppend: the composition holds in the source as well, but the walk it composes reads own properties only (see NestedObjects.GetNestedValueMissing).
- Objects.InvertObjectMeaning: a value whose string form is "__proto__" replaces the result's prototype in the source instead of adding a key. The model adds the key.
- Objects.InvertObjectDistinct: a value whose string form is "__proto__" sets the result's prototype in the source and adds no key (see Objects.InvertObjectMeaning).
- Objects.InvertObjectTwice: the same "__proto__" value case as Objects.InvertObjectDistinct.
- Objects.RenameKeysMeaning: `keyMap[key] || key` also finds inherited properties of `keyMap`, so `renameKeys({constructor: 1}, {})` renames the key to the text of the `Object` function in the source. The model looks up own keys of `keyMap` only. A new key "__proto__" also hits the setter in the source.
- Objects.RenameKeysInjective: the same inherited `keyMap` lookup and "__proto__" setter as Objects.RenameKeysMeaning.
- Objects.CompactObjectMeaning: an own "__proto__" key (one `JSON.parse` can make) is written through `acc[key] =`, which hits the `__proto__` setter in the source and adds no own key. The model keeps the key.
- NestedObjects.FlattenMeaning: a top-level own "__proto__" leaf is written through `acc[prefixedKey] =` and hits the setter in the source; the model keeps it as a leaf.
- NestedObjects.FlattenRoundTrip: the same own "__proto__" key case as NestedObjects.FlattenMeaning and NestedObjects.UnflattenFlat.
- Class instances are plain objects in the model, since prototypes are not modelled. For mergeDeep, this means a class instance in the source is merged like any object.
- Arrays.SortByKey: an insertion sort, one of the orders the comparator allows. The engine's own algorithm and its order among equal keys are not modelled; the comparator never answers 0, so that order is engine-specific.
- Arrays.SortByKeySorted: keys are integers; `a[key] > b[key]` on strings or mixed types is not modelled.
- Arrays.Chunk: requires size > 0, because with a size of 0 or less the source loop never ends (see "## Findings"). `Arrays.ChunkChecked` covers every size.
- Numbers.FormatNumberGroups: matches the source for abs(n) <= 2^53 only. The model prints every integer in exact decimal digits. JavaScript's `toString` prints the shortest digits that identify a double, which differ from the exact value for some larger integers (2^60 prints as "1152921504606847000"). From 10^21 on it switches to exponent form ("1e+21"), which the regular expression groups differently.
- Numbers.FormatNumberRemoveCommas: same bound as Numbers.FormatNumberGroups, abs(n) <= 2^53.
- Numbers.FormatNumberShape: same bound as Numbers.FormatNumberGroups, abs(n) <= 2^53.
- Numbers.FindMax: leaves out the argument-count limit of `Math.max(...array)` on very large arrays.
- Numbers.FindMin: leaves out the argument-count limit of `Math.min(...array)` on very large arrays.
- Helper.MemoRunKeeps: receives the argument serializer (`JSON.stringify`) as a parameter instead of modelling JSON. The same holds for `Helper.MemoRunSticky`, `Helper.MemoCallTransparent` and `Helper.MemoRunTransparent`.
- Helper.InvocationsSpaced: receives the clock readings as a sequence instead of calling `Date.now`. The same holds for `Helper.InvocationsPairwiseSpaced`, `Helper.InvocationsAllWhenSpaced` and `Helper.InvocationsFromStart`.
- Dates.DaysBetween: stated on integer milliseconds. `Math.round` of the quotient is modelled exactly, including halves rounding up; floating-point division error is not modelled.
- Dates.AddDaysShift: a `Date` here is any integer time. In the source, `setDate` passes its result through TimeClip: a time beyond 8.64e15 ms (10^8 days) either side of the epoch gives an Invalid Date, which stays invalid. `addDays(new Date(0), 100000001)` is an Invalid Date there, while the model moves the time by the days anyway.
- Dates.AddDaysCompose: holds in the source only while the date and every intermediate result stay within 8.64e15 ms of the epoch; `addDays(addDays(d, 2e8), -2e8)` is an Invalid Date in the source.
- Strings.Capitalize: `toUpperCase` is modelled on ASCII letters only, and every other character is kept. In the source full Unicode case mapping applies: `capitalize('éa')` is "Éa" (the model keeps "éa"), and `capitalize('ßa')` is "SSa", one character longer, so `|r| == |s|` does not hold there.
- Strings.CapitalizeIdempotent: stated with the ASCII-only upper-casing. In the source a string starting with a non-ASCII lower-case letter, such as "éa", is not its own capitalisation, while the model says it is; for one whose upper case is longer ("ß" becomes "SS") the tail changes too.
- Strings.TruncateString: lengths are counted in characters (Unicode code points). The source's `length` and `slice` count UTF-16 code units, so a character outside the Basic Multilingual Plane counts as two and can be cut in half: `truncateString('😀😀😀', 2)` is "😀..." in the source and "😀😀..." in the model. The contract matches the source on strings of BMP characters.
- Strings.TruncateIsPrefixPlusSuffix: the same code-unit counting as Strings.TruncateString; in the source the prefix can end inside a surrogate pair.
- Strings.KebabAlphabet: ASCII only; all string case mapping (`toLowerCase`, `toUpperCase`) is restricted to ASCII letters.
- Version.ToNumberOfDigits: digit strings only, and exact for every length. `Number` rounds a value above 2^53 to the nearest double: `Number("9007199254740993")` is 9007199254740992. For any other text, `Number` is modelled as blank giving 0 and everything else giving NaN; signs, decimals and exponents are not modelled.
- Version.BumpIncreases: holds for components below 2^53 only. From there on, the source's parse and its `+ 1` round in double arithmetic: `incrementVersion("1.0.9007199254740993", "patch")` gives "1.0.9007199254740992", a smaller version.
- Version.IncrementOfComponents: components are unbounded integers; beyond 2^53 the source's double arithmetic differs (see Version.BumpIncreases).
- Version.IncrementVersionBumps: same bound as Version.BumpIncreases.
- Version.IncrementVersionRoundTrip: same bound as Version.BumpIncreases.
- Version.ParseRender: exact for every triple; `Number` on a component above 2^53 rounds (see Version.ToNumberOfDigits).
- NestedObjects.FlattenRoundTrip: assumes keys without "." and non-empty nested objects, as the round trip does not hold otherwise: a dotted key is split, and an empty nested object disappears.
- NestedObjects.FlattenMeaning: stated under the same conditions as the round trip.

## Findings

| source | as written | input that shows it | evidently intended | confidence | as-written member | corrected member |
|---|---|---|---|---|---|---|
| src/utilities/objects.ts:169-183 | `deepEqual` compares `obj2[key]` for each key of `obj1` without checking that `obj2` has the key, so a missing key reads as `undefined` | `deepEqual({a: undefined}, {b: 1})` is true, while the swapped call is false | equal only when both have the same keys; symmetric | not executed; high | `ObjectEquality.DeepEqualMissingKey` | `ObjectEquality.DeepEqualCheckedSymmetric` |
| src/utilities/objects.ts:156-161 | `shallowEqual` compares `obj1[key] === obj2[key]` without checking that `obj2` has the key | `shallowEqual({a: undefined}, {b: 1})` is true, while the swapped call is false | equal only when both have the same keys and identical values | not executed; high | `ObjectEquality.ShallowEqualMissingKey` | `ObjectEquality.ShallowEqualCheckedMeaning` |
| src/utilities/objects.ts:100-110 | `mergeDeep` descends into the target's value, or `{}` when it is falsy, so into a truthy primitive as it stands | `mergeDeep({a: 1}, {a: {b: 2}})` writes `b` into the number 1 and throws a TypeError in strict mode | a non-object target value is replaced by the merged source object | not executed; medium | `ObjectMerge.MergeDeepPrimitiveCollision` | `ObjectMerge.MergeDeepFixedTotal` |
| src/utilities/arrays.ts:33-39 | `chunk` advances its index by `size`, so a size of 0 or less never moves it forward | `chunk([1], 0)` loops forever, pushing empty slices | end for every size; no chunks for a size below 1 | not executed; medium | `Arrays.ChunkNeverEnds` | `Arrays.ChunkChecked` |
| src/utilities/strings.ts:44-46 | `countWords` counts the pieces of `trim().split(/\s+/)`, and splitting "" gives one empty piece | `countWords("")` and `countWords("   ")` are 1 | 0 words for an empty or blank string | not executed; medium | `Strings.CountWordsOfEmpty` | `Strings.CountWordsFixedMeaning` |

=== FILE: arrays.dfy ===
/** The array utilities over immutable sequences: each returns a new sequence and leaves
    its input untouched, as the spread copies in the source do. */
module Arrays {
  import opened Random

  // ---------------------------------------------------------------- shuffleArray

  /** `shuffleArray`: a Fisher-Yates pass from the back over a copy of `a`. The k-th draw
      of `Math.random()` is `draws[k]`; at position `i` it picks `j = floor(draws[k] * (i + 1))`. */
  method ShuffleArray<T>(a: seq<T>, draws: seq<real>) returns (r: seq<T>)
    requires |draws| + 1 >= |a|
    requires forall k :: 0 <= k < |draws| ==> IsDraw(draws[k])
    ensures |r| == |a|
    ensures multiset(r) == multiset(a)
  {
    r := a;
    var i := |r| - 1;
    while i > 0
      invariant -1 <= i < |a|
      invariant |r| == |a|
      invariant multiset(r) == multiset(a)
    {
      var k := |a| - 1 - i;
      ScaledDrawRange(draws[k], i + 1);
      var j := ScaledDraw(draws[k], i + 1);
      r := Swap(r, i, j);
      i := i - 1;
    }
  }

  /** The destructuring swap `[s[i], s[j]] = [s[j], s[i]]`. */
  function Swap<T>(s: seq<T>, i: nat, j: nat): (r: seq<T>)
    requires i < |s| && j < |s|
    ensures |r| == |s|
    ensures multiset(r) == multiset(s)
    ensures r[i] == s[j] && r[j] == s[i]
    ensures forall k :: 0 <= k < |s| && k != i && k != j ==> r[k] == s[k]
  {
    s[i := s[j]][j := s[i]]
  }

  // ---------------------------------------------------------------- sortByKey

  predicate SortedByKey<T>(s: seq<T>, key: T -> int) {
    forall i, j :: 0 <= i < j < |s| ==> key(s[i]) <= key(s[j])
  }

  predicate DistinctKeys<T>(s: seq<T>, key: T -> int) {
    forall i, j :: 0 <= i < j < |s| ==> key(s[i]) != key(s[j])
  }

  /** The comparator `(a, b) => (a[key] > b[key] ? 1 : -1)`; it never answers 0. */
  function Compare<T>(x: T, y: T, key: T -> int): int {
    if key(x) > key(y) then 1 else -1
  }

  /** Places `x` in front of the first element it does not compare above. */
  function Insert<T>(x: T, s: seq<T>, key: T -> int): (r: seq<T>)
    ensures multiset(r) == multiset(s) + multiset{x}
    ensures |r| == |s| + 1
  {
    if |s| == 0 then [x]
    else if Compare(x, s[0], key) > 0 then
      assert s == [s[0]] + s[1..];
      [s[0]] + Insert(x, s[1..], key)
    else [x] + s
  }

  /** Inserting into a sorted sequence keeps it sorted. */
  lemma {:induction false} InsertSorted<T>(x: T, s: seq<T>, key: T -> int)
    requires SortedByKey(s, key)
    ensures SortedByKey(Insert(x, s, key), key)
  {
    if |s| > 0 && Compare(x, s[0], key) > 0 {
      var t := Insert(x, s[1..], key);
      InsertSorted(x, s[1..], key);
      forall k | 0 <= k < |t| ensures key(s[0]) <= key(t[k]) {
        assert t[k] in multiset(t);
        if t[k] != x {
          assert t[k] in multiset(s[1..]);
          var m :| 0 <= m < |s[1..]| && s[1..][m] == t[k];
          assert s[1..][m] == s[m + 1];
        }
      }
    }
  }

  /** `sortByKey`: sorts a copy with the comparator above. The engine's own sorting algorithm
      is not modelled; this insertion sort is one order the comparator allows. */
  function SortByKey<T>(a: seq<T>, key: T -> int): (r: seq<T>)
    ensures multiset(r) == multiset(a)
    ensures |r| == |a|
  {
    if |a| == 0 then []
    else
      assert a == [a[0]] + a[1..];
      Insert(a[0], SortByKey(a[1..], key), key)
  }

  /** The sorted copy is in nondecreasing key order. */
  lemma {:induction false} SortByKeySorted<T>(a: seq<T>, key: T -> int)
    ensures SortedByKey(SortByKey(a, key), key)
  {
    if |a| > 0 {
      SortByKeySorted(a[1..], key);
      InsertSorted(a[0], SortByKey(a[1..], key), key);
    }
  }

  /** With pairwise distinct keys the sorted copy is strictly ascending. */
  lemma SortByKeyAscending<T>(a: seq<T>, key: T -> int)
    requires DistinctKeys(a, key)
    ensures var r := SortByKey(a, key);
      forall i, j :: 0 <= i < j < |r| ==> key(r[i]) < key(r[j])
  {
    var r := SortByKey(a, key);
    SortByKeySorted(a, key);
    forall i, j | 0 <= i < j < |r| ensures key(r[i]) < key(r[j]) {
      if key(r[i]) == key(r[j]) {
        DistinctElementsOfPermutation(a, r, key, i, j);
      }
    }
  }

  /** Two positions of a permutation of a key-distinct sequence hold different keys. */
  lemma DistinctElementsOfPermutation<T>(a: seq<T>, r: seq<T>, key: T -> int, i: nat, j: nat)
    requires DistinctKeys(a, key)
    requires multiset(r) == multiset(a)
    requires i < j < |r|
    ensures key(r[i]) != key(r[j])
  {
    assert r[i] in multiset(a) && r[j] in multiset(a);
    var i' :| 0 <= i' < |a| && a[i'] == r[i];
    var j' :| 0 <= j' < |a| && a[j'] == r[j];
    if i' == j' {
      assert multiset(r)[r[i]] >= 2 by {
        assert multiset{r[i], r[j]} <= multiset(r) by {
          MultisetOfTwo(r, i, j);
        }
      }
      SingleOccurrence(a, i', key);
    }
  }

  lemma MultisetOfTwo<T>(r: seq<T>, i: nat, j: nat)
    requires i < j < |r|
    ensures multiset{r[i], r[j]} <= multiset(r)
  {
    assert r == r[..i] + [r[i]] + r[i + 1..j] + [r[j]] + r[j + 1..];
  }

  /** In a key-distinct sequence every element occurs once. */
  lemma SingleOccurrence<T>(a: seq<T>, i: nat, key: T -> int)
    requires DistinctKeys(a, key)
    requires i < |a|
    ensures multiset(a)[a[i]] == 1
  {
    assert a == a[..i] + [a[i]] + a[i + 1..];
    assert a[i] !in a[..i] by {
      forall k | 0 <= k < i ensures a[..i][k] != a[i] {
        assert key(a[k]) != key(a[i]);
      }
    }
    assert a[i] !in a[i + 1..] by {
      forall k | i < k < |a| ensures a[k] != a[i] {
        assert key(a[k]) != key(a[i]);
      }
    }
    assert multiset(a[..i])[a[i]] == 0;
    assert multiset(a[i + 1..])[a[i]] == 0;
  }

  // ---------------------------------------------------------------- chunk

  /** The concatenation of a sequence of sequences. */
  function Concat<T>(ss: seq<seq<T>>): seq<T> {
    if |ss| == 0 then [] else Concat(ss[..|ss| - 1]) + ss[|ss| - 1]
  }

  /** `chunk(array, size)`: consecutive slices of `size` elements, the last possibly shorter.
      A size of zero or less makes the source loop forever, so it is excluded. */
  method Chunk<T>(a: seq<T>, size: int) returns (r: seq<seq<T>>)
    requires size > 0
    ensures Concat(r) == a
    ensures forall k :: 0 <= k < |r| - 1 ==> |r[k]| == size
    ensures |r| > 0 ==> 1 <= |r[|r| - 1]| <= size
    ensures |r| == 0 <==> |a| == 0
  {
    r := [];
    var i := 0;
    while i < |a|
      invariant 0 <= i
      invariant i == 0 <==> |r| == 0
      invariant i <= |a| ==> Concat(r) == a[..i] && forall k :: 0 <= k < |r| ==> |r[k]| == size
      invariant i > |a| ==> Concat(r) == a && forall k :: 0 <= k < |r| - 1 ==> |r[k]| == size
      invariant |r| > 0 ==> 1 <= |r[|r| - 1]| <= size
    {
      var end := if i + size < |a| then i + size else |a|;
      var piece := a[i..end];
      assert (r + [piece])[..|r|] == r;
      assert a[..end] == a[..i] + piece;
      r := r + [piece];
      i := i + size;
    }
  }

  /** The source's loop index after `n` iterations: it starts at 0 and grows by `size`. */
  function ChunkCursor(size: int, n: nat): int {
    if n == 0 then 0 else ChunkCursor(size, n - 1) + size
  }

  /** As written, a size of zero or less never moves the index forward, so for a non-empty
      array the loop guard `i < array.length` still holds after every number of iterations
      and the loop keeps pushing pieces forever. */
  lemma {:induction false} ChunkNeverEnds(len: nat, size: int, n: nat)
    requires len > 0 && size <= 0
    ensures ChunkCursor(size, n) <= 0 < len
  {
    if n > 0 {
      ChunkNeverEnds(len, size, n - 1);
    }
  }

  /** Chunking that ends for every size: no chunks for a size below 1, `Chunk` otherwise. */
  method ChunkChecked<T>(a: seq<T>, size: int) returns (r: seq<seq<T>>)
    ensures size < 1 ==> r == []
    ensures size >= 1 ==> Concat(r) == a && (|r| == 0 <==> |a| == 0)
    ensures size >= 1 ==> forall k :: 0 <= k < |r| - 1 ==> |r[k]| == size
    ensures size >= 1 && |r| > 0 ==> 1 <= |r[|r| - 1]| <= size
  {
    if size < 1 {
      r := [];
    } else {
      r := Chunk(a, size);
    }
  }

  /** The total length of the pieces. */
  lemma {:induction false} ConcatLength<T>(ss: seq<seq<T>>, size: int)
    requires forall k :: 0 <= k < |ss| ==> |ss[k]| == size
    ensures |Concat(ss)| == |ss| * size
  {
    if |ss| > 0 {
      ConcatLength(ss[..|ss| - 1], size);
    }
  }

  /** A chunking with the shape `Chunk` guarantees has `ceil(|a| / size)` pieces. */
  lemma ChunkCount<T>(a: seq<T>, size: int, r: seq<seq<T>>)
    requires size > 0
    requires Concat(r) == a
    requires forall k :: 0 <= k < |r| - 1 ==> |r[k]| == size
    requires |r| > 0 ==> 1 <= |r[|r| - 1]| <= size
    requires |r| == 0 <==> |a| == 0
    ensures |r| == (|a| + size - 1) / size
  {
    if |r| > 0 {
      var c := |r|;
      ConcatLength(r[..c - 1], size);
      var l := |r[c - 1]|;
      assert |a| == (c - 1) * size + l;
      DivUnique(|a| + size - 1, size, c, l - 1);
    } else {
      DivUnique(size - 1, size, 0, size - 1);
    }
  }

  lemma DivUnique(x: int, d: int, q: int, m: int)
    requires d > 0 && 0 <= m < d && x == q * d + m
    ensures x / d == q
  {
    var k := q - x / d;
    assert k * d == x % d - m;
    MulSign(k, d);
  }

  lemma MulSign(k: int, d: int)
    requires d > 0
    ensures k >= 1 ==> k * d >= d
    ensures k <= -1 ==> k * d <= -d
  {
  }

  // ---------------------------------------------------------------- difference / intersect

  /** `difference(array1, array2)`: the elements of `array1` not included in `array2`. */
  function Difference<T(==)>(a: seq<T>, b: seq<T>): (r: seq<T>)
    ensures |r| <= |a|
  {
    if |a| == 0 then []
    else Difference(a[..|a| - 1], b) + (if a[|a| - 1] in b then [] else [a[|a| - 1]])
  }

  /** `intersect(array1, array2)`: the elements of `array1` included in `array2`. */
  function Intersect<T(==)>(a: seq<T>, b: seq<T>): (r: seq<T>)
    ensures |r| <= |a|
  {
    if |a| == 0 then []
    else Intersect(a[..|a| - 1], b) + (if a[|a| - 1] in b then [a[|a| - 1]] else [])
  }

  /** Membership: the difference holds what `array2` lacks, the intersection what it has. */
  lemma {:induction false} DifferenceIntersectMembers<T>(a: seq<T>, b: seq<T>, x: T)
    ensures x in Difference(a, b) <==> x in a && x !in b
    ensures x in Intersect(a, b) <==> x in a && x in b
  {
    if |a| > 0 {
      DifferenceIntersectMembers(a[..|a| - 1], b, x);
      assert a == a[..|a| - 1] + [a[|a| - 1]];
    }
  }

  /** Difference and intersection split `array1` between them: every occurrence goes to
      exactly one side. */
  lemma {:induction false} DifferenceIntersectPartition<T>(a: seq<T>, b: seq<T>)
    ensures multiset(Difference(a, b)) + multiset(Intersect(a, b)) == multiset(a)
  {
    if |a| > 0 {
      var pre := a[..|a| - 1];
      DifferenceIntersectPartition(pre, b);
      DifferenceIntersectLast(a, b);
      LastSplit(a);
    }
  }

  lemma LastSplit<T>(a: seq<T>)
    requires |a| > 0
    ensures multiset(a) == multiset(a[..|a| - 1]) + multiset{a[|a| - 1]}
  {
    assert a == a[..|a| - 1] + [a[|a| - 1]];
  }

  /** Membership in a non-empty sequence: in its prefix or its last element. */
  lemma InLast<T>(s: seq<T>, x: T)
    requires |s| > 0
    ensures (x in s) == (x in s[..|s| - 1] || s[|s| - 1] == x)
  {
    assert s == s[..|s| - 1] + [s[|s| - 1]];
  }

  /** The last element of `array1` goes to the intersection when `array2` has it and to the
      difference otherwise. */
  lemma DifferenceIntersectLast<T>(a: seq<T>, b: seq<T>)
    requires |a| > 0
    ensures var pre, x := a[..|a| - 1], a[|a| - 1];
      && multiset(Difference(a, b)) == multiset(Difference(pre, b)) + (if x in b then multiset{} else multiset{x})
      && multiset(Intersect(a, b)) == multiset(Intersect(pre, b)) + (if x in b then multiset{x} else multiset{})
  {
  }

  /** Both keep `array1`'s order: each distributes over concatenation. */
  lemma {:induction false} DifferenceAppend<T>(s: seq<T>, t: seq<T>, b: seq<T>)
    ensures Difference(s + t, b) == Difference(s, b) + Difference(t, b)
    ensures Intersect(s + t, b) == Intersect(s, b) + Intersect(t, b)
    decreases |t|
  {
    if |t| == 0 {
      assert s + t == s;
    } else {
      assert (s + t)[..|s + t| - 1] == s + t[..|t| - 1];
      DifferenceAppend(s, t[..|t| - 1], b);
    }
  }

  /** `x` occurs in `s` at some position before an occurrence of `y`. */
  ghost predicate Before<T>(s: seq<T>, x: T, y: T) {
    exists p, q :: 0 <= p < q < |s| && s[p] == x && s[q] == y
  }

  /** `sub` lists elements of `s` in the order they occur there. */
  ghost predicate InOrder<T>(sub: seq<T>, s: seq<T>) {
    forall i, j :: 0 <= i < j < |sub| ==> Before(s, sub[i], sub[j])
  }

  /** Both filters keep the order of `a`. */
  lemma {:induction false} DifferenceIntersectOrder<T>(a: seq<T>, b: seq<T>)
    ensures InOrder(Difference(a, b), a)
    ensures InOrder(Intersect(a, b), a)
  {
    if |a| > 0 {
      var pre := a[..|a| - 1];
      var e := a[|a| - 1];
      assert a == pre + [e];
      DifferenceIntersectOrder(pre, b);
      var d := Difference(pre, b);
      var n := Intersect(pre, b);
      forall x | x in d ensures x in pre { DifferenceIntersectMembers(pre, b, x); }
      forall x | x in n ensures x in pre { DifferenceIntersectMembers(pre, b, x); }
      InOrderExtend(d, pre, e, e !in b);
      InOrderExtend(n, pre, e, e in b);
    }
  }

  /** Appending the next element of `s` to both sides keeps the order. */
  lemma InOrderExtend<T>(d: seq<T>, pre: seq<T>, e: T, keep: bool)
    requires InOrder(d, pre)
    requires forall x :: x in d ==> x in pre
    ensures InOrder(d + (if keep then [e] else []), pre + [e])
  {
    var r := d + (if keep then [e] else []);
    var a := pre + [e];
    forall i, j | 0 <= i < j < |r| ensures Before(a, r[i], r[j]) {
      InOrderStep(d, pre, e, keep, i, j);
    }
  }

  lemma InOrderStep<T>(d: seq<T>, pre: seq<T>, e: T, keep: bool, i: nat, j: nat)
    requires InOrder(d, pre)
    requires forall x :: x in d ==> x in pre
    requires i < j < |d + (if keep then [e] else [])|
    ensures Before(pre + [e], (d + (if keep then [e] else []))[i], (d + (if keep then [e] else []))[j])
  {
    var r := d + (if keep then [e] else []);
    var a := pre + [e];
    if j < |d| {
      assert Before(pre, d[i], d[j]);
      var p, q :| 0 <= p < q < |pre| && pre[p] == d[i] && pre[q] == d[j];
      assert a[p] == r[i] && a[q] == r[j];
    } else {
      assert r[i] == d[i] && d[i] in pre;
      var p :| 0 <= p < |pre| && pre[p] == d[i];
      assert a[p] == r[i] && a[|pre|] == r[j];
    }
  }

  // ---------------------------------------------------------------- removeDuplicates

  predicate NoDuplicates<T(==)>(s: seq<T>) {
    forall i, j :: 0 <= i < j < |s| ==> s[i] != s[j]
  }

  /** Adds the elements of `s` in order to the insertion-ordered set `seen`, as `new Set`
      does: an element already present keeps its place. */
  function AddAll<T(==)>(seen: seq<T>, s: seq<T>): (r: seq<T>)
    ensures |seen| <= |r| <= |seen| + |s|
    ensures r[..|seen|] == seen
  {
    if |s| == 0 then seen
    else
      var d := AddAll(seen, s[..|s| - 1]);
      if s[|s| - 1] in d then d else d + [s[|s| - 1]]
  }

  /** The insertion-ordered set holds what was there and what was added, once each. */
  lemma {:induction false} AddAllMembers<T>(seen: seq<T>, s: seq<T>, x: T)
    ensures x in AddAll(seen, s) <==> x in seen || x in s
  {
    if |s| > 0 {
      AddAllMembers(seen, s[..|s| - 1], x);
      assert s == s[..|s| - 1] + [s[|s| - 1]];
    }
  }

  lemma {:induction false} AddAllNoDuplicates<T>(seen: seq<T>, s: seq<T>)
    requires NoDuplicates(seen)
    ensures NoDuplicates(AddAll(seen, s))
  {
    if |s| > 0 {
      AddAllNoDuplicates(seen, s[..|s| - 1]);
    }
  }

  /** `removeDuplicates`: `[...new Set(array)]`. */
  function RemoveDuplicates<T(==)>(a: seq<T>): (r: seq<T>)
    ensures |r| <= |a|
  {
    AddAll([], a)
  }

  /** The result holds every element of the input, each exactly once. */
  lemma RemoveDuplicatesMembers<T>(a: seq<T>, x: T)
    ensures x in RemoveDuplicates(a) <==> x in a
    ensures NoDuplicates(RemoveDuplicates(a))
  {
    AddAllMembers([], a, x);
    AddAllNoDuplicates([], a);
  }

  /** Reference definition: keep the elements that do not occur earlier. */
  function FirstOccurrences<T(==)>(a: seq<T>): seq<T> {
    if |a| == 0 then []
    else FirstOccurrences(a[..|a| - 1]) + (if a[|a| - 1] in a[..|a| - 1] then [] else [a[|a| - 1]])
  }

  /** `removeDuplicates` keeps exactly the first occurrences, in their original order. */
  lemma {:induction false} RemoveDuplicatesKeepsFirstOccurrences<T>(a: seq<T>)
    ensures RemoveDuplicates(a) == FirstOccurrences(a)
  {
    if |a| > 0 {
      var p := a[..|a| - 1];
      RemoveDuplicatesKeepsFirstOccurrences(p);
      RemoveDuplicatesMembers(p, a[|a| - 1]);
    }
  }

  /** A sequence without duplicates is its own de-duplication. */
  lemma {:induction false} NoDuplicatesFixed<T>(s: seq<T>)
    requires NoDuplicates(s)
    ensures RemoveDuplicates(s) == s
  {
    if |s| > 0 {
      var p := s[..|s| - 1];
      assert NoDuplicates(p);
      NoDuplicatesFixed(p);
      assert s[|s| - 1] !in p;
      assert s == p + [s[|s| - 1]];
    }
  }

  /** Removing duplicates twice is removing them once. */
  lemma RemoveDuplicatesIdempotent<T>(a: seq<T>)
    ensures RemoveDuplicates(RemoveDuplicates(a)) == RemoveDuplicates(a)
  {
    AddAllNoDuplicates([], a);
    NoDuplicatesFixed(RemoveDuplicates(a));
  }

  /** Adding into `seen` is `seen` followed by the de-duplicated new elements it lacks. */
  lemma {:induction false} AddAllIsAppend<T>(seen: seq<T>, s: seq<T>)
    ensures AddAll(seen, s) == seen + Difference(RemoveDuplicates(s), seen)
  {
    if |s| > 0 {
      var p := s[..|s| - 1];
      var e := s[|s| - 1];
      AddAllIsAppend(seen, p);
      var dp := RemoveDuplicates(p);
      DifferenceIntersectMembers(dp, seen, e);
      RemoveDuplicatesMembers(p, e);
      AddAllMembers(seen, p, e);
      if e !in dp {
        assert RemoveDuplicates(s) == dp + [e];
        DifferenceAppend(dp, [e], seen);
        assert Difference([e], seen) == (if e in seen then [] else [e]) by {
          assert [e][..0] == [];
        }
      } else {
        assert RemoveDuplicates(s) == dp;
      }
    }
  }

  /** Adding a de-duplicated sequence is adding the sequence. */
  lemma AddAllOfDeduplicated<T>(seen: seq<T>, s: seq<T>)
    ensures AddAll(seen, RemoveDuplicates(s)) == AddAll(seen, s)
  {
    AddAllIsAppend(seen, s);
    AddAllIsAppend(seen, RemoveDuplicates(s));
    RemoveDuplicatesIdempotent(s);
  }
}

=== FILE: chars.dfy ===
/** Character classes and the ASCII case mapping used by the string utilities. */
module Chars {

  predicate IsDigit(c: char) { '0' <= c <= '9' }

  predicate IsUpper(c: char) { 'A' <= c <= 'Z' }

  predicate IsLower(c: char) { 'a' <= c <= 'z' }

  predicate IsAsciiLetter(c: char) { IsUpper(c) || IsLower(c) }

  /** The regular-expression class `\w`: ASCII letters, digits and underscore. */
  predicate IsWordChar(c: char) { IsAsciiLetter(c) || IsDigit(c) || c == '_' }

  /** The regular-expression class `\s`, which is also the set `String.prototype.trim`
      removes: the ECMAScript WhiteSpace and LineTerminator code points. */
  predicate IsJsSpace(c: char) {
    || c == '\t' || c == '\n' || c == '\U{000B}' || c == '\U{000C}' || c == '\r' || c == ' '
    || c == '\U{00A0}' || c == '\U{1680}' || ('\U{2000}' <= c <= '\U{200A}')
    || c == '\U{2028}' || c == '\U{2029}' || c == '\U{202F}' || c == '\U{205F}'
    || c == '\U{3000}' || c == '\U{FEFF}'
  }

  /** `toUpperCase` restricted to ASCII: other characters are left unchanged. */
  function ToUpper(c: char): (u: char)
    ensures IsLower(c) ==> IsUpper(u) && u as int == c as int - 32
    ensures !IsLower(c) ==> u == c
  {
    if IsLower(c) then (c as int - 32) as char else c
  }

  /** `toLowerCase` restricted to ASCII: other characters are left unchanged. */
  function ToLower(c: char): (l: char)
    ensures IsUpper(c) ==> IsLower(l) && l as int == c as int + 32
    ensures !IsUpper(c) ==> l == c
  {
    if IsUpper(c) then (c as int + 32) as char else c
  }

  /** Lower-casing keeps every character class except that it turns upper-case letters
      into lower-case ones: digits, spaces and underscores are fixed points. */
  lemma ToLowerClasses(c: char)
    ensures !IsUpper(ToLower(c))
    ensures IsWordChar(ToLower(c)) <==> IsWordChar(c)
    ensures IsJsSpace(ToLower(c)) <==> IsJsSpace(c)
    ensures IsDigit(ToLower(c)) <==> IsDigit(c)
    ensures ToLower(ToLower(c)) == ToLower(c)
  {
  }
}

=== FILE: dates.dfy ===
/** The date helpers. A `Date` is its time value: milliseconds since 1970-01-01T00:00Z. The
    calendar fields are read in UTC (a host time zone is outside the model), following the
    day and year arithmetic of section 21.4.1 of ECMAScript 2024. */
module Dates {
  import opened Chars
  import opened Decimal
  import opened JsText
  import opened Numbers

  datatype Date = Date(time: int)

  const MsPerDay: int := 86400000

  /** A proleptic Gregorian calendar date: year, month 1..12, day of month. */
  datatype Civil = Civil(year: int, month: int, day: int)

  predicate IsLeapYear(y: int) {
    y % 4 == 0 && (y % 100 != 0 || y % 400 == 0)
  }

  function DaysInYear(y: int): int {
    if IsLeapYear(y) then 366 else 365
  }

  function DaysInMonth(y: int, m: int): (n: int)
    requires 1 <= m <= 12
    ensures 28 <= n <= 31
  {
    if m == 2 then (if IsLeapYear(y) then 29 else 28)
    else if m == 4 || m == 6 || m == 9 || m == 11 then 30
    else 31
  }

  predicate Valid(c: Civil) {
    1 <= c.month <= 12 && 1 <= c.day <= DaysInMonth(c.year, c.month)
  }

  /** `DayFromYear(y)`: the day number of the first day of year `y`. */
  function DayFromYear(y: int): int {
    365 * (y - 1970) + (y - 1969) / 4 - (y - 1901) / 100 + (y - 1601) / 400
  }

  /** Days in the months of year `y` before month `m`. */
  function DaysBeforeMonth(y: int, m: int): int
    requires 1 <= m <= 12
  {
    if m == 1 then 0 else DaysBeforeMonth(y, m - 1) + DaysInMonth(y, m - 1)
  }

  /** The day number (days since 1970-01-01) of a calendar date. */
  function DayNumber(c: Civil): int
    requires 1 <= c.month <= 12
  {
    DayFromYear(c.year) + DaysBeforeMonth(c.year, c.month) + c.day - 1
  }

  /** Consecutive years start `DaysInYear` apart. */
  lemma DayFromYearStep(y: int)
    ensures DayFromYear(y + 1) == DayFromYear(y) + DaysInYear(y)
  {
    LeapDayStep(y);
    CenturyStep(y);
    FourCenturyStep(y);
    DivisorChain(y);
  }

  lemma DivisorChain(y: int)
    ensures y % 400 == 0 ==> y % 100 == 0
    ensures y % 100 == 0 ==> y % 4 == 0
  {
  }

  /** One more four-year leap day counted exactly after a year divisible by 4. */
  lemma LeapDayStep(y: int)
    ensures (y + 1 - 1969) / 4 - (y - 1969) / 4 == (if y % 4 == 0 then 1 else 0)
  {
  }

  lemma CenturyStep(y: int)
    ensures (y + 1 - 1901) / 100 - (y - 1901) / 100 == (if y % 100 == 0 then 1 else 0)
  {
  }

  lemma FourCenturyStep(y: int)
    ensures (y + 1 - 1601) / 400 - (y - 1601) / 400 == (if y % 400 == 0 then 1 else 0)
  {
  }

  /** The calendar date after `c`. */
  function NextDay(c: Civil): (n: Civil)
    requires Valid(c)
    ensures Valid(n)
  {
    if c.day < DaysInMonth(c.year, c.month) then Civil(c.year, c.month, c.day + 1)
    else if c.month < 12 then Civil(c.year, c.month + 1, 1)
    else Civil(c.year + 1, 1, 1)
  }

  /** The calendar date before `c`. */
  function PrevDay(c: Civil): (p: Civil)
    requires Valid(c)
    ensures Valid(p)
  {
    if c.day > 1 then Civil(c.year, c.month, c.day - 1)
    else if c.month > 1 then Civil(c.year, c.month - 1, DaysInMonth(c.year, c.month - 1))
    else Civil(c.year - 1, 12, 31)
  }

  lemma NextDayNumber(c: Civil)
    requires Valid(c)
    ensures DayNumber(NextDay(c)) == DayNumber(c) + 1
  {
    if c.day == DaysInMonth(c.year, c.month) && c.month == 12 {
      DayFromYearStep(c.year);
      DaysBeforeDecember(c.year);
    }
  }

  /** The months before December hold all but its 31 days. */
  lemma DaysBeforeDecember(y: int)
    ensures DaysBeforeMonth(y, 12) + 31 == DaysInYear(y)
  {
    var f := DaysInMonth(y, 2);
    assert DaysBeforeMonth(y, 2) == 31;
    assert DaysBeforeMonth(y, 3) == 31 + f;
    assert DaysBeforeMonth(y, 4) == 62 + f;
    assert DaysBeforeMonth(y, 5) == 92 + f;
    assert DaysBeforeMonth(y, 6) == 123 + f;
    assert DaysBeforeMonth(y, 7) == 153 + f;
    assert DaysBeforeMonth(y, 8) == 184 + f;
    assert DaysBeforeMonth(y, 9) == 215 + f;
    assert DaysBeforeMonth(y, 10) == 245 + f;
    assert DaysBeforeMonth(y, 11) == 276 + f;
    assert DaysBeforeMonth(y, 12) == 306 + f;
  }

  lemma PrevDayNumber(c: Civil)
    requires Valid(c)
    ensures DayNumber(PrevDay(c)) == DayNumber(c) - 1
  {
    if c.day == 1 && c.month == 1 {
      DayFromYearStep(c.year - 1);
      DaysBeforeDecember(c.year - 1);
    } else if c.day == 1 {
      assert DaysBeforeMonth(c.year, c.month) == DaysBeforeMonth(c.year, c.month - 1) + DaysInMonth(c.year, c.month - 1);
    }
  }

  /** The calendar date of day number `z`, counted one day at a time from 1970-01-01
      (`YearFromTime`, `MonthFromTime` and `DateFromTime` of the standard). */
  function CivilOfDay(z: int): (c: Civil)
    ensures Valid(c)
    decreases if z < 0 then -z else z
  {
    if z == 0 then Civil(1970, 1, 1)
    else if z > 0 then NextDay(CivilOfDay(z - 1))
    else PrevDay(CivilOfDay(z + 1))
  }

  /** Reading a day number as a calendar date and back gives the day number. */
  lemma {:induction false} DayNumberOfCivil(z: int)
    ensures DayNumber(CivilOfDay(z)) == z
    decreases if z < 0 then -z else z
  {
    if z > 0 {
      DayNumberOfCivil(z - 1);
      NextDayNumber(CivilOfDay(z - 1));
    } else if z < 0 {
      DayNumberOfCivil(z + 1);
      PrevDayNumber(CivilOfDay(z + 1));
    } else {
      assert DayFromYear(1970) == 0;
    }
  }

  /** Different days have different calendar dates. */
  lemma CivilOfDayInjective(z1: int, z2: int)
    ensures CivilOfDay(z1) == CivilOfDay(z2) <==> z1 == z2
  {
    DayNumberOfCivil(z1);
    DayNumberOfCivil(z2);
  }

  /** `Day(t)`: the day number holding the instant `t` (floor division). */
  function Day(t: int): int { t / MsPerDay }

  /** `TimeWithinDay(t)`: milliseconds since that day's midnight. */
  function TimeWithinDay(t: int): (ms: int)
    ensures 0 <= ms < MsPerDay
    ensures t == Day(t) * MsPerDay + ms
  {
    t % MsPerDay
  }

  function CivilOf(d: Date): (c: Civil)
    ensures Valid(c)
  {
    CivilOfDay(Day(d.time))
  }

  // ---------------------------------------------------------------- formatDate

  const DefaultDateFormat: string := "MM/DD/YYYY"

  /** `pad(n)`: `n.toString().padStart(2, '0')`. */
  function Pad2(n: nat): (s: string)
    ensures |s| >= 2 && AllDigits(s)
  {
    PadStart(NatToString(n), 2, '0')
  }

  /** Below 100 the padded text is two digits that read back as `n`. */
  lemma Pad2RoundTrip(n: nat)
    requires n < 100
    ensures |Pad2(n)| == 2 && ParseDecimal(Pad2(n)) == n
  {
    ParseNatToString(n);
    if n < 10 {
      assert |NatToString(n)| == 1;
      assert Pad2(n) == "0" + NatToString(n);
      LeadingZero(NatToString(n));
    } else {
      assert ToRadix(n, 10) == ToRadix(n / 10, 10) + [DigitChar(n % 10)];
      assert |ToRadix(n / 10, 10)| == 1;
    }
  }

  /** A leading zero does not change the value of a digit string. */
  lemma {:induction false} LeadingZero(s: string)
    requires AllDigits(s)
    ensures AllDigits("0" + s) && ParseDecimal("0" + s) == ParseDecimal(s)
  {
    if |s| > 0 {
      var p := s[..|s| - 1];
      LeadingZero(p);
      assert ("0" + s)[..|s|] == "0" + p;
    }
  }

  /** `formatDate(date, format)`: the first "YYYY", then the first "MM", then the first "DD"
      of what results is replaced by the year, the padded month and the padded day. */
  function FormatDate(d: Date, format: string): string {
    var c := CivilOf(d);
    ReplaceFirst(ReplaceFirst(ReplaceFirst(format, "YYYY", IntToString(c.year)),
      "MM", Pad2(c.month)), "DD", Pad2(c.day))
  }

  /** Formatting a date supplies a valid month and day, each as two digits that read back. */
  lemma FormatDateFields(d: Date)
    ensures var c := CivilOf(d);
      && 1 <= c.month <= 12 && 1 <= c.day <= 31
      && |Pad2(c.month)| == 2 && ParseDecimal(Pad2(c.month)) == c.month
      && |Pad2(c.day)| == 2 && ParseDecimal(Pad2(c.day)) == c.day
  {
    var c := CivilOf(d);
    Pad2RoundTrip(c.month);
    Pad2RoundTrip(c.day);
  }

  /** A format holding none of the three tokens comes back unchanged. */
  lemma FormatDateNoTokens(d: Date, format: string)
    requires forall k :: 0 <= k <= |format| ==>
      !OccursAt(format, "YYYY", k) && !OccursAt(format, "MM", k) && !OccursAt(format, "DD", k)
    ensures FormatDate(d, format) == format
  {
  }

  /** With the default format the result is month "/" day "/" year. */
  lemma FormatDateDefault(d: Date)
    ensures var c := CivilOf(d);
      FormatDate(d, DefaultDateFormat) == Pad2(c.month) + "/" + Pad2(c.day) + "/" + IntToString(c.year)
  {
    var c := CivilOf(d);
    FormatDateFields(d);
    DefaultFormatFill(IntToString(c.year), Pad2(c.month), Pad2(c.day));
  }

  lemma DefaultFormatFill(y: string, m: string, dd: string)
    requires |m| == 2 && AllDigits(m)
    ensures ReplaceFirst(ReplaceFirst(ReplaceFirst(DefaultDateFormat, "YYYY", y), "MM", m), "DD", dd)
      == m + "/" + dd + "/" + y
  {
    var s1 := "MM/DD/" + y;
    var s2 := m + "/DD/" + y;
    FillYear(y);
    FillMonth(y, m);
    FillDay(y, m, dd);
  }

  lemma FillYear(y: string)
    ensures ReplaceFirst(DefaultDateFormat, "YYYY", y) == "MM/DD/" + y
  {
    var f := DefaultDateFormat;
    YearTokenAt();
    ReplaceFirstAt(f, "YYYY", y, 6);
    assert f[..6] == "MM/DD/" && f[10..] == [];
  }

  /** The default format's year token starts at position 6 and nowhere earlier. */
  lemma YearTokenAt()
    ensures FirstAt(DefaultDateFormat, "YYYY", 6)
  {
    var f := DefaultDateFormat;
    assert f == ['M', 'M', '/', 'D', 'D', '/', 'Y', 'Y', 'Y', 'Y'];
    forall k | 0 <= k < 6 ensures !OccursAt(f, "YYYY", k) {
      assert f[k..k + 4][0] == f[k] != 'Y';
    }
    assert f[6..10] == "YYYY";
  }

  lemma FillMonth(y: string, m: string)
    ensures ReplaceFirst("MM/DD/" + y, "MM", m) == m + "/DD/" + y
  {
    var s1 := "MM/DD/" + y;
    ReplaceFirstAt(s1, "MM", m, 0);
    assert s1[2..] == "/DD/" + y;
  }

  lemma FillDay(y: string, m: string, dd: string)
    requires |m| == 2 && AllDigits(m)
    ensures ReplaceFirst(m + "/DD/" + y, "DD", dd) == m + "/" + dd + "/" + y
  {
    var s2 := m + "/DD/" + y;
    DayTokenAt(y, m);
    ReplaceFirstAt(s2, "DD", dd, 3);
    assert s2[..3] == m + "/";
    assert s2[5..] == "/" + y;
  }

  /** After a two-digit month the day token starts at position 3 and nowhere earlier. */
  lemma DayTokenAt(y: string, m: string)
    requires |m| == 2 && AllDigits(m)
    ensures FirstAt(m + "/DD/" + y, "DD", 3)
  {
    var s2 := m + "/DD/" + y;
    forall k | 0 <= k < 3 ensures !OccursAt(s2, "DD", k) {
      assert s2[0] == m[0] && s2[1] == m[1];
      assert IsDigit(m[0]) && IsDigit(m[1]);
      assert s2[k] != 'D';
    }
    assert s2[3..5] == "DD";
  }

  // ---------------------------------------------------------------- daysBetween

  /** `daysBetween`: `Math.round(Math.abs(t1 - t2) / oneDay)`, with the division exact and
      `Math.round` rounding halves up. */
  function DaysBetween(d1: Date, d2: Date): (n: int)
    ensures n >= 0
    ensures 2 * n * MsPerDay - MsPerDay <= 2 * Abs(d1.time - d2.time) < 2 * n * MsPerDay + MsPerDay
  {
    (2 * Abs(d1.time - d2.time) + MsPerDay) / (2 * MsPerDay)
  }

  /** Symmetric, zero for equal instants, and exact for whole days. */
  lemma DaysBetweenProperties(d1: Date, d2: Date, n: int)
    ensures DaysBetween(d1, d2) == DaysBetween(d2, d1)
    ensures DaysBetween(d1, d1) == 0
    ensures DaysBetween(d1, Date(d1.time + n * MsPerDay)) == Abs(n)
  {
    var m := Abs(n);
    assert Abs(d1.time - (d1.time + n * MsPerDay)) == m * MsPerDay;
    var q := (2 * (m * MsPerDay) + MsPerDay) / (2 * MsPerDay);
    assert 2 * (m * MsPerDay) + MsPerDay == m * (2 * MsPerDay) + MsPerDay;
  }

  // ---------------------------------------------------------------- addDays

  /** `MakeDay(year, month, date)` for a month index 0..11 and any date: the first day of that
      month plus `date - 1` days. */
  function MakeDay(year: int, month: int, date: int): int
    requires 0 <= month < 12
  {
    DayNumber(Civil(year, month + 1, 1)) + date - 1
  }

  /** `addDays(date, days)`: a copy whose `setDate(getDate() + days)` keeps the time of day. */
  function AddDays(d: Date, days: int): Date {
    var c := CivilOf(d);
    var day := MakeDay(c.year, c.month - 1, c.day + days);
    Date(day * MsPerDay + TimeWithinDay(d.time))
  }

  /** Adding days moves the instant by whole days. */
  lemma AddDaysShift(d: Date, days: int)
    ensures AddDays(d, days).time == d.time + days * MsPerDay
  {
    var c := CivilOf(d);
    DayNumberOfCivil(Day(d.time));
    assert MakeDay(c.year, c.month - 1, c.day + days) == Day(d.time) + days;
  }

  /** Adding no days is the identity, and additions compose. */
  lemma AddDaysCompose(d: Date, a: int, b: int)
    ensures AddDays(d, 0) == d
    ensures AddDays(AddDays(d, a), b) == AddDays(d, a + b)
  {
    AddDaysShift(d, 0);
    AddDaysShift(d, a);
    AddDaysShift(AddDays(d, a), b);
    AddDaysShift(d, a + b);
  }

  // ---------------------------------------------------------------- isSameDay

  /** `isSameDay`: equal year, month and day of month. */
  predicate IsSameDay(d1: Date, d2: Date) {
    var c1 := CivilOf(d1);
    var c2 := CivilOf(d2);
    c1.year == c2.year && c1.month == c2.month && c1.day == c2.day
  }

  /** Two instants share a calendar day exactly when they fall in the same day number; the
      relation is therefore reflexive, symmetric and transitive. */
  lemma IsSameDayMeaning(d1: Date, d2: Date)
    ensures IsSameDay(d1, d2) <==> Day(d1.time) == Day(d2.time)
  {
    CivilOfDayInjective(Day(d1.time), Day(d2.time));
  }
}

=== FILE: decimal.dfy ===
/** Positional notation for non-negative integers: `Number.prototype.toString(radix)` on
    integral numbers and the digit-string half of `Number(string)`, for radix 10 and 16. */
module Decimal {
  import opened Chars

  predicate IsRadix(radix: nat) { radix == 10 || radix == 16 }

  function Pow(base: nat, e: nat): (p: nat)
    ensures base >= 1 ==> p >= 1
  {
    if e == 0 then 1 else base * Pow(base, e - 1)
  }

  /** The digit character for `d`; letters are lower case, as `toString(16)` emits them. */
  function DigitChar(d: nat): (c: char)
    requires d < 16
    ensures d < 10 ==> IsDigit(c)
  {
    if d < 10 then ('0' as int + d) as char else ('a' as int + d - 10) as char
  }

  /** The hexadecimal digit characters in either case: the characters `DigitValue` reads. */
  predicate IsHexDigit(c: char) { IsDigit(c) || 'a' <= c <= 'f' || 'A' <= c <= 'F' }

  function DigitValue(c: char): (d: nat)
    requires IsHexDigit(c)
    ensures d < 16
    ensures IsDigit(c) <==> d < 10
  {
    if IsDigit(c) then c as int - '0' as int
    else if 'a' <= c <= 'f' then c as int - 'a' as int + 10
    else c as int - 'A' as int + 10
  }

  /** A character that is a digit of the radix. */
  predicate IsRadixDigit(c: char, radix: nat) { IsHexDigit(c) && DigitValue(c) < radix }

  predicate AllRadixDigits(s: string, radix: nat) {
    forall i :: 0 <= i < |s| ==> IsRadixDigit(s[i], radix)
  }

  predicate AllDigits(s: string) {
    forall i :: 0 <= i < |s| ==> IsDigit(s[i])
  }

  lemma DigitRoundTrip(d: nat)
    requires d < 16
    ensures IsHexDigit(DigitChar(d)) && DigitValue(DigitChar(d)) == d
  {
  }

  /** `n.toString(radix)` for a non-negative integer `n`: the shortest digit string,
      without leading zeros. */
  function ToRadix(n: nat, radix: nat): (s: string)
    requires IsRadix(radix)
    ensures |s| >= 1
    ensures AllRadixDigits(s, radix)
    ensures |s| > 1 ==> s[0] != '0'
    ensures n < radix <==> |s| == 1
    decreases n
  {
    DigitRoundTrip(n % radix);
    if n < radix then [DigitChar(n)] else ToRadix(n / radix, radix) + [DigitChar(n % radix)]
  }

  /** The value of a digit string, most significant digit first. */
  function ParseRadix(s: string, radix: nat): nat
    requires IsRadix(radix)
    requires AllRadixDigits(s, radix)
  {
    if |s| == 0 then 0 else ParseRadix(s[..|s| - 1], radix) * radix + DigitValue(s[|s| - 1])
  }

  /** One more digit at the end multiplies the value read so far by the radix. */
  lemma ParseSnoc(s: string, c: char, radix: nat)
    requires IsRadix(radix) && AllRadixDigits(s, radix) && IsRadixDigit(c, radix)
    ensures ParseRadix(s + [c], radix) == ParseRadix(s, radix) * radix + DigitValue(c)
  {
    assert (s + [c])[..|s|] == s;
  }

  /** Reading back a printed number gives the number. */
  lemma {:induction false} ParseToRadix(n: nat, radix: nat)
    requires IsRadix(radix)
    ensures ParseRadix(ToRadix(n, radix), radix) == n
    decreases n
  {
    DigitRoundTrip(n % radix);
    if n >= radix {
      ParseSnoc(ToRadix(n / radix, radix), DigitChar(n % radix), radix);
      ParseToRadix(n / radix, radix);
    }
  }

  /** Distinct numbers print differently. */
  lemma ToRadixInjective(m: nat, n: nat, radix: nat)
    requires IsRadix(radix)
    ensures ToRadix(m, radix) == ToRadix(n, radix) <==> m == n
  {
    ParseToRadix(m, radix);
    ParseToRadix(n, radix);
  }

  /** Decimal text of a natural number. */
  function NatToString(n: nat): (s: string)
    ensures |s| >= 1 && AllDigits(s)
  {
    var s := ToRadix(n, 10);
    assert forall i :: 0 <= i < |s| ==> IsRadixDigit(s[i], 10);
    s
  }

  /** `String(n)` for an integer-valued number (no exponent notation). */
  function IntToString(n: int): (s: string)
    ensures |s| >= 1
    ensures n >= 0 ==> s == NatToString(n)
    ensures n < 0 ==> s == "-" + NatToString(-n)
  {
    if n < 0 then "-" + NatToString(-n) else NatToString(n)
  }

  /** The value of a decimal digit string. */
  function ParseDecimal(s: string): nat
    requires AllDigits(s)
  {
    assert AllRadixDigits(s, 10) by {
      forall i | 0 <= i < |s| ensures IsRadixDigit(s[i], 10) {
        assert IsDigit(s[i]);
      }
    }
    ParseRadix(s, 10)
  }

  lemma ParseNatToString(n: nat)
    ensures ParseDecimal(NatToString(n)) == n
  {
    ParseToRadix(n, 10);
  }

  lemma NatToStringInjective(m: nat, n: nat)
    ensures NatToString(m) == NatToString(n) <==> m == n
  {
    ToRadixInjective(m, n, 10);
  }

  /** Exactly `width` digits of `x` (the low-order ones), padded with leading zeros. */
  function FixedDigits(x: nat, width: nat, radix: nat): (s: string)
    requires IsRadix(radix)
    ensures |s| == width
    ensures AllRadixDigits(s, radix)
  {
    DigitRoundTrip(x % radix);
    if width == 0 then [] else FixedDigits(x / radix, width - 1, radix) + [DigitChar(x % radix)]
  }

  lemma {:induction false} ParseFixedDigits(x: nat, width: nat, radix: nat)
    requires IsRadix(radix)
    requires x < Pow(radix, width)
    ensures ParseRadix(FixedDigits(x, width, radix), radix) == x
  {
    if width > 0 {
      var q, r := x / radix, x % radix;
      var high := FixedDigits(q, width - 1, radix);
      DigitRoundTrip(r);
      FixedDigitsStep(x, width, radix);
      ParseSnoc(high, DigitChar(r), radix);
      DivBound(x, radix, Pow(radix, width - 1));
      ParseFixedDigits(q, width - 1, radix);
      DivModParts(x, radix);
    }
  }

  /** `x` is its quotient by the radix, shifted back, plus its last digit. */
  lemma DivModParts(x: nat, radix: nat)
    requires IsRadix(radix)
    ensures (x / radix) * radix + x % radix == x
  {
    if radix == 10 {
      assert (x / 10) * 10 == 10 * (x / 10);
    } else {
      assert (x / 16) * 16 == 16 * (x / 16);
    }
  }

  lemma DivBound(x: nat, d: nat, p: nat)
    requires d > 0
    requires x < d * p
    ensures x / d < p
  {
  }

  lemma DivModOf(q: nat, r: nat, d: nat)
    requires IsRadix(d)
    requires r < d
    ensures (q * d + r) / d == q
    ensures (q * d + r) % d == r
  {
    if d == 10 {
      assert q * d + r == 10 * q + r;
    } else {
      assert q * d + r == 16 * q + r;
    }
  }

  /** Peeling the last digit off `hi * radix * p + lo`. */
  lemma Regroup(hi: nat, lo: nat, p: nat, radix: nat)
    requires IsRadix(radix)
    ensures hi * (radix * p) + lo == (hi * p + lo / radix) * radix + lo % radix
  {
    var hp := hi * p;
    if radix == 10 {
      assert hi * (10 * p) == 10 * hp;
      assert (hp + lo / 10) * 10 == 10 * hp + 10 * (lo / 10);
    } else {
      assert hi * (16 * p) == 16 * hp;
      assert (hp + lo / 16) * 16 == 16 * hp + 16 * (lo / 16);
    }
  }

  /** Writing `hi` and then the `width` low-order digits of `lo` prints `hi * radix^width + lo`:
      the leading part of a number's digits is the number of its high-order part. */
  lemma {:induction false} ToRadixSplit(hi: nat, lo: nat, width: nat, radix: nat)
    requires IsRadix(radix)
    requires hi >= 1
    requires lo < Pow(radix, width)
    ensures ToRadix(hi * Pow(radix, width) + lo, radix) == ToRadix(hi, radix) + FixedDigits(lo, width, radix)
  {
    if width > 0 {
      var n := hi * Pow(radix, width) + lo;
      var q := hi * Pow(radix, width - 1) + lo / radix;
      ShiftArith(hi, lo, width, radix);
      assert n >= radix by {
        LeadingPartPositive(hi, lo, Pow(radix, width - 1), radix);
      }
      assert n / radix == q && n % radix == lo % radix;
      ToRadixSplit(hi, lo / radix, width - 1, radix);
      ToRadixStep(n, radix);
      FixedDigitsStep(lo, width, radix);
      SnocAssoc(ToRadix(hi, radix), FixedDigits(lo / radix, width - 1, radix), DigitChar(lo % radix));
    }
  }

  lemma SnocAssoc(a: string, b: string, c: char)
    ensures (a + b) + [c] == a + (b + [c])
  {
  }

  /** The last digit of `a * radix^w + b` is that of `b`, and the rest is
      `a * radix^(w-1) + b / radix`. */
  lemma ShiftArith(a: nat, b: nat, w: nat, radix: nat)
    requires IsRadix(radix) && w > 0 && b < Pow(radix, w)
    ensures Pow(radix, w) == radix * Pow(radix, w - 1)
    ensures (a * Pow(radix, w) + b) / radix == a * Pow(radix, w - 1) + b / radix
    ensures (a * Pow(radix, w) + b) % radix == b % radix
    ensures b / radix < Pow(radix, w - 1)
  {
    var p := Pow(radix, w - 1);
    NextDigit(a, b, p, radix);
    DivBound(b, radix, p);
  }

  lemma LeadingPartPositive(hi: nat, lo: nat, p: nat, radix: nat)
    requires IsRadix(radix) && hi >= 1 && p >= 1
    ensures hi * (radix * p) + lo >= radix
  {
    MulPositive(hi, p);
    assert hi * (radix * p) == radix * (hi * p);
  }

  lemma ToRadixStep(n: nat, radix: nat)
    requires IsRadix(radix) && n >= radix
    ensures ToRadix(n, radix) == ToRadix(n / radix, radix) + [DigitChar(n % radix)]
  {
  }

  lemma MulPositive(a: nat, b: nat)
    requires a >= 1 && b >= 1
    ensures a * b >= 1
  {
  }

  /** Concatenating fixed-width fields is the fixed-width text of the packed number
      `n == a * radix^wb + b` of width `w == wa + wb`. */
  lemma {:induction false} FixedDigitsConcat(a: nat, b: nat, wa: nat, wb: nat, radix: nat, n: nat, w: nat)
    requires IsRadix(radix)
    requires b < Pow(radix, wb)
    requires n == a * Pow(radix, wb) + b && w == wa + wb
    ensures FixedDigits(n, w, radix) == FixedDigits(a, wa, radix) + FixedDigits(b, wb, radix)
    decreases wb
  {
    if wb > 0 {
      var q := a * Pow(radix, wb - 1) + b / radix;
      FixedDigitsStep(n, w, radix);
      FixedDigitsStep(b, wb, radix);
      ShiftArith(a, b, wb, radix);
      assert n / radix == q && n % radix == b % radix;
      FixedDigitsConcat(a, b / radix, wa, wb - 1, radix, q, w - 1);
      SnocAssoc(FixedDigits(a, wa, radix), FixedDigits(b / radix, wb - 1, radix), DigitChar(b % radix));
    }
  }

  lemma NextDigit(a: nat, b: nat, p: nat, radix: nat)
    requires IsRadix(radix)
    ensures (a * (radix * p) + b) / radix == a * p + b / radix
    ensures (a * (radix * p) + b) % radix == b % radix
  {
    Regroup(a, b, p, radix);
    DivModOf(a * p + b / radix, b % radix, radix);
  }

  lemma FixedDigitsStep(x: nat, width: nat, radix: nat)
    requires IsRadix(radix)
    requires width > 0
    ensures FixedDigits(x, width, radix) == FixedDigits(x / radix, width - 1, radix) + [DigitChar(x % radix)]
  {
  }
}

=== FILE: equality.dfy ===
/** shallowEqual and deepEqual. Both compare the property counts and then look up each
    key of the first object in the second; neither checks that the second object has the
    key, so a property holding `undefined` matches a missing one. */
module ObjectEquality {
  import opened Decimal
  import opened JsValues

  // ---------------------------------------------------------------- key sets

  function KeySet(fs: seq<Field>): set<string> {
    set k | k in Keys(fs)
  }

  /** A list with unique keys has as many keys as fields. */
  lemma {:induction false} KeySetSize(fs: seq<Field>)
    requires UniqueKeys(fs)
    ensures |KeySet(fs)| == |fs|
  {
    if |fs| > 0 {
      var pre := fs[..|fs| - 1];
      KeySetSize(pre);
      assert Keys(fs) == Keys(pre) + [fs[|fs| - 1].key];
      assert KeySet(fs) == KeySet(pre) + {fs[|fs| - 1].key};
      assert fs[|fs| - 1].key !in KeySet(pre);
    }
  }

  /** Two unique-key lists of one length, the first's keys all in the second, have the same
      keys. */
  lemma SameKeys(a: seq<Field>, b: seq<Field>)
    requires UniqueKeys(a) && UniqueKeys(b) && |a| == |b|
    requires forall i :: 0 <= i < |a| ==> a[i].key in Keys(b)
    ensures KeySet(a) == KeySet(b)
  {
    KeySetSize(a);
    KeySetSize(b);
    assert KeySet(a) <= KeySet(b);
    var extra := KeySet(b) - KeySet(a);
    assert KeySet(b) == KeySet(a) + extra;
    assert |extra| == 0;
  }

  // ---------------------------------------------------------------- shallowEqual

  /** `shallowEqual(obj1, obj2)` as written: equal counts and `obj1[key] === obj2[key]` for
      every key of `obj1`. */
  predicate ShallowEqual(a: seq<Field>, b: seq<Field>) {
    |a| == |b| && forall i :: 0 <= i < |a| ==> StrictEquals(Get(Obj(a), a[i].key), Get(Obj(b), a[i].key))
  }

  /** `{a: undefined}` and `{b: 1}` are reported shallowly equal, but `{b: 1}` and
      `{a: undefined}` are not. */
  lemma ShallowEqualMissingKey()
    ensures ShallowEqual([Field("a", Undefined)], [Field("b", Num(1))])
    ensures !ShallowEqual([Field("b", Num(1))], [Field("a", Undefined)])
  {
    assert Get(Obj([Field("b", Num(1))]), "a") == Undefined by {
      assert "a" !in Keys([Field("b", Num(1))]);
    }
    assert Get(Obj([Field("a", Undefined)]), "b") == Undefined by {
      assert "b" !in Keys([Field("a", Undefined)]);
    }
  }

  /** Corrected: every key of `obj1` must also be a key of `obj2`. */
  predicate ShallowEqualChecked(a: seq<Field>, b: seq<Field>) {
    |a| == |b| &&
    forall i :: 0 <= i < |a| ==>
      a[i].key in Keys(b) && StrictEquals(Get(Obj(a), a[i].key), Get(Obj(b), a[i].key))
  }

  /** The corrected comparison holds exactly when both objects have the same keys and
      identical values under each. */
  lemma ShallowEqualCheckedMeaning(a: seq<Field>, b: seq<Field>)
    requires UniqueKeys(a) && UniqueKeys(b)
    ensures ShallowEqualChecked(a, b) <==>
      KeySet(a) == KeySet(b) &&
      forall i :: 0 <= i < |a| ==> StrictEquals(a[i].val, Get(Obj(b), a[i].key))
  {
    forall i | 0 <= i < |a| ensures Get(Obj(a), a[i].key) == a[i].val {
      LookupUnique(a, i);
    }
    if ShallowEqualChecked(a, b) {
      SameKeys(a, b);
    }
    if KeySet(a) == KeySet(b) {
      KeySetSize(a);
      KeySetSize(b);
      forall i | 0 <= i < |a| ensures a[i].key in Keys(b) {
        assert a[i].key in KeySet(a);
      }
    }
  }

  /** The corrected comparison is symmetric. */
  lemma ShallowEqualCheckedSymmetric(a: seq<Field>, b: seq<Field>)
    requires UniqueKeys(a) && UniqueKeys(b)
    ensures ShallowEqualChecked(a, b) <==> ShallowEqualChecked(b, a)
  {
    if ShallowEqualChecked(a, b) {
      SameKeys(a, b);
      forall j | 0 <= j < |b|
        ensures b[j].key in Keys(a) && StrictEquals(Get(Obj(b), b[j].key), Get(Obj(a), b[j].key))
      {
        assert b[j].key in KeySet(a);
        var i := KeyIndex(a, b[j].key);
        assert StrictEquals(Get(Obj(a), a[i].key), Get(Obj(b), a[i].key));
      }
    }
    if ShallowEqualChecked(b, a) {
      SameKeys(b, a);
      forall j | 0 <= j < |a|
        ensures a[j].key in Keys(b) && StrictEquals(Get(Obj(a), a[j].key), Get(Obj(b), a[j].key))
      {
        assert a[j].key in KeySet(b);
        var i := KeyIndex(b, a[j].key);
        assert StrictEquals(Get(Obj(b), b[i].key), Get(Obj(a), b[i].key));
      }
    }
  }

  /** The comparison as written agrees with the corrected one whenever the first object has
      no property holding `undefined`. */
  lemma ShallowEqualWithoutUndefined(a: seq<Field>, b: seq<Field>)
    requires UniqueKeys(a)
    requires forall i :: 0 <= i < |a| ==> !a[i].val.Undefined?
    ensures ShallowEqual(a, b) <==> ShallowEqualChecked(a, b)
  {
    forall i | 0 <= i < |a| ensures Get(Obj(a), a[i].key) == a[i].val {
      LookupUnique(a, i);
    }
  }

  // ---------------------------------------------------------------- deepEqual

  /** `deepEqual(obj1, obj2)` as written. Identical values are equal; otherwise both must be
      non-null objects (arrays included) with as many keys, and the value under each key of
      `obj1` must be deeply equal to `obj2[key]`. */
  predicate DeepEqual(a: Value, b: Value)
    decreases a
  {
    if StrictEquals(a, b) then true
    else if !IsObjectType(a) || a.Null? || !IsObjectType(b) || b.Null? then false
    else if |Entries(a)| != |Entries(b)| then false
    else match a
      case Obj(fs) => forall i :: 0 <= i < |fs| ==> DeepEqual(fs[i].val, Get(b, fs[i].key))
      case Arr(items) => forall i :: 0 <= i < |items| ==> DeepEqual(items[i], Get(b, NatToString(i)))
  }

  /** `{a: undefined}` deep-equals `{b: 1}`, but not the other way round. */
  lemma DeepEqualMissingKey()
    ensures DeepEqual(Obj([Field("a", Undefined)]), Obj([Field("b", Num(1))]))
    ensures !DeepEqual(Obj([Field("b", Num(1))]), Obj([Field("a", Undefined)]))
  {
    assert Get(Obj([Field("b", Num(1))]), "a") == Undefined by {
      assert "a" !in Keys([Field("b", Num(1))]);
    }
    assert Get(Obj([Field("a", Undefined)]), "b") == Undefined by {
      assert "b" !in Keys([Field("a", Undefined)]);
    }
  }

  /** Every value deep-equals itself. */
  lemma {:induction false} DeepEqualReflexive(v: Value)
    requires WellFormed(v)
    ensures DeepEqual(v, v)
    decreases v
  {
    match v
    case Obj(fs) =>
      forall i | 0 <= i < |fs| ensures DeepEqual(fs[i].val, Get(v, fs[i].key)) {
        LookupUnique(fs, i);
        DeepEqualReflexive(fs[i].val);
      }
    case Arr(items) =>
      forall i | 0 <= i < |items| ensures DeepEqual(items[i], Get(v, NatToString(i))) {
        IndexKeyOf(i);
        DeepEqualReflexive(items[i]);
      }
    case _ =>
  }

  /** Corrected: every key of `obj1` must also be a key of `obj2`. */
  predicate DeepEqualChecked(a: Value, b: Value)
    decreases a
  {
    if StrictEquals(a, b) then true
    else if !IsObjectType(a) || a.Null? || !IsObjectType(b) || b.Null? then false
    else if |Entries(a)| != |Entries(b)| then false
    else match a
      case Obj(fs) => forall i :: 0 <= i < |fs| ==>
        fs[i].key in ObjectKeys(b) && DeepEqualChecked(fs[i].val, Get(b, fs[i].key))
      case Arr(items) => forall i :: 0 <= i < |items| ==>
        NatToString(i) in ObjectKeys(b) && DeepEqualChecked(items[i], Get(b, NatToString(i)))
  }

  /** The corrected comparison only ever narrows the original: whatever it accepts, the
      original accepts too. */
  lemma {:induction false} DeepEqualCheckedImplies(a: Value, b: Value)
    ensures DeepEqualChecked(a, b) ==> DeepEqual(a, b)
    decreases a
  {
    if DeepEqualChecked(a, b) && !StrictEquals(a, b) {
      match a
      case Obj(fs) =>
        forall i | 0 <= i < |fs| ensures DeepEqual(fs[i].val, Get(b, fs[i].key)) {
          DeepEqualCheckedImplies(fs[i].val, Get(b, fs[i].key));
        }
      case Arr(items) =>
        forall i | 0 <= i < |items| ensures DeepEqual(items[i], Get(b, NatToString(i))) {
          DeepEqualCheckedImplies(items[i], Get(b, NatToString(i)));
        }
    }
  }

  /** Every value deep-equals itself under the corrected comparison too. */
  lemma {:induction false} DeepEqualCheckedReflexive(v: Value)
    requires WellFormed(v)
    ensures DeepEqualChecked(v, v)
    decreases v
  {
    match v
    case Obj(fs) =>
      forall i | 0 <= i < |fs|
        ensures fs[i].key in ObjectKeys(v) && DeepEqualChecked(fs[i].val, Get(v, fs[i].key))
      {
        LookupUnique(fs, i);
        DeepEqualCheckedReflexive(fs[i].val);
      }
    case Arr(items) =>
      forall i | 0 <= i < |items|
        ensures NatToString(i) in ObjectKeys(v) && DeepEqualChecked(items[i], Get(v, NatToString(i)))
      {
        IndexKeyOf(i);
        assert Entries(v)[i].key == NatToString(i);
        DeepEqualCheckedReflexive(items[i]);
      }
    case _ =>
  }

  /** The corrected comparison restated over entries: the value of each entry of `a`
      matches `b`'s value under the same key, which `b` has. */
  predicate EntriesMatch(a: Value, b: Value) {
    |Entries(a)| == |Entries(b)| &&
    forall i :: 0 <= i < |Entries(a)| ==>
      Entries(a)[i].key in ObjectKeys(b) && DeepEqualChecked(Entries(a)[i].val, Get(b, Entries(a)[i].key))
  }

  lemma EntriesMatchOfChecked(a: Value, b: Value)
    requires a.Obj? || a.Arr?
    requires b.Obj? || b.Arr?
    ensures DeepEqualChecked(a, b) <==> EntriesMatch(a, b)
  {
    if a.Arr? {
      assert forall i :: 0 <= i < |a.items| ==> Entries(a)[i] == Field(NatToString(i), a.items[i]);
    }
  }

  /** The corrected comparison is symmetric on well-formed values. */
  lemma DeepEqualCheckedSymmetric(a: Value, b: Value)
    requires WellFormed(a) && WellFormed(b)
    ensures DeepEqualChecked(a, b) <==> DeepEqualChecked(b, a)
  {
    CheckedSwap(a, b);
    CheckedSwap(b, a);
  }

  lemma {:induction false} CheckedSwap(a: Value, b: Value)
    requires WellFormed(a) && WellFormed(b)
    ensures DeepEqualChecked(a, b) ==> DeepEqualChecked(b, a)
    decreases a
  {
    if DeepEqualChecked(a, b) && !StrictEquals(a, b) {
      EntriesMatchOfChecked(a, b);
      EntriesMatchOfChecked(b, a);
      var ea := Entries(a);
      var eb := Entries(b);
      EntriesUnique(a);
      EntriesUnique(b);
      SameKeys(ea, eb);
      forall j | 0 <= j < |eb|
        ensures eb[j].key in ObjectKeys(a) && DeepEqualChecked(eb[j].val, Get(a, eb[j].key))
      {
        assert eb[j].key in KeySet(ea);
        var i := KeyIndex(ea, eb[j].key);
        GetEntry(a, i);
        GetEntry(b, j);
        var c := if a.Obj? then a.fields[i].val else a.items[i];
        assert c == ea[i].val;
        assert WellFormed(c);
        CheckedSwap(c, eb[j].val);
      }
    }
  }
}

=== FILE: helper.dfy ===
/** The helper utilities: colour codes and two closures with state (`memoize`'s cache and
    `throttle`'s last call time), each written as a state transformer. */
module Helper {
  import opened Results
  import opened Chars
  import opened Decimal
  import opened JsText
  import opened Random

  // ---------------------------------------------------------------- 32-bit integer operators

  const Two31: int := 0x8000_0000
  const Two32: int := 0x1_0000_0000

  /** `ToUint32`: an integer wrapped into [0, 2^32). */
  function ToUint32(x: int): (u: int)
    ensures 0 <= u < Two32
    ensures 0 <= x < Two32 ==> u == x
  {
    x % Two32
  }

  /** `ToInt32`: an integer wrapped into [-2^31, 2^31). */
  function ToInt32(x: int): (i: int)
    ensures -Two31 <= i < Two31
    ensures 0 <= x < Two31 ==> i == x
  {
    var u := ToUint32(x);
    if u >= Two31 then u - Two32 else u
  }

  /** The bitwise or of two non-negative integers, bit by bit from the lowest. */
  function OrBits(a: nat, b: nat): nat
    decreases a + b
  {
    if a == 0 then b
    else if b == 0 then a
    else 2 * OrBits(a / 2, b / 2) + (if a % 2 == 1 || b % 2 == 1 then 1 else 0)
  }

  /** `a << n` for a shift count below 32. */
  function ShiftLeft(a: int, n: nat): int
    requires n < 32
  {
    ToInt32(ToUint32(a) * Pow(2, n))
  }

  /** `a | b`. */
  function BitOr(a: int, b: int): int {
    ToInt32(OrBits(ToUint32(a), ToUint32(b)))
  }

  /** Or-ing in a value that fits below the low `k` bits of a shifted one is addition. */
  lemma {:induction false} OrDisjoint(hi: nat, lo: nat, k: nat)
    requires lo < Pow(2, k)
    ensures OrBits(hi * Pow(2, k), lo) == hi * Pow(2, k) + lo
  {
    if k > 0 && hi * Pow(2, k) != 0 && lo != 0 {
      var p := Pow(2, k - 1);
      assert hi * Pow(2, k) == 2 * (hi * p);
      OrDisjoint(hi, lo / 2, k - 1);
    } else if k == 0 {
      assert lo == 0;
    }
  }

  lemma Pow2Values()
    ensures Pow(2, 8) == 0x100 && Pow(2, 16) == 0x1_0000 && Pow(2, 24) == 0x100_0000
    ensures Pow(16, 6) == 0x100_0000 && Pow(16, 2) == 0x100
  {
    assert Pow(2, 4) == 16;
    assert Pow(2, 8) == 0x100 by {
      assert Pow(2, 6) == 64;
    }
    assert Pow(2, 12) == 0x1000 by {
      assert Pow(2, 10) == 0x400;
    }
    assert Pow(2, 16) == 0x1_0000 by {
      assert Pow(2, 14) == 0x4000;
    }
    assert Pow(2, 20) == 0x10_0000 by {
      assert Pow(2, 18) == 0x4_0000;
    }
    assert Pow(2, 24) == 0x100_0000 by {
      assert Pow(2, 22) == 0x40_0000;
    }
    assert Pow(16, 2) == 0x100;
    assert Pow(16, 4) == 0x1_0000;
  }

  // ---------------------------------------------------------------- rgbToHex

  /** `(1 << 24) | (r << 16) | (g << 8) | b`. */
  function PackRgb(r: int, g: int, b: int): int {
    BitOr(BitOr(BitOr(ShiftLeft(1, 24), ShiftLeft(r, 16)), ShiftLeft(g, 8)), b)
  }

  /** `n.toString(16)` for an integral number. */
  function ToHexString(n: int): (s: string)
    ensures |s| >= 1
  {
    if n < 0 then "-" + ToRadix(-n, 16) else ToRadix(n, 16)
  }

  /** `rgbToHex(r, g, b)`: "#" and the hexadecimal text of the packed word without its first
      character, upper-cased. */
  function RgbToHex(r: int, g: int, b: int): string {
    "#" + Upper(ToHexString(PackRgb(r, g, b))[1..])
  }

  predicate InByte(x: int) { 0 <= x < 256 }

  /** For channels in [0, 255] the packed word is 2^24 plus the three bytes. */
  lemma PackRgbValue(r: int, g: int, b: int)
    requires InByte(r) && InByte(g) && InByte(b)
    ensures PackRgb(r, g, b) == 0x100_0000 + r * 0x1_0000 + g * 0x100 + b
  {
    Pow2Values();
    ShiftedBytes(r, g);
    var x := 0x100_0000 + r * 0x1_0000;
    var y := x + g * 0x100;
    BitOrDisjoint(0x100_0000, r * 0x1_0000, 1, 24);
    BitOrDisjoint(x, g * 0x100, 0x100 + r, 16);
    BitOrDisjoint(y, b, 0x1_0000 + r * 0x100 + g, 8);
  }

  lemma ShiftedBytes(r: int, g: int)
    requires InByte(r) && InByte(g)
    ensures ShiftLeft(1, 24) == 0x100_0000
    ensures ShiftLeft(r, 16) == r * 0x1_0000
    ensures ShiftLeft(g, 8) == g * 0x100
  {
    Pow2Values();
  }

  /** `x | lo` is `x + lo` when `x` is a multiple of 2^k, `lo` is below 2^k, and the sum is a
      positive 32-bit integer. */
  lemma BitOrDisjoint(x: nat, lo: nat, hi: nat, k: nat)
    requires x == hi * Pow(2, k) && lo < Pow(2, k) && x + lo < Two31
    ensures BitOr(x, lo) == x + lo
  {
    OrDisjoint(hi, lo, k);
  }

  /** The colour code text: "#" and the two-digit hexadecimal fields of r, g and b. */
  lemma RgbToHexDigits(r: int, g: int, b: int)
    requires InByte(r) && InByte(g) && InByte(b)
    ensures RgbToHex(r, g, b) == "#" + Upper(FixedDigits(r, 2, 16) + FixedDigits(g, 2, 16) + FixedDigits(b, 2, 16))
  {
    var v := r * 0x1_0000 + g * 0x100 + b;
    PackedHex(r, g, b);
    SixDigits(r, g, b);
  }

  /** Past its leading "1", the hexadecimal text of the packed word is six digits of the
      three bytes. */
  lemma PackedHex(r: int, g: int, b: int)
    requires InByte(r) && InByte(g) && InByte(b)
    ensures ToHexString(PackRgb(r, g, b))[1..] == FixedDigits(r * 0x1_0000 + g * 0x100 + b, 6, 16)
  {
    Pow2Values();
    PackRgbValue(r, g, b);
    var v := r * 0x1_0000 + g * 0x100 + b;
    ToRadixSplit(1, v, 6, 16);
    assert ToRadix(1, 16) == "1";
  }

  /** Six hexadecimal digits of the three bytes are the three two-digit fields. */
  lemma SixDigits(r: int, g: int, b: int)
    requires InByte(r) && InByte(g) && InByte(b)
    ensures FixedDigits(r * 0x1_0000 + g * 0x100 + b, 6, 16)
         == FixedDigits(r, 2, 16) + FixedDigits(g, 2, 16) + FixedDigits(b, 2, 16)
  {
    var p := Pow(16, 2);
    assert p == 0x100;
    var hi := r * 0x100 + g;
    var v := r * 0x1_0000 + g * 0x100 + b;
    FixedDigitsConcat(r, g, 2, 2, 16, hi, 4);
    FixedDigitsConcat(hi, b, 4, 2, 16, v, 6);
  }

  predicate IsUpperHexDigit(c: char) { IsDigit(c) || 'A' <= c <= 'F' }

  /** Reading an upper-cased hexadecimal string gives the value of the original. */
  lemma {:induction false} UpperHexValue(s: string)
    requires AllRadixDigits(s, 16)
    ensures AllRadixDigits(Upper(s), 16)
    ensures forall i :: 0 <= i < |s| ==> IsUpperHexDigit(Upper(s)[i])
    ensures ParseRadix(Upper(s), 16) == ParseRadix(s, 16)
  {
    if |s| > 0 {
      var p := s[..|s| - 1];
      UpperHexValue(p);
      assert Upper(s)[..|s| - 1] == Upper(p);
    }
  }

  /** `rgbToHex` yields "#" and six upper-case hexadecimal digits, and its digit pairs read
      back as r, g and b. */
  lemma RgbToHexRoundTrip(r: int, g: int, b: int)
    requires InByte(r) && InByte(g) && InByte(b)
    ensures var h := RgbToHex(r, g, b);
      && |h| == 7 && h[0] == '#'
      && (forall i :: 1 <= i < 7 ==> IsUpperHexDigit(h[i]))
      && AllRadixDigits(h[1..], 16)
      && ParseRadix(h[1..3], 16) == r
      && ParseRadix(h[3..5], 16) == g
      && ParseRadix(h[5..7], 16) == b
  {
    Pow2Values();
    RgbToHexDigits(r, g, b);
    ParseFixedDigits(r, 2, 16);
    ParseFixedDigits(g, 2, 16);
    ParseFixedDigits(b, 2, 16);
    HexFields(FixedDigits(r, 2, 16), FixedDigits(g, 2, 16), FixedDigits(b, 2, 16));
  }

  lemma HexFields(fr: string, fg: string, fb: string)
    requires |fr| == 2 && |fg| == 2 && |fb| == 2
    requires AllRadixDigits(fr, 16) && AllRadixDigits(fg, 16) && AllRadixDigits(fb, 16)
    ensures var h := "#" + Upper(fr + fg + fb);
      && |h| == 7 && h[0] == '#'
      && (forall i :: 1 <= i < 7 ==> IsUpperHexDigit(h[i]))
      && AllRadixDigits(h[1..], 16)
      && ParseRadix(h[1..3], 16) == ParseRadix(fr, 16)
      && ParseRadix(h[3..5], 16) == ParseRadix(fg, 16)
      && ParseRadix(h[5..7], 16) == ParseRadix(fb, 16)
  {
    var u := Upper(fr + fg + fb);
    var h := "#" + u;
    assert h[1..] == u;
    assert h[1..3] == u[0..2] && h[3..5] == u[2..4] && h[5..7] == u[4..6];
    HexShape(fr + fg + fb);
    UpperPieces(fr, fg, fb);
  }

  lemma HexShape(s: string)
    requires AllRadixDigits(s, 16)
    ensures forall i :: 1 <= i < |s| + 1 ==> IsUpperHexDigit(("#" + Upper(s))[i])
    ensures AllRadixDigits(Upper(s), 16)
  {
    UpperHexValue(s);
  }

  lemma UpperPieces(fr: string, fg: string, fb: string)
    requires |fr| == 2 && |fg| == 2 && |fb| == 2
    requires AllRadixDigits(fr, 16) && AllRadixDigits(fg, 16) && AllRadixDigits(fb, 16)
    ensures var u := Upper(fr + fg + fb);
      && ParseRadix(u[0..2], 16) == ParseRadix(fr, 16)
      && ParseRadix(u[2..4], 16) == ParseRadix(fg, 16)
      && ParseRadix(u[4..6], 16) == ParseRadix(fb, 16)
  {
    var u := Upper(fr + fg + fb);
    assert u[0..2] == Upper(fr) && u[2..4] == Upper(fg) && u[4..6] == Upper(fb);
    UpperHexValue(fr);
    UpperHexValue(fg);
    UpperHexValue(fb);
  }

  // ---------------------------------------------------------------- generateRandomColor

  const ColorLetters: string := "0123456789ABCDEF"

  /** `generateRandomColor`: "#" and six letters, the i-th chosen by the i-th draw. */
  function GenerateRandomColor(draws: seq<real>): (color: string)
    requires |draws| == 6
    requires forall i :: 0 <= i < 6 ==> IsDraw(draws[i])
    ensures |color| == 7 && color[0] == '#'
    ensures forall i :: 1 <= i < 7 ==> color[i] in ColorLetters
  {
    "#" + seq(6, i requires 0 <= i < 6 => LetterOf(draws[i]))
  }

  function LetterOf(r: real): (c: char)
    requires IsDraw(r)
    ensures c in ColorLetters
  {
    ScaledDrawRange(r, 16);
    ColorLetters[ScaledDraw(r, 16)]
  }

  /** Every "#" followed by six of the letters is a possible colour. */
  lemma GenerateRandomColorReaches(s: string) returns (draws: seq<real>)
    requires |s| == 6
    requires forall i :: 0 <= i < 6 ==> s[i] in ColorLetters
    ensures |draws| == 6 && forall i :: 0 <= i < 6 ==> IsDraw(draws[i])
    ensures GenerateRandomColor(draws) == "#" + s
  {
    draws := seq(6, i requires 0 <= i < 6 => DrawFor(s[i]));
    forall i | 0 <= i < 6 ensures IsDraw(draws[i]) && LetterOf(draws[i]) == s[i] {
      DrawForLetter(s[i]);
    }
    assert GenerateRandomColor(draws)[1..] == s;
  }

  /** A draw that picks `c`: its index divided by 16. */
  function DrawFor(c: char): real
    requires c in ColorLetters
  {
    var k :| 0 <= k < 16 && ColorLetters[k] == c;
    k as real / 16.0
  }

  lemma DrawForLetter(c: char)
    requires c in ColorLetters
    ensures IsDraw(DrawFor(c)) && LetterOf(DrawFor(c)) == c
  {
    var k :| 0 <= k < 16 && ColorLetters[k] == c;
    assert forall j :: 0 <= j < 16 && ColorLetters[j] == c ==> j == k;
    assert DrawFor(c) * 16.0 == k as real;
  }

  // ---------------------------------------------------------------- memoize

  /** One call of a memoized function. `serialize` stands for `JSON.stringify(args)` and
      `func` for the wrapped function, assumed free of side effects; a result of `None` is
      `undefined`. `invoked` says whether `func` ran. */
  datatype MemoStep<V> = MemoStep(result: Option<V>, cache: map<string, Option<V>>, invoked: bool)

  function MemoCall<A, V>(cache: map<string, Option<V>>, args: A,
                          serialize: A -> string, func: A -> Option<V>): (st: MemoStep<V>)
    ensures st.invoked <==> !(serialize(args) in cache && cache[serialize(args)].Some?)
    ensures !st.invoked ==> st.result == cache[serialize(args)] && st.cache == cache
    ensures st.invoked ==> st.result == func(args) && st.cache == cache[serialize(args) := st.result]
    ensures cache.Keys <= st.cache.Keys
  {
    var key := serialize(args);
    if key in cache && cache[key].Some? then MemoStep(cache[key], cache, false)
    else
      var result := func(args);
      MemoStep(result, cache[key := result], true)
  }

  /** Every defined cache entry is what `func` returns for arguments with that key. */
  ghost predicate CacheAgrees<A(!new), V>(cache: map<string, Option<V>>, serialize: A -> string, func: A -> Option<V>) {
    forall a :: serialize(a) in cache && cache[serialize(a)].Some? ==> cache[serialize(a)] == func(a)
  }

  /** `func` gives equal results for arguments that serialize alike. */
  ghost predicate RespectsKey<A(!new), V>(serialize: A -> string, func: A -> Option<V>) {
    forall a, b :: serialize(a) == serialize(b) ==> func(a) == func(b)
  }

  /** Memoization is transparent: from an agreeing cache a call returns what `func` returns
      and leaves an agreeing cache. The empty cache agrees. */
  lemma MemoCallTransparent<A(!new), V>(cache: map<string, Option<V>>, args: A,
                                         serialize: A -> string, func: A -> Option<V>)
    requires CacheAgrees(cache, serialize, func)
    requires RespectsKey(serialize, func)
    ensures MemoCall(cache, args, serialize, func).result == func(args)
    ensures CacheAgrees(MemoCall(cache, args, serialize, func).cache, serialize, func)
  {
    var st := MemoCall(cache, args, serialize, func);
    forall a | serialize(a) in st.cache && st.cache[serialize(a)].Some?
      ensures st.cache[serialize(a)] == func(a)
    {
      if serialize(a) == serialize(args) && st.invoked {
        assert func(a) == func(args);
      }
    }
  }

  /** A sequence of calls through one memoized function, threading the cache. */
  function MemoRun<A, V>(cache: map<string, Option<V>>, calls: seq<A>,
                         serialize: A -> string, func: A -> Option<V>): (out: (seq<Option<V>>, map<string, Option<V>>))
    ensures |out.0| == |calls|
    ensures cache.Keys <= out.1.Keys
    decreases |calls|
  {
    if |calls| == 0 then ([], cache)
    else
      var st := MemoCall(cache, calls[0], serialize, func);
      var rest := MemoRun(st.cache, calls[1..], serialize, func);
      ([st.result] + rest.0, rest.1)
  }

  /** Starting from an agreeing cache, every call answers what `func` would. */
  lemma {:induction false} MemoRunTransparent<A(!new), V>(cache: map<string, Option<V>>, calls: seq<A>,
                                                           serialize: A -> string, func: A -> Option<V>)
    requires CacheAgrees(cache, serialize, func)
    requires RespectsKey(serialize, func)
    ensures forall i :: 0 <= i < |calls| ==> MemoRun(cache, calls, serialize, func).0[i] == func(calls[i])
    decreases |calls|
  {
    if |calls| > 0 {
      var st := MemoCall(cache, calls[0], serialize, func);
      MemoCallTransparent(cache, calls[0], serialize, func);
      MemoRunTransparent(st.cache, calls[1..], serialize, func);
      var out := MemoRun(cache, calls, serialize, func);
      forall i | 0 <= i < |calls| ensures out.0[i] == func(calls[i]) {
        if i > 0 {
          assert calls[1..][i - 1] == calls[i];
        }
      }
    }
  }

  /** A defined entry survives a run: calls with its key answer it, whatever `func` does. */
  lemma {:induction false} MemoRunKeeps<A, V>(cache: map<string, Option<V>>, calls: seq<A>,
                                              serialize: A -> string, func: A -> Option<V>, key: string)
    requires key in cache && cache[key].Some?
    ensures var out := MemoRun(cache, calls, serialize, func);
      key in out.1 && out.1[key] == cache[key]
    ensures forall i :: 0 <= i < |calls| && serialize(calls[i]) == key ==>
      MemoRun(cache, calls, serialize, func).0[i] == cache[key]
    decreases |calls|
  {
    if |calls| > 0 {
      var st := MemoCall(cache, calls[0], serialize, func);
      assert key in st.cache && st.cache[key] == cache[key];
      MemoRunKeeps(st.cache, calls[1..], serialize, func, key);
      var out := MemoRun(cache, calls, serialize, func);
      forall i | 0 <= i < |calls| && serialize(calls[i]) == key
        ensures out.0[i] == cache[key]
      {
        if i > 0 {
          assert calls[1..][i - 1] == calls[i];
        }
      }
    }
  }

  /** Once a call answers a defined value, every later call whose arguments serialize alike
      answers the same value, even if `func` would now return something else. */
  lemma {:induction false} MemoRunSticky<A, V>(cache: map<string, Option<V>>, calls: seq<A>,
                                               serialize: A -> string, func: A -> Option<V>, i: nat, j: nat)
    requires i < j < |calls| && serialize(calls[i]) == serialize(calls[j])
    requires MemoRun(cache, calls, serialize, func).0[i].Some?
    ensures MemoRun(cache, calls, serialize, func).0[j] == MemoRun(cache, calls, serialize, func).0[i]
    decreases i
  {
    var st := MemoCall(cache, calls[0], serialize, func);
    assert calls[1..][j - 1] == calls[j];
    if i == 0 {
      MemoRunKeeps(st.cache, calls[1..], serialize, func, serialize(calls[0]));
    } else {
      assert calls[1..][i - 1] == calls[i];
      MemoRunSticky(st.cache, calls[1..], serialize, func, i - 1, j - 1);
    }
  }

  // ---------------------------------------------------------------- throttle

  /** One call of a throttled function at clock reading `now`: it runs `func` exactly when
      at least `delay` has passed since the last run, and only then moves `lastTime`. */
  datatype ThrottleStep = ThrottleStep(invoked: bool, lastTime: int)

  /** `lastTime` of a freshly throttled function. */
  const ThrottleStart: int := 0

  function ThrottleCall(lastTime: int, now: int, delay: int): (st: ThrottleStep)
    ensures st.invoked <==> now - lastTime >= delay
    ensures st.lastTime == if st.invoked then now else lastTime
  {
    if now - lastTime >= delay then ThrottleStep(true, now) else ThrottleStep(false, lastTime)
  }

  /** The clock readings of the calls that ran `func`, for calls at the readings `times`. */
  function Invocations(lastTime: int, times: seq<int>, delay: int): (inv: seq<int>)
    ensures |inv| <= |times|
    decreases |times|
  {
    if |times| == 0 then []
    else
      var st := ThrottleCall(lastTime, times[0], delay);
      (if st.invoked then [times[0]] else []) + Invocations(st.lastTime, times[1..], delay)
  }

  /** Consecutive runs are at least `delay` apart, and the first is at least `delay` after
      the starting `lastTime`; this holds whatever the clock does between calls. */
  lemma {:induction false} InvocationsSpaced(lastTime: int, times: seq<int>, delay: int)
    ensures var inv := Invocations(lastTime, times, delay);
      && (|inv| > 0 ==> inv[0] - lastTime >= delay)
      && (forall k :: 0 <= k < |inv| - 1 ==> inv[k + 1] - inv[k] >= delay)
    decreases |times|
  {
    if |times| > 0 {
      var st := ThrottleCall(lastTime, times[0], delay);
      var rest := Invocations(st.lastTime, times[1..], delay);
      InvocationsSpaced(st.lastTime, times[1..], delay);
      var inv := Invocations(lastTime, times, delay);
      if st.invoked {
        assert inv == [times[0]] + rest;
      } else {
        assert inv == rest;
      }
    }
  }

  /** For a non-negative delay any two runs, not only consecutive ones, are `delay` apart. */
  lemma InvocationsPairwiseSpaced(lastTime: int, times: seq<int>, delay: int)
    requires delay >= 0
    ensures var inv := Invocations(lastTime, times, delay);
      forall i, j :: 0 <= i < j < |inv| ==> inv[j] - inv[i] >= delay
  {
    var inv := Invocations(lastTime, times, delay);
    InvocationsSpaced(lastTime, times, delay);
    forall i, j | 0 <= i < j < |inv| ensures inv[j] - inv[i] >= delay {
      SpacedChain(inv, delay, i, j);
    }
  }

  lemma {:induction false} SpacedChain(inv: seq<int>, delay: int, i: nat, j: nat)
    requires delay >= 0
    requires forall k :: 0 <= k < |inv| - 1 ==> inv[k + 1] - inv[k] >= delay
    requires i < j < |inv|
    ensures inv[j] - inv[i] >= delay
    decreases j - i
  {
    if j > i + 1 {
      SpacedChain(inv, delay, i, j - 1);
      assert inv[j] - inv[j - 1] >= delay;
    }
  }

  /** A fresh throttled function, with a non-negative delay, never runs before the clock
      reads `delay`. */
  lemma InvocationsFromStart(times: seq<int>, delay: int)
    requires delay >= 0
    ensures var inv := Invocations(ThrottleStart, times, delay);
      forall k :: 0 <= k < |inv| ==> inv[k] >= ThrottleStart + delay
  {
    var inv := Invocations(ThrottleStart, times, delay);
    InvocationsSpaced(ThrottleStart, times, delay);
    forall k | 0 < k < |inv| ensures inv[k] >= ThrottleStart + delay {
      SpacedChain(inv, delay, 0, k);
    }
  }

  /** The converse of `InvocationsSpaced`: calls that are already `delay` apart, the first
      `delay` after `lastTime`, all run. */
  lemma {:induction false} InvocationsAllWhenSpaced(lastTime: int, times: seq<int>, delay: int)
    requires |times| > 0 ==> times[0] - lastTime >= delay
    requires forall k :: 0 <= k < |times| - 1 ==> times[k + 1] - times[k] >= delay
    ensures Invocations(lastTime, times, delay) == times
    decreases |times|
  {
    if |times| > 0 {
      var rest := times[1..];
      assert forall k :: 0 <= k < |rest| - 1 ==> rest[k + 1] - rest[k] >= delay by {
        forall k | 0 <= k < |rest| - 1 ensures rest[k + 1] - rest[k] >= delay {
          assert rest[k] == times[k + 1] && rest[k + 1] == times[k + 2];
        }
      }
      if |rest| > 0 {
        assert rest[0] == times[1];
      }
      InvocationsAllWhenSpaced(times[0], rest, delay);
      assert [times[0]] + rest == times;
    }
  }
}

=== FILE: jstext.dfy ===
/** The built-in string operations the utilities are written with: case mapping, `trim`,
    `split`, `join`, `slice`, `padStart`, `replace` with a string pattern, and global
    `replace` with a one-class regular expression. */
module JsText {
  import opened Chars

  predicate NoneSatisfy(s: string, p: char -> bool) {
    forall i :: 0 <= i < |s| ==> !p(s[i])
  }

  predicate AllSatisfy(s: string, p: char -> bool) {
    forall i :: 0 <= i < |s| ==> p(s[i])
  }

  /** `s.toLowerCase()` on ASCII. */
  function Lower(s: string): (r: string)
    ensures |r| == |s|
    ensures forall i :: 0 <= i < |s| ==> r[i] == ToLower(s[i])
  {
    seq(|s|, i requires 0 <= i < |s| => ToLower(s[i]))
  }

  /** `s.toUpperCase()` on ASCII. */
  function Upper(s: string): (r: string)
    ensures |r| == |s|
    ensures forall i :: 0 <= i < |s| ==> r[i] == ToUpper(s[i])
  {
    seq(|s|, i requires 0 <= i < |s| => ToUpper(s[i]))
  }

  /** The number of leading white-space characters. */
  function LeadingSpaces(s: string): (n: nat)
    ensures n <= |s|
    ensures forall i :: 0 <= i < n ==> IsJsSpace(s[i])
    ensures n < |s| ==> !IsJsSpace(s[n])
  {
    if |s| > 0 && IsJsSpace(s[0]) then 1 + LeadingSpaces(s[1..]) else 0
  }

  /** The end of `s` once trailing white space is dropped, never below `lo`. */
  function TrimmedEnd(s: string, lo: nat): (m: nat)
    requires lo <= |s|
    ensures lo <= m <= |s|
    ensures forall i :: m <= i < |s| ==> IsJsSpace(s[i])
    ensures m > lo ==> !IsJsSpace(s[m - 1])
    decreases |s|
  {
    if |s| > lo && IsJsSpace(s[|s| - 1]) then TrimmedEnd(s[..|s| - 1], lo) else |s|
  }

  /** `s.trim()`: `s` without its leading and trailing white space. */
  function Trim(s: string): (r: string)
    ensures |r| <= |s|
    ensures |r| > 0 ==> !IsJsSpace(r[0]) && !IsJsSpace(r[|r| - 1])
    ensures r == s[LeadingSpaces(s)..TrimmedEnd(s, LeadingSpaces(s))]
    ensures |r| == 0 <==> AllSatisfy(s, IsJsSpace)
  {
    var lo := LeadingSpaces(s);
    var hi := TrimmedEnd(s, lo);
    assert lo == |s| ==> AllSatisfy(s, IsJsSpace);
    assert lo < |s| ==> !IsJsSpace(s[lo]) && hi > lo;
    s[lo..hi]
  }

  /** A string with no white space at either end is its own trim. */
  lemma TrimOfTrimmed(s: string)
    requires |s| > 0 ==> !IsJsSpace(s[0]) && !IsJsSpace(s[|s| - 1])
    ensures Trim(s) == s
  {
  }

  /** The index of the first character satisfying `p`, or `|s|` when there is none. */
  function FirstWhere(s: string, p: char -> bool): (i: nat)
    ensures i <= |s|
    ensures forall k :: 0 <= k < i ==> !p(s[k])
    ensures i < |s| ==> p(s[i])
  {
    if |s| == 0 then 0 else if p(s[0]) then 0 else 1 + FirstWhere(s[1..], p)
  }

  /** The end of the maximal run of characters satisfying `p` that starts at `i`. */
  function RunEnd(s: string, i: nat, p: char -> bool): (j: nat)
    requires i <= |s|
    ensures i <= j <= |s|
    ensures forall k :: i <= k < j ==> p(s[k])
    ensures j < |s| ==> !p(s[j])
    decreases |s| - i
  {
    if i < |s| && p(s[i]) then RunEnd(s, i + 1, p) else i
  }

  /** `s.replace(/[P]+/g, rep)`: every maximal run of characters of the class `p` becomes
      `rep`. A global match of a `+`-quantified class is greedy and restarts right after the
      previous match, so the matches are exactly the maximal runs. */
  function ReplaceRuns(s: string, p: char -> bool, rep: string): (r: string)
    decreases |s|
  {
    if |s| == 0 then ""
    else if p(s[0]) then rep + ReplaceRuns(s[RunEnd(s, 0, p)..], p, rep)
    else [s[0]] + ReplaceRuns(s[1..], p, rep)
  }

  /** `s.replace(/[P]/g, '')`: every character of the class `p` is dropped. */
  function RemoveChars(s: string, p: char -> bool): (r: string)
    ensures |r| <= |s|
    ensures NoneSatisfy(r, p)
    ensures forall i :: 0 <= i < |r| ==> r[i] in s
  {
    if |s| == 0 then ""
    else if p(s[0]) then RemoveChars(s[1..], p)
    else [s[0]] + RemoveChars(s[1..], p)
  }

  /** Deleting the runs of a class is deleting its characters one by one. */
  lemma {:induction false} ReplaceRunsWithNothing(s: string, p: char -> bool)
    ensures ReplaceRuns(s, p, "") == RemoveChars(s, p)
    decreases |s|
  {
    if |s| > 0 {
      if p(s[0]) {
        RemoveRun(s, 0, RunEnd(s, 0, p), p);
        ReplaceRunsWithNothing(s[RunEnd(s, 0, p)..], p);
      } else {
        ReplaceRunsWithNothing(s[1..], p);
      }
    }
  }

  lemma {:induction false} RemoveRun(s: string, i: nat, j: nat, p: char -> bool)
    requires i <= j <= |s|
    requires forall k :: i <= k < j ==> p(s[k])
    ensures RemoveChars(s[i..], p) == RemoveChars(s[j..], p)
    decreases j - i
  {
    if i < j {
      assert s[i..][1..] == s[i + 1..];
      RemoveRun(s, i + 1, j, p);
    }
  }

  /** The characters of `ReplaceRuns` come from `s` outside the class, or from `rep`. */
  lemma {:induction false} ReplaceRunsChars(s: string, p: char -> bool, rep: string)
    ensures forall i :: 0 <= i < |ReplaceRuns(s, p, rep)| ==>
      (ReplaceRuns(s, p, rep)[i] in s && !p(ReplaceRuns(s, p, rep)[i])) || ReplaceRuns(s, p, rep)[i] in rep
    decreases |s|
  {
    if |s| > 0 {
      if p(s[0]) {
        var j := RunEnd(s, 0, p);
        ReplaceRunsChars(s[j..], p, rep);
        assert forall c :: c in s[j..] ==> c in s;
      } else {
        ReplaceRunsChars(s[1..], p, rep);
        assert forall c :: c in s[1..] ==> c in s;
      }
    }
  }

  /** `s.split(/[P]+/)`: the pieces between maximal runs of the class `p`. A leading run
      gives an empty first piece and a trailing run an empty last piece. */
  function SplitRuns(s: string, p: char -> bool): (parts: seq<string>)
    ensures |parts| >= 1
    ensures forall k :: 0 <= k < |parts| ==> NoneSatisfy(parts[k], p)
    decreases |s|
  {
    var i := FirstWhere(s, p);
    if i == |s| then [s] else [s[..i]] + SplitRuns(s[RunEnd(s, i, p)..], p)
  }

  /** The index of the first occurrence of `c`, or `|s|`. */
  function IndexOfChar(s: string, c: char): (i: nat)
    ensures i <= |s|
    ensures c !in s[..i]
    ensures i < |s| ==> s[i] == c
  {
    if |s| == 0 then 0 else if s[0] == c then 0 else 1 + IndexOfChar(s[1..], c)
  }

  /** `s.split(sep)` for a one-character separator. */
  function SplitOn(s: string, sep: char): (parts: seq<string>)
    ensures |parts| >= 1
    ensures forall k :: 0 <= k < |parts| ==> sep !in parts[k]
    ensures sep !in s ==> parts == [s]
    decreases |s|
  {
    var i := IndexOfChar(s, sep);
    if i == |s| then [s] else [s[..i]] + SplitOn(s[i + 1..], sep)
  }

  /** `parts.join(sep)` for a one-character separator. */
  function Join(parts: seq<string>, sep: char): string
  {
    if |parts| == 0 then ""
    else if |parts| == 1 then parts[0]
    else parts[0] + [sep] + Join(parts[1..], sep)
  }

  /** Joining the pieces of a split gives the string back. */
  lemma {:induction false} JoinSplit(s: string, sep: char)
    ensures Join(SplitOn(s, sep), sep) == s
    decreases |s|
  {
    var i := IndexOfChar(s, sep);
    if i < |s| {
      JoinSplit(s[i + 1..], sep);
      JoinCons(s[..i], SplitOn(s[i + 1..], sep), sep);
      Rejoin(s, i, sep);
    }
  }

  lemma Rejoin(s: string, i: nat, sep: char)
    requires i < |s| && s[i] == sep
    ensures s[..i] + [sep] + s[i + 1..] == s
  {
  }

  /** Joining a piece in front of a non-empty list puts one separator between. */
  lemma JoinCons(a: string, rest: seq<string>, sep: char)
    requires |rest| >= 1
    ensures Join([a] + rest, sep) == a + [sep] + Join(rest, sep)
  {
    assert ([a] + rest)[1..] == rest;
  }

  /** Splitting a join of separator-free pieces gives the pieces back. */
  lemma {:induction false} SplitJoin(parts: seq<string>, sep: char)
    requires |parts| >= 1
    requires forall k :: 0 <= k < |parts| ==> sep !in parts[k]
    ensures SplitOn(Join(parts, sep), sep) == parts
    decreases |parts|
  {
    if |parts| > 1 {
      var s := Join(parts, sep);
      var rest := Join(parts[1..], sep);
      assert s == parts[0] + [sep] + rest;
      FirstSeparator(parts[0], rest, sep);
      assert s[|parts[0]| + 1..] == rest;
      SplitJoin(parts[1..], sep);
    }
  }

  lemma {:induction false} FirstSeparator(a: string, b: string, sep: char)
    requires sep !in a
    ensures IndexOfChar(a + [sep] + b, sep) == |a|
    ensures (a + [sep] + b)[..|a|] == a
  {
    if |a| > 0 {
      assert (a + [sep] + b)[1..] == a[1..] + [sep] + b;
      FirstSeparator(a[1..], b, sep);
    }
  }

  /** `s.slice(0, end)` for an integral `end`: a negative end counts from the back. */
  function SliceTo(s: string, end: int): (r: string)
    ensures end >= 0 ==> r == s[..if end < |s| then end else |s|]
    ensures end < 0 ==> r == s[..if |s| + end > 0 then |s| + end else 0]
  {
    var stop := if end < 0 then (if |s| + end > 0 then |s| + end else 0)
                else (if end < |s| then end else |s|);
    s[..stop]
  }

  /** `s.padStart(width, fill)` with a one-character fill. */
  function PadStart(s: string, width: nat, fill: char): (r: string)
    ensures |s| >= width ==> r == s
    ensures |s| < width ==> |r| == width && r[width - |s|..] == s
    ensures forall i :: 0 <= i < |r| - |s| ==> r[i] == fill
    decreases width - |s|
  {
    if |s| >= width then s else PadStart([fill] + s, width, fill)
  }

  /** `pat` occurs in `s` at position `i`. */
  predicate OccursAt(s: string, pat: string, i: nat) {
    i + |pat| <= |s| && s[i..i + |pat|] == pat
  }

  /** `k` is the least position where `pat` occurs in `s`. */
  predicate FirstAt(s: string, pat: string, k: nat) {
    OccursAt(s, pat, k) && forall j :: 0 <= j < k ==> !OccursAt(s, pat, j)
  }

  /** `pat` occurs at no position of `s`. */
  predicate NowhereIn(s: string, pat: string) {
    forall k :: 0 <= k <= |s| ==> !OccursAt(s, pat, k)
  }

  /** `s.indexOf(pat)`: the first position where `pat` occurs, or -1. */
  function IndexOf(s: string, pat: string): (i: int)
    ensures -1 <= i <= |s|
    ensures i >= 0 ==> OccursAt(s, pat, i)
    ensures forall k :: 0 <= k <= |s| && (i < 0 || k < i) ==> !OccursAt(s, pat, k)
  {
    IndexOfFrom(s, pat, 0)
  }

  function IndexOfFrom(s: string, pat: string, from: nat): (i: int)
    requires from <= |s|
    requires forall k :: 0 <= k < from ==> !OccursAt(s, pat, k)
    ensures -1 <= i <= |s|
    ensures i >= 0 ==> from <= i && OccursAt(s, pat, i)
    ensures forall k :: 0 <= k <= |s| && (i < 0 || k < i) ==> !OccursAt(s, pat, k)
    decreases |s| - from
  {
    if OccursAt(s, pat, from) then from
    else if from == |s| then -1
    else IndexOfFrom(s, pat, from + 1)
  }

  /** `s.replace(pat, rep)` with a string pattern: only the first occurrence is replaced.
      `$` patterns in `rep` are not interpreted; the library only passes digit strings. */
  function ReplaceFirst(s: string, pat: string, rep: string): (r: string)
    ensures NowhereIn(s, pat) ==> r == s
    ensures forall k: nat :: FirstAt(s, pat, k) ==> r == s[..k] + rep + s[k + |pat|..]
  {
    var i := IndexOf(s, pat);
    if i < 0 then s else s[..i] + rep + s[i + |pat|..]
  }

  /** Replacing at a known first occurrence. */
  lemma ReplaceFirstAt(s: string, pat: string, rep: string, k: nat)
    requires FirstAt(s, pat, k)
    ensures ReplaceFirst(s, pat, rep) == s[..k] + rep + s[k + |pat|..]
  {
    assert IndexOf(s, pat) == k;
  }
}

=== FILE: jsvalues.dfy ===
/** JavaScript values as data. An object is its list of own enumerable properties in
    insertion order; an array is its list of elements. There are no references: two
    compound values are never the same object (see `StrictEquals`). */
module JsValues {
  import opened Results
  import opened Chars
  import opened Decimal
  import Arrays

  datatype Value =
    | Undefined
    | Null
    | Bool(b: bool)
    | Num(n: int)
    | Str(s: string)
    | Arr(items: seq<Value>)
    | Obj(fields: seq<Field>)

  datatype Field = Field(key: string, val: Value)

  // ---------------------------------------------------------------- property lists

  function Keys(fs: seq<Field>): (ks: seq<string>)
    ensures |ks| == |fs|
    ensures forall i :: 0 <= i < |fs| ==> ks[i] == fs[i].key
  {
    seq(|fs|, i requires 0 <= i < |fs| => fs[i].key)
  }

  /** A property list of a real object: no key twice. */
  predicate UniqueKeys(fs: seq<Field>) {
    forall i, j :: 0 <= i < j < |fs| ==> fs[i].key != fs[j].key
  }

  /** The position of key `k`, or `|fs|` when it is absent. */
  function KeyIndex(fs: seq<Field>, k: string): (i: nat)
    ensures i <= |fs|
    ensures i < |fs| ==> fs[i].key == k
    ensures forall j :: 0 <= j < i ==> fs[j].key != k
    ensures i == |fs| <==> k !in Keys(fs)
  {
    if |fs| == 0 then 0
    else if fs[0].key == k then 0
    else
      var r := KeyIndex(fs[1..], k);
      assert Keys(fs) == [fs[0].key] + Keys(fs[1..]);
      1 + r
  }

  /** `obj[k]` on an own property, `None` when there is none. */
  function Lookup(fs: seq<Field>, k: string): (r: Option<Value>)
    ensures r.Some? <==> k in Keys(fs)
  {
    var i := KeyIndex(fs, k);
    if i < |fs| then Some(fs[i].val) else None
  }

  /** In a list with unique keys the lookup of a field's key gives that field's value. */
  lemma LookupUnique(fs: seq<Field>, i: nat)
    requires UniqueKeys(fs) && i < |fs|
    ensures Lookup(fs, fs[i].key) == Some(fs[i].val)
  {
  }

  /** `obj[k] = v`: an existing property keeps its place, a new one goes last. */
  function Put(fs: seq<Field>, k: string, v: Value): (r: seq<Field>)
    ensures Keys(r) == if k in Keys(fs) then Keys(fs) else Keys(fs) + [k]
    ensures UniqueKeys(fs) ==> UniqueKeys(r)
  {
    var i := KeyIndex(fs, k);
    if i < |fs| then fs[i := Field(k, v)] else fs + [Field(k, v)]
  }

  /** After an assignment the key reads the new value and every other key is unchanged. */
  lemma PutLookup(fs: seq<Field>, k: string, v: Value, j: string)
    ensures Lookup(Put(fs, k, v), j) == if j == k then Some(v) else Lookup(fs, j)
  {
    var i := KeyIndex(fs, k);
    if j != k {
      if i < |fs| {
        KeyIndexUpdate(fs, i, Field(k, v), j);
      } else {
        KeyIndexAppend(fs, Field(k, v), j);
      }
    } else if i < |fs| {
      KeyIndexUpdate(fs, i, Field(k, v), k);
    } else {
      KeyIndexAppend(fs, Field(k, v), k);
    }
  }

  /** Overwriting the field at `i` with one of the same key moves no other key. */
  lemma {:induction false} KeyIndexUpdate(fs: seq<Field>, i: nat, f: Field, j: string)
    requires i < |fs| && fs[i].key == f.key
    ensures KeyIndex(fs[i := f], j) == KeyIndex(fs, j)
  {
    if i > 0 {
      assert fs[i := f][1..] == fs[1..][i - 1 := f];
      KeyIndexUpdate(fs[1..], i - 1, f, j);
    } else {
      assert fs[i := f][1..] == fs[1..];
    }
  }

  /** Appending a field leaves the lookup of earlier keys alone and finds the new one. */
  lemma KeyIndexAppend(fs: seq<Field>, f: Field, j: string)
    ensures Lookup(fs + [f], j) == if j in Keys(fs) then Lookup(fs, j)
                                   else if j == f.key then Some(f.val) else None
  {
    var g := fs + [f];
    assert Keys(g) == Keys(fs) + [f.key];
    var i := KeyIndex(fs, j);
    assert forall m :: 0 <= m < i ==> g[m] == fs[m];
    if i < |fs| {
      assert g[i] == fs[i];
    } else {
      assert g[|fs|] == f;
    }
  }

  /** `Object.assign(acc, {...src})`: the properties of `src` assigned in order. */
  function AssignAll(acc: seq<Field>, src: seq<Field>): (r: seq<Field>)
    ensures UniqueKeys(acc) ==> UniqueKeys(r)
  {
    if |src| == 0 then acc
    else
      var last := src[|src| - 1];
      Put(AssignAll(acc, src[..|src| - 1]), last.key, last.val)
  }

  /** The keys after assigning are those of an insertion-ordered set fed `acc`'s keys, then
      `src`'s. */
  lemma {:induction false} AssignAllKeys(acc: seq<Field>, src: seq<Field>)
    ensures Keys(AssignAll(acc, src)) == Arrays.AddAll(Keys(acc), Keys(src))
  {
    if |src| > 0 {
      AssignAllKeys(acc, src[..|src| - 1]);
      assert Keys(src)[..|src| - 1] == Keys(src[..|src| - 1]);
    }
  }

  /** The value of the last field of `src` with key `k`. */
  function LastLookup(src: seq<Field>, k: string): (r: Option<Value>)
    ensures r.Some? <==> k in Keys(src)
  {
    if |src| == 0 then None
    else if src[|src| - 1].key == k then Some(src[|src| - 1].val)
    else
      var r := LastLookup(src[..|src| - 1], k);
      assert Keys(src) == Keys(src[..|src| - 1]) + [src[|src| - 1].key];
      r
  }

  /** The field `LastLookup` reads: one with the key and no later field with it. */
  lemma {:induction false} LastLookupWitness(src: seq<Field>, k: string) returns (i: nat)
    requires k in Keys(src)
    ensures i < |src| && src[i].key == k && LastLookup(src, k) == Some(src[i].val)
    ensures forall m :: i < m < |src| ==> src[m].key != k
  {
    LastLookupStep(src, k);
    if src[|src| - 1].key == k {
      i := |src| - 1;
    } else {
      i := LastLookupWitness(src[..|src| - 1], k);
    }
  }

  /** The last assignment to a key wins; keys `src` does not mention read as in `acc`. */
  lemma {:induction false} AssignAllLookup(acc: seq<Field>, src: seq<Field>, k: string)
    ensures Lookup(AssignAll(acc, src), k) ==
      if k in Keys(src) then LastLookup(src, k) else Lookup(acc, k)
  {
    if |src| > 0 {
      var p := src[..|src| - 1];
      var last := src[|src| - 1];
      var before := AssignAll(acc, p);
      AssignAllLookup(acc, p, k);
      PutLookup(before, last.key, last.val, k);
      LastLookupStep(src, k);
    }
  }

  lemma LastLookupStep(src: seq<Field>, k: string)
    requires |src| > 0
    ensures var p := src[..|src| - 1];
      && (k in Keys(src) <==> k in Keys(p) || src[|src| - 1].key == k)
      && LastLookup(src, k) ==
         if src[|src| - 1].key == k then Some(src[|src| - 1].val) else LastLookup(p, k)
  {
    assert Keys(src) == Keys(src[..|src| - 1]) + [src[|src| - 1].key];
  }

  /** In a list with unique keys the last field with a key is the only one. */
  lemma LastLookupUnique(src: seq<Field>, k: string)
    requires UniqueKeys(src)
    ensures LastLookup(src, k) == Lookup(src, k)
  {
    if k in Keys(src) {
      var i := LastLookupWitness(src, k);
      LookupUnique(src, i);
    }
  }

  /** Assigning fresh keys appends them: the result is the two lists one after the other. */
  lemma {:induction false} AssignAllFresh(acc: seq<Field>, src: seq<Field>)
    requires UniqueKeys(acc + src)
    ensures AssignAll(acc, src) == acc + src
  {
    if |src| > 0 {
      var p := src[..|src| - 1];
      var last := src[|src| - 1];
      assert acc + src == (acc + p) + [last];
      forall x, y | 0 <= x < y < |acc + p| ensures (acc + p)[x].key != (acc + p)[y].key {
        assert (acc + p)[x] == (acc + src)[x] && (acc + p)[y] == (acc + src)[y];
      }
      AssignAllFresh(acc, p);
      assert last.key !in Keys(acc + p) by {
        forall m | 0 <= m < |acc + p| ensures (acc + p)[m].key != last.key {
          assert (acc + src)[m] == (acc + p)[m];
          assert (acc + src)[|acc + src| - 1] == last;
        }
      }
    }
  }

  /** The fields satisfying `p`, in order. */
  function FilterFields(fs: seq<Field>, p: Field -> bool): (r: seq<Field>)
    ensures |r| <= |fs|
    ensures forall i :: 0 <= i < |r| ==> p(r[i])
  {
    if |fs| == 0 then []
    else FilterFields(fs[..|fs| - 1], p) + (if p(fs[|fs| - 1]) then [fs[|fs| - 1]] else [])
  }

  /** A filtered list only holds keys of the original. */
  lemma {:induction false} FilterKeysIn(fs: seq<Field>, p: Field -> bool, k: string)
    ensures k in Keys(FilterFields(fs, p)) ==> k in Keys(fs)
  {
    if |fs| > 0 {
      FilterKeysIn(fs[..|fs| - 1], p, k);
      assert Keys(fs) == Keys(fs[..|fs| - 1]) + [fs[|fs| - 1].key];
      assert Keys(FilterFields(fs, p)) == Keys(FilterFields(fs[..|fs| - 1], p)) +
        Keys(if p(fs[|fs| - 1]) then [fs[|fs| - 1]] else []);
    }
  }

  /** Filtering keeps keys unique and reads a key's value if and only if its field passes. */
  lemma {:induction false} FilterLookup(fs: seq<Field>, p: Field -> bool, k: string)
    requires UniqueKeys(fs)
    ensures UniqueKeys(FilterFields(fs, p))
    ensures Lookup(FilterFields(fs, p), k) ==
      match Lookup(fs, k)
      case Some(v) => if p(Field(k, v)) then Some(v) else None
      case None => None
  {
    if |fs| > 0 {
      var q := fs[..|fs| - 1];
      var last := fs[|fs| - 1];
      var fq := FilterFields(q, p);
      assert fs == q + [last];
      FilterLookup(q, p, k);
      KeyIndexAppend(q, last, k);
      FilterKeysIn(q, p, last.key);
      assert last.key !in Keys(q);
      if p(last) {
        KeyIndexAppend(fq, last, k);
        assert FilterFields(fs, p) == fq + [last];
        forall x, y | 0 <= x < y < |fq + [last]|
          ensures (fq + [last])[x].key != (fq + [last])[y].key
        {
          if y == |fq| {
            assert (fq + [last])[x] == fq[x];
            assert fq[x].key in Keys(fq);
          } else {
            assert (fq + [last])[x] == fq[x] && (fq + [last])[y] == fq[y];
          }
        }
      } else {
        assert FilterFields(fs, p) == fq;
      }
    }
  }

  /** A key of a prefix sits where it sat before an appended field. */
  lemma KeyIndexAppendIn(fs: seq<Field>, f: Field, k: string)
    requires k in Keys(fs)
    ensures KeyIndex(fs + [f], k) == KeyIndex(fs, k)
  {
    assert (fs + [f])[KeyIndex(fs, k)] == fs[KeyIndex(fs, k)];
  }

  /** The fields of `r` appear in `fs` in the order they have in `r`. */
  predicate InKeyOrder(fs: seq<Field>, r: seq<Field>) {
    forall i, j :: 0 <= i < j < |r| ==> KeyIndex(fs, r[i].key) < KeyIndex(fs, r[j].key)
  }

  lemma InKeyOrderAppend(fs: seq<Field>, r: seq<Field>, f: Field)
    requires InKeyOrder(fs, r)
    requires forall i :: 0 <= i < |r| ==> KeyIndex(fs, r[i].key) < KeyIndex(fs, f.key)
    ensures InKeyOrder(fs, r + [f])
  {
    forall i, j | 0 <= i < j < |r + [f]|
      ensures KeyIndex(fs, (r + [f])[i].key) < KeyIndex(fs, (r + [f])[j].key)
    {
      assert (r + [f])[i] == r[i];
      if j < |r| {
        assert (r + [f])[j] == r[j];
      }
    }
  }

  /** Filtering keeps the relative order of the surviving keys. */
  lemma {:induction false} FilterKeepsOrder(fs: seq<Field>, p: Field -> bool)
    requires UniqueKeys(fs)
    ensures InKeyOrder(fs, FilterFields(fs, p))
  {
    if |fs| > 0 {
      var q := fs[..|fs| - 1];
      var last := fs[|fs| - 1];
      var fq := FilterFields(q, p);
      assert fs == q + [last];
      assert UniqueKeys(q);
      FilterKeepsOrder(q, p);
      assert last.key !in Keys(q);
      FilterPrefixIndex(q, last, p);
      if p(last) {
        assert FilterFields(fs, p) == fq + [last];
        InKeyOrderAppend(fs, fq, last);
      } else {
        assert FilterFields(fs, p) == fq;
      }
    }
  }

  /** The survivors of a prefix keep their positions, all before an appended new key. */
  lemma FilterPrefixIndex(q: seq<Field>, last: Field, p: Field -> bool)
    requires last.key !in Keys(q)
    requires InKeyOrder(q, FilterFields(q, p))
    ensures InKeyOrder(q + [last], FilterFields(q, p))
    ensures forall i :: 0 <= i < |FilterFields(q, p)| ==>
      KeyIndex(q + [last], FilterFields(q, p)[i].key) < KeyIndex(q + [last], last.key)
  {
    var fq := FilterFields(q, p);
    assert KeyIndex(q + [last], last.key) == |q|;
    forall i | 0 <= i < |fq|
      ensures KeyIndex(q + [last], fq[i].key) == KeyIndex(q, fq[i].key) < |q|
    {
      assert fq[i].key in Keys(fq);
      FilterKeysIn(q, p, fq[i].key);
      KeyIndexAppendIn(q, last, fq[i].key);
    }
  }

  /** Filtering twice is filtering once by both conditions. */
  lemma {:induction false} FilterFilter(fs: seq<Field>, p: Field -> bool, q: Field -> bool,
                                        both: Field -> bool)
    requires forall f :: both(f) == (p(f) && q(f))
    ensures FilterFields(FilterFields(fs, p), q) == FilterFields(fs, both)
  {
    if |fs| > 0 {
      var pre := fs[..|fs| - 1];
      var last := fs[|fs| - 1];
      FilterFilter(pre, p, q, both);
      var fp := FilterFields(pre, p);
      if p(last) {
        assert FilterFields(fs, p) == fp + [last];
        assert (fp + [last])[..|fp|] == fp;
      } else {
        assert FilterFields(fs, p) == fp;
      }
    }
  }

  /** `delete obj[k]`. */
  function Remove(fs: seq<Field>, k: string): (r: seq<Field>)
    ensures k !in Keys(r)
  {
    FilterFields(fs, (f: Field) => f.key != k)
  }

  // ---------------------------------------------------------------- values

  /** JavaScript truthiness. */
  predicate Truthy(v: Value) {
    match v
    case Undefined => false
    case Null => false
    case Bool(b) => b
    case Num(n) => n != 0
    case Str(s) => s != ""
    case Arr(_) => true
    case Obj(_) => true
  }

  /** `typeof v === 'object'`. */
  predicate IsObjectType(v: Value) {
    v.Null? || v.Arr? || v.Obj?
  }

  /** `v == null`: null or undefined. */
  predicate IsNullish(v: Value) {
    v.Null? || v.Undefined?
  }

  /** `a === b`. Compound values are compared by reference and the model has no shared
      references, so two of them are never identical. */
  predicate StrictEquals(a: Value, b: Value) {
    match (a, b)
    case (Undefined, Undefined) => true
    case (Null, Null) => true
    case (Bool(x), Bool(y)) => x == y
    case (Num(x), Num(y)) => x == y
    case (Str(x), Str(y)) => x == y
    case _ => false
  }

  /** Why an assignment `v[k] = x` fails. The library runs as strict-mode code, where a
      property write on a primitive, `null` or `undefined` throws a TypeError; writes into
      arrays are outside the model. */
  datatype Failure = TypeError | ArrayWrite

  /** `v[k] = x`, giving the updated value. */
  function SetKey(v: Value, k: string, x: Value): (r: Result<Value, Failure>)
    ensures r.Ok? <==> v.Obj?
    ensures r.Ok? ==> r.value.Obj? && r.value.fields == Put(v.fields, k, x)
    ensures v.Arr? ==> r == Err(ArrayWrite)
    ensures !v.Obj? && !v.Arr? ==> r == Err(TypeError)
  {
    if v.Obj? then Ok(Obj(Put(v.fields, k, x)))
    else if v.Arr? then Err(ArrayWrite)
    else Err(TypeError)
  }

  /** What a write means to a reader: on an object, `k` reads `x` afterwards, every other
      key reads what it read before, and `Object.keys` gains `k` at the end exactly when it
      was missing. On anything but an object or array the write throws. */
  lemma SetKeyMeaning(v: Value, k: string, x: Value)
    ensures SetKey(v, k, x).Ok? <==> v.Obj?
    ensures v.Obj? ==> Get(SetKey(v, k, x).value, k) == x
    ensures v.Obj? ==> forall j :: j != k ==> Get(SetKey(v, k, x).value, j) == Get(v, j)
    ensures v.Obj? ==>
      ObjectKeys(SetKey(v, k, x).value) == if k in ObjectKeys(v) then ObjectKeys(v) else ObjectKeys(v) + [k]
    ensures !v.Obj? && !v.Arr? ==> SetKey(v, k, x) == Err(TypeError)
  {
    if v.Obj? {
      PutLookup(v.fields, k, x, k);
      forall j | j != k
        ensures Get(SetKey(v, k, x).value, j) == Get(v, j)
      {
        PutLookup(v.fields, k, x, j);
      }
    }
  }

  /** A canonical array index: the decimal text of a natural number. */
  predicate IsIndexKey(k: string) {
    |k| >= 1 && AllDigits(k) && NatToString(ParseDecimal(k)) == k
  }

  lemma IndexKeyOf(i: nat)
    ensures IsIndexKey(NatToString(i)) && ParseDecimal(NatToString(i)) == i
  {
    ParseNatToString(i);
  }

  /** `v[k]` for the own properties the model knows: object fields, array elements and
      `length`, string characters and `length`. Everything else reads `undefined`. */
  function Get(v: Value, k: string): Value {
    match v
    case Obj(fs) => (match Lookup(fs, k) case Some(x) => x case None => Undefined)
    case Arr(items) =>
      if k == "length" then Num(|items|)
      else if IsIndexKey(k) && ParseDecimal(k) < |items| then items[ParseDecimal(k)]
      else Undefined
    case Str(s) =>
      if k == "length" then Num(|s|)
      else if IsIndexKey(k) && ParseDecimal(k) < |s| then Str([s[ParseDecimal(k)]])
      else Undefined
    case _ => Undefined
  }

  /** `Object.keys(v)` with the values: fields of an object, indexed elements of an array
      or characters of a string. */
  function Entries(v: Value): (es: seq<Field>)
    ensures v.Obj? ==> es == v.fields
  {
    match v
    case Obj(fs) => fs
    case Arr(items) => seq(|items|, i requires 0 <= i < |items| => Field(NatToString(i), items[i]))
    case Str(s) => seq(|s|, i requires 0 <= i < |s| => Field(NatToString(i), Str([s[i]])))
    case _ => []
  }

  function ObjectKeys(v: Value): seq<string> {
    Keys(Entries(v))
  }

  /** Every object inside `v` has unique keys. */
  predicate WellFormed(v: Value) {
    match v
    case Obj(fs) => UniqueKeys(fs) && forall i :: 0 <= i < |fs| ==> WellFormed(fs[i].val)
    case Arr(items) => forall i :: 0 <= i < |items| ==> WellFormed(items[i])
    case _ => true
  }

  /** Reading an entry's key gives the entry's value. */
  lemma GetEntry(v: Value, i: nat)
    requires WellFormed(v) && i < |Entries(v)|
    ensures Get(v, Entries(v)[i].key) == Entries(v)[i].val
  {
    match v
    case Obj(fs) =>
      LookupUnique(fs, i);
    case Arr(items) =>
      IndexKeyOf(i);
    case Str(s) =>
      IndexKeyOf(i);
  }

  /** The keys of an array or string entry list are distinct. */
  lemma EntriesUnique(v: Value)
    requires WellFormed(v)
    ensures UniqueKeys(Entries(v))
  {
    if v.Arr? || v.Str? {
      forall i, j | 0 <= i < j < |Entries(v)| ensures Entries(v)[i].key != Entries(v)[j].key {
        NatToStringInjective(i, j);
      }
    }
  }
}

=== FILE: merge.dfy ===
/** mergeDeep: copies the properties of a source into a target, descending into every
    property of the source that holds an object or an array. The target is updated in
    place in the source; here the updated target is returned, or the TypeError a write
    into a primitive raises in strict mode. */
module ObjectMerge {
  import opened Results
  import opened Arrays
  import opened JsValues

  /** `source[key] && typeof source[key] === 'object'`: a truthy object or array. */
  predicate Mergeable(v: Value)
    ensures Mergeable(v) <==> v.Obj? || v.Arr?
  {
    Truthy(v) && IsObjectType(v)
  }

  /** What the walk descends into: `target[key] || {}` as written, and in the corrected
      version the current value only when it is an object. */
  function Next(fixed: bool, cur: Value): Value {
    if fixed then (if cur.Obj? then cur else Obj([]))
    else if Truthy(cur) then cur
    else Obj([])
  }

  /** `mergeDeep(target, source)` as written. */
  function MergeDeep(t: Value, s: Value): Result<Value, Failure> {
    MergeWith(false, t, s)
  }

  /** mergeDeep descending into a fresh object wherever the target holds a non-object. */
  function MergeDeepFixed(t: Value, s: Value): Result<Value, Failure> {
    MergeWith(true, t, s)
  }

  /** The loop `for (const key in source)` over all the keys of the source. */
  function MergeWith(fixed: bool, t: Value, s: Value): Result<Value, Failure>
    decreases s, 1, 0
  {
    MergeFrom(fixed, t, s, |Entries(s)|)
  }

  /** The target after the first `n` keys of the source. */
  function MergeFrom(fixed: bool, t: Value, s: Value, n: nat): Result<Value, Failure>
    requires n <= |Entries(s)|
    decreases s, 0, n
  {
    if n == 0 then Ok(t)
    else
      match MergeFrom(fixed, t, s, n - 1)
      case Err(e) => Err(e)
      case Ok(acc) =>
        match s
        case Obj(fs) => MergeProperty(fixed, acc, fs[n - 1].key, fs[n - 1].val)
        case Arr(items) => MergeProperty(fixed, acc, Entries(s)[n - 1].key, items[n - 1])
        // A character of a string is never an object: it is copied.
        case Str(_) => SetKey(acc, Entries(s)[n - 1].key, Entries(s)[n - 1].val)
        case _ => Ok(acc)
  }

  /** The body of the loop for one key `k` whose source value is `sv`. */
  function MergeProperty(fixed: bool, acc: Value, k: string, sv: Value): Result<Value, Failure>
    decreases sv, 2, 0
  {
    if Mergeable(sv) then
      var next := Next(fixed, Get(acc, k));
      if !acc.Obj? then SetKey(acc, k, next)
      else
        match MergeWith(fixed, next, sv)
        case Ok(m) => SetKey(acc, k, m)
        case Err(e) => Err(e)
    else SetKey(acc, k, sv)
  }

  // ---------------------------------------------------------------- meaning

  /** The value key `k` ends with, once the keys in `done` have been merged. */
  predicate ValueRule(fixed: bool, t: Value, s: Value, done: seq<string>, r: Value, k: string) {
    if k !in done then Get(r, k) == Get(t, k)
    else if Mergeable(Get(s, k)) then MergeWith(fixed, Next(fixed, Get(t, k)), Get(s, k)) == Ok(Get(r, k))
    else Get(r, k) == Get(s, k)
  }

  /** The invariant of the loop after `n` keys. */
  ghost predicate MergedUpTo(fixed: bool, t: Value, s: Value, n: nat)
    requires t.Obj? && n <= |Entries(s)|
  {
    var r := MergeFrom(fixed, t, s, n);
    var done := Keys(Entries(s)[..n]);
    r.Ok? ==>
      r.value.Obj? &&
      Keys(r.value.fields) == AddAll(Keys(t.fields), done) &&
      forall k :: ValueRule(fixed, t, s, done, r.value, k)
  }

  /** Merging into an object: the keys of the source are added after those of the target,
      in source order; keys the source lacks keep their value; a source value that is not an
      object or array is copied; one that is, is merged into `target[key] || {}`. */
  lemma MergeMeaning(fixed: bool, t: Value, s: Value, k: string)
    requires t.Obj? && WellFormed(s)
    ensures var r := MergeWith(fixed, t, s);
      r.Ok? ==>
        r.value.Obj? &&
        Keys(r.value.fields) == AddAll(Keys(t.fields), ObjectKeys(s)) &&
        (k !in ObjectKeys(s) ==> Get(r.value, k) == Get(t, k)) &&
        (k in ObjectKeys(s) && !Mergeable(Get(s, k)) ==> Get(r.value, k) == Get(s, k)) &&
        (k in ObjectKeys(s) && Mergeable(Get(s, k)) ==>
          MergeWith(fixed, Next(fixed, Get(t, k)), Get(s, k)) == Ok(Get(r.value, k)))
  {
    assert Entries(s)[..0] == [];
    assert MergedUpTo(fixed, t, s, 0);
    MergeFromMeaning(fixed, t, s, 0);
    assert Entries(s)[..|Entries(s)|] == Entries(s);
    var r := MergeWith(fixed, t, s);
    if r.Ok? {
      assert ValueRule(fixed, t, s, ObjectKeys(s), r.value, k);
    }
  }

  lemma {:induction false} MergeFromMeaning(fixed: bool, t: Value, s: Value, n: nat)
    requires t.Obj? && WellFormed(s) && n <= |Entries(s)|
    requires MergedUpTo(fixed, t, s, n)
    ensures MergedUpTo(fixed, t, s, |Entries(s)|)
    decreases |Entries(s)| - n
  {
    if n < |Entries(s)| {
      MergeStep(fixed, t, s, n);
      MergeFromMeaning(fixed, t, s, n + 1);
    }
  }

  /** The step for key `n` of the source: that key is written, no other. */
  lemma MergeStep(fixed: bool, t: Value, s: Value, n: nat)
    requires t.Obj? && WellFormed(s) && n < |Entries(s)|
    requires MergedUpTo(fixed, t, s, n)
    ensures MergedUpTo(fixed, t, s, n + 1)
  {
    var es := Entries(s);
    var e := es[n];
    var prev := MergeFrom(fixed, t, s, n);
    var done := Keys(es[..n]);
    assert es[..n + 1] == es[..n] + [e];
    assert Keys(es[..n + 1]) == done + [e.key];
    EntryStep(fixed, t, s, n);
    if prev.Ok? && MergeProperty(fixed, prev.value, e.key, e.val).Ok? {
      var acc := prev.value;
      GetEntry(s, n);
      EntriesUnique(s);
      assert e.key !in done by {
        forall j | 0 <= j < |done| ensures done[j] != e.key {
          assert done[j] == es[j].key;
        }
      }
      assert ValueRule(fixed, t, s, done, acc, e.key);
      var x := if Mergeable(e.val) then MergeWith(fixed, Next(fixed, Get(acc, e.key)), e.val).value else e.val;
      assert MergeProperty(fixed, acc, e.key, e.val) == Ok(Obj(Put(acc.fields, e.key, x)));
      RuleAfterPut(fixed, t, s, done, acc, e.key, x);
    }
  }

  /** Writing the merged value of a key not yet merged keeps the rule for every key. */
  lemma RuleAfterPut(fixed: bool, t: Value, s: Value, done: seq<string>, acc: Value, key: string, x: Value)
    requires acc.Obj? && key !in done
    requires forall k :: ValueRule(fixed, t, s, done, acc, k)
    requires if Mergeable(Get(s, key)) then MergeWith(fixed, Next(fixed, Get(t, key)), Get(s, key)) == Ok(x)
             else x == Get(s, key)
    ensures forall k :: ValueRule(fixed, t, s, done + [key], Obj(Put(acc.fields, key, x)), k)
  {
    forall k ensures ValueRule(fixed, t, s, done + [key], Obj(Put(acc.fields, key, x)), k) {
      if k == key {
        RuleAtKey(fixed, t, s, done, acc, key, x);
      } else {
        RuleOtherKey(fixed, t, s, done, acc, key, x, k);
      }
    }
  }

  lemma RuleAtKey(fixed: bool, t: Value, s: Value, done: seq<string>, acc: Value, key: string, x: Value)
    requires acc.Obj?
    requires if Mergeable(Get(s, key)) then MergeWith(fixed, Next(fixed, Get(t, key)), Get(s, key)) == Ok(x)
             else x == Get(s, key)
    ensures ValueRule(fixed, t, s, done + [key], Obj(Put(acc.fields, key, x)), key)
  {
    PutLookup(acc.fields, key, x, key);
    assert key in done + [key];
  }

  lemma RuleOtherKey(fixed: bool, t: Value, s: Value, done: seq<string>, acc: Value, key: string, x: Value, k: string)
    requires acc.Obj? && k != key
    requires ValueRule(fixed, t, s, done, acc, k)
    ensures ValueRule(fixed, t, s, done + [key], Obj(Put(acc.fields, key, x)), k)
  {
    PutLookup(acc.fields, key, x, k);
    assert k in done + [key] <==> k in done;
  }

  /** Key `n` of the source is merged by MergeProperty, whatever kind of value the source
      is: a character of a string is not mergeable, so it is copied. */
  lemma EntryStep(fixed: bool, t: Value, s: Value, n: nat)
    requires n < |Entries(s)|
    ensures MergeFrom(fixed, t, s, n + 1) ==
      match MergeFrom(fixed, t, s, n)
      case Err(e) => Err(e)
      case Ok(acc) => MergeProperty(fixed, acc, Entries(s)[n].key, Entries(s)[n].val)
  {
  }

  // ---------------------------------------------------------------- failures

  lemma {:induction false} MergeFromErr(fixed: bool, t: Value, s: Value, n: nat, m: nat)
    requires n <= m <= |Entries(s)| && MergeFrom(fixed, t, s, n).Err?
    ensures MergeFrom(fixed, t, s, m) == MergeFrom(fixed, t, s, n)
    decreases m - n
  {
    if n < m {
      MergeFromErr(fixed, t, s, n, m - 1);
      EntryStep(fixed, t, s, m - 1);
    }
  }

  /** Merging into anything but an object fails as soon as the source has a key: the write
      `target[key] = …` throws. */
  lemma MergeIntoNonObject(fixed: bool, t: Value, s: Value)
    requires !t.Obj?
    ensures MergeWith(fixed, t, s).Ok? <==> |Entries(s)| == 0
  {
    if |Entries(s)| > 0 {
      EntryStep(fixed, t, s, 0);
      assert MergeFrom(fixed, t, s, 1).Err?;
      MergeFromErr(fixed, t, s, 1, |Entries(s)|);
    }
  }

  /** The corrected merge into an object never fails, and gives an object. */
  lemma {:induction false} MergeDeepFixedTotal(t: Value, s: Value)
    requires t.Obj?
    ensures MergeDeepFixed(t, s).Ok? && MergeDeepFixed(t, s).value.Obj?
    decreases s, 1, 0
  {
    MergeFromFixedTotal(t, s, |Entries(s)|);
  }

  lemma {:induction false} MergeFromFixedTotal(t: Value, s: Value, n: nat)
    requires t.Obj? && n <= |Entries(s)|
    ensures MergeFrom(true, t, s, n).Ok? && MergeFrom(true, t, s, n).value.Obj?
    decreases s, 0, n
  {
    if n > 0 {
      MergeFromFixedTotal(t, s, n - 1);
      MergeFixedStep(t, s, n - 1);
    }
  }

  /** One more property merged by the corrected merge keeps an object. */
  lemma {:induction false} MergeFixedStep(t: Value, s: Value, n: nat)
    requires t.Obj? && n < |Entries(s)|
    requires MergeFrom(true, t, s, n).Ok? && MergeFrom(true, t, s, n).value.Obj?
    ensures MergeFrom(true, t, s, n + 1).Ok? && MergeFrom(true, t, s, n + 1).value.Obj?
    decreases s, 0, n
  {
    var acc := MergeFrom(true, t, s, n).value;
    EntryStep(true, t, s, n);
    match s
    case Obj(fs) =>
      if Mergeable(fs[n].val) {
        MergeDeepFixedTotal(Next(true, Get(acc, fs[n].key)), fs[n].val);
      }
    case Arr(items) =>
      if Mergeable(items[n]) {
        MergeDeepFixedTotal(Next(true, Get(acc, Entries(s)[n].key)), items[n]);
      }
    case _ =>
  }

  /** `mergeDeep({a: 1}, {a: {b: 2}})` throws: it descends into `1 || {}`, the number 1,
      and writes `b` into it. The corrected merge gives `{a: {b: 2}}`. */
  lemma MergeDeepPrimitiveCollision()
    ensures MergeDeep(Obj([Field("a", Num(1))]), Obj([Field("a", Obj([Field("b", Num(2))]))])) == Err(TypeError)
    ensures MergeDeepFixed(Obj([Field("a", Num(1))]), Obj([Field("a", Obj([Field("b", Num(2))]))])) ==
      Ok(Obj([Field("a", Obj([Field("b", Num(2))]))]))
  {
    CollisionAsWritten();
    CollisionFixed();
  }

  lemma CollisionAsWritten()
    ensures MergeWith(false, Obj([Field("a", Num(1))]), Obj([Field("a", Obj([Field("b", Num(2))]))])) == Err(TypeError)
  {
    var inner := Obj([Field("b", Num(2))]);
    var t := Obj([Field("a", Num(1))]);
    assert MergeWith(false, Num(1), inner) == Err(TypeError) by {
      EntryStep(false, Num(1), inner, 0);
    }
    EntryStep(false, t, Obj([Field("a", inner)]), 0);
    assert KeyIndex(t.fields, "a") == 0;
  }

  lemma CollisionFixed()
    ensures MergeWith(true, Obj([Field("a", Num(1))]), Obj([Field("a", Obj([Field("b", Num(2))]))])) ==
      Ok(Obj([Field("a", Obj([Field("b", Num(2))]))]))
  {
    var inner := Obj([Field("b", Num(2))]);
    var t := Obj([Field("a", Num(1))]);
    assert MergeWith(true, Obj([]), inner) == Ok(inner) by {
      EntryStep(true, Obj([]), inner, 0);
      assert KeyIndex([], "b") == 0;
      assert Put([], "b", Num(2)) == [Field("b", Num(2))];
    }
    EntryStep(true, t, Obj([Field("a", inner)]), 0);
    assert KeyIndex(t.fields, "a") == 0;
    assert Next(true, Get(t, "a")) == Obj([]);
    assert Put(t.fields, "a", inner) == [Field("a", inner)];
  }
}

=== FILE: nested.dfy ===
/** The dot-path utilities: getNestedValue, setNestedValue, flattenObject and
    unflattenObject. A path is a list of property names; flattening writes each leaf under
    the names of its path joined with ".", and unflattening splits them again. */
module NestedObjects {
  import opened Results
  import opened JsText
  import opened JsValues

  // ---------------------------------------------------------------- getNestedValue

  /** One step of the walk: `acc && acc[key] !== undefined ? acc[key] : undefined`. */
  function Step(acc: Value, key: string): Value {
    if Truthy(acc) && Get(acc, key) != Undefined then Get(acc, key) else Undefined
  }

  /** `getNestedValue(obj, path)`. */
  function GetNestedValue(v: Value, path: seq<string>): Value
    decreases |path|
  {
    if |path| == 0 then v else GetNestedValue(Step(v, path[0]), path[1..])
  }

  /** Walking a path in two parts is walking the first part, then the second from there. */
  lemma {:induction false} GetNestedValueAppend(v: Value, p: seq<string>, q: seq<string>)
    ensures GetNestedValue(v, p + q) == GetNestedValue(GetNestedValue(v, p), q)
    decreases |p|
  {
    if |p| == 0 {
      assert p + q == q;
    } else {
      assert (p + q)[0] == p[0];
      assert (p + q)[1..] == p[1..] + q;
      GetNestedValueAppend(Step(v, p[0]), p[1..], q);
    }
  }

  lemma {:induction false} GetNestedValueOfUndefined(q: seq<string>)
    ensures GetNestedValue(Undefined, q) == Undefined
    decreases |q|
  {
    if |q| > 0 {
      GetNestedValueOfUndefined(q[1..]);
    }
  }

  /** Once an intermediate lacks the next key, the result is undefined. */
  lemma GetNestedValueMissing(v: Value, path: seq<string>, i: nat)
    requires i < |path|
    requires Get(GetNestedValue(v, path[..i]), path[i]) == Undefined
    ensures GetNestedValue(v, path) == Undefined
  {
    assert path == path[..i] + ([path[i]] + path[i + 1..]);
    GetNestedValueAppend(v, path[..i], [path[i]] + path[i + 1..]);
    GetNestedValueOfUndefined(path[i + 1..]);
  }

  // ---------------------------------------------------------------- setNestedValue

  /** The intermediate `acc[key] || {}` the walk continues into. */
  function Descend(acc: Value, key: string): Value {
    var cur := Get(acc, key);
    if Truthy(cur) then cur else Obj([])
  }

  /** `setNestedValue(obj, path, value)`: the updated object. Each intermediate is first
      stored back into its parent, so a failed write anywhere fails the whole call; the
      partly updated object the source leaves behind is not modelled. */
  function SetNestedValue(v: Value, path: seq<string>, x: Value): (r: Result<Value, Failure>)
    ensures |path| > 0 && r.Ok? ==> r.value.Obj?
    decreases |path|
  {
    if |path| == 0 then Ok(v)
    else if |path| == 1 then SetKey(v, path[0], x)
    else if !v.Obj? then SetKey(v, path[0], Descend(v, path[0]))
    else
      match SetNestedValue(Descend(v, path[0]), path[1..], x)
      case Ok(child) => SetKey(v, path[0], child)
      case Err(e) => Err(e)
  }

  /** Every intermediate the walk meets is an object or absent (falsy). */
  predicate PathClear(v: Value, path: seq<string>)
    decreases |path|
  {
    |path| == 0 || (v.Obj? && (|path| == 1 || PathClear(Descend(v, path[0]), path[1..])))
  }

  /** The write succeeds exactly when the path is clear; then reading the path back gives
      the stored value, and the keys beside the path keep their values. */
  lemma SetNestedValueMeaning(v: Value, path: seq<string>, x: Value, k: string)
    ensures SetNestedValue(v, path, x).Ok? <==> PathClear(v, path)
    ensures |path| > 0 && SetNestedValue(v, path, x).Ok? ==>
      GetNestedValue(SetNestedValue(v, path, x).value, path) == x
    ensures |path| > 0 && SetNestedValue(v, path, x).Ok? && k != path[0] ==>
      Get(SetNestedValue(v, path, x).value, k) == Get(v, k)
  {
    SetNestedValueOk(v, path, x);
    if |path| > 0 && SetNestedValue(v, path, x).Ok? {
      SetThenGet(v, path, x);
      if k != path[0] {
        SetBesidePath(v, path, x, k);
      }
    }
  }

  lemma {:induction false} SetNestedValueOk(v: Value, path: seq<string>, x: Value)
    ensures SetNestedValue(v, path, x).Ok? <==> PathClear(v, path)
    decreases |path|
  {
    if |path| > 1 && v.Obj? {
      SetNestedValueOk(Descend(v, path[0]), path[1..], x);
    }
  }

  lemma {:induction false} SetThenGet(v: Value, path: seq<string>, x: Value)
    requires |path| > 0 && SetNestedValue(v, path, x).Ok?
    ensures GetNestedValue(SetNestedValue(v, path, x).value, path) == x
    decreases |path|
  {
    if |path| == 1 {
      SetThenGetLast(v, path, x);
    } else {
      SetThenGetStep(v, path, x);
      SetThenGet(Descend(v, path[0]), path[1..], x);
    }
  }

  /** A one-key path reads back the stored value. */
  lemma SetThenGetLast(v: Value, path: seq<string>, x: Value)
    requires |path| == 1 && SetNestedValue(v, path, x).Ok?
    ensures GetNestedValue(SetNestedValue(v, path, x).value, path) == x
  {
    var r := SetNestedValue(v, path, x).value;
    assert r == Obj(Put(v.fields, path[0], x));
    PutLookup(v.fields, path[0], x, path[0]);
    GetNestedUnfold(r, path);
    assert path[1..] == [];
  }

  /** A longer path reads, under its first key, what the write into the child stored. */
  lemma SetThenGetStep(v: Value, path: seq<string>, x: Value)
    requires |path| > 1 && SetNestedValue(v, path, x).Ok?
    ensures SetNestedValue(Descend(v, path[0]), path[1..], x).Ok?
    ensures GetNestedValue(SetNestedValue(v, path, x).value, path) ==
            GetNestedValue(SetNestedValue(Descend(v, path[0]), path[1..], x).value, path[1..])
  {
    SetNestedUnfold(v, path, x);
    var r := SetNestedValue(v, path, x).value;
    var child := SetNestedValue(Descend(v, path[0]), path[1..], x).value;
    PutLookup(v.fields, path[0], child, path[0]);
    assert Step(r, path[0]) == child;
    GetNestedUnfold(r, path);
  }

  /** A write along a longer path succeeds only into an object, by storing the child's
      update under the first key. */
  lemma SetNestedUnfold(v: Value, path: seq<string>, x: Value)
    requires |path| > 1 && SetNestedValue(v, path, x).Ok?
    ensures v.Obj? && SetNestedValue(Descend(v, path[0]), path[1..], x).Ok?
    ensures SetNestedValue(Descend(v, path[0]), path[1..], x).value.Obj?
    ensures SetNestedValue(v, path, x).value
         == Obj(Put(v.fields, path[0], SetNestedValue(Descend(v, path[0]), path[1..], x).value))
  {
  }

  lemma GetNestedUnfold(v: Value, path: seq<string>)
    requires |path| > 0
    ensures GetNestedValue(v, path) == GetNestedValue(Step(v, path[0]), path[1..])
  {
  }

  lemma SetBesidePath(v: Value, path: seq<string>, x: Value, k: string)
    requires |path| > 0 && SetNestedValue(v, path, x).Ok? && k != path[0]
    ensures Get(SetNestedValue(v, path, x).value, k) == Get(v, k)
  {
    if |path| == 1 {
      PutLookup(v.fields, path[0], x, k);
    } else {
      var child := SetNestedValue(Descend(v, path[0]), path[1..], x).value;
      PutLookup(v.fields, path[0], child, k);
    }
  }

  // ---------------------------------------------------------------- flattenObject

  /** `prefix ? `${prefix}.${key}` : key`. */
  function PrefixedKey(prefix: string, key: string): string {
    if prefix == "" then key else prefix + "." + key
  }

  /** The test that sends a value into recursion: truthy, an object, not an array. Only
      objects pass it. */
  predicate IsNested(v: Value)
    ensures IsNested(v) <==> v.Obj?
  {
    Truthy(v) && IsObjectType(v) && !v.Arr?
  }

  /** `flattenObject(obj, prefix)`. */
  function Flatten(o: Value, prefix: string): seq<Field>
    requires o.Obj?
    decreases o, 1, 0
  {
    FlattenFirst(o, prefix, |o.fields|)
  }

  /** The accumulator after the first `n` keys of `obj`. */
  function FlattenFirst(o: Value, prefix: string, n: nat): seq<Field>
    requires o.Obj? && n <= |o.fields|
    decreases o, 0, n
  {
    if n == 0 then []
    else
      var acc := FlattenFirst(o, prefix, n - 1);
      var f := o.fields[n - 1];
      var pk := PrefixedKey(prefix, f.key);
      if IsNested(f.val) then AssignAll(acc, Flatten(f.val, pk)) else Put(acc, pk, f.val)
  }

  lemma FlattenFirstLast(o: Value, prefix: string, n: nat)
    requires o.Obj? && 0 < n <= |o.fields|
    ensures var f := o.fields[n - 1];
      var pk := PrefixedKey(prefix, f.key);
      FlattenFirst(o, prefix, n) ==
        if f.val.Obj? then AssignAll(FlattenFirst(o, prefix, n - 1), Flatten(f.val, pk))
        else Put(FlattenFirst(o, prefix, n - 1), pk, f.val)
  {
  }

  /** No property of the list holds a nested object. */
  predicate NoNested(fs: seq<Field>)
    decreases |fs|
  {
    |fs| == 0 || (!fs[|fs| - 1].val.Obj? && NoNested(fs[..|fs| - 1]))
  }

  /** `NoNested` property by property. */
  lemma {:induction false} NoNestedAt(fs: seq<Field>)
    ensures NoNested(fs) <==> forall i :: 0 <= i < |fs| ==> !fs[i].val.Obj?
    decreases |fs|
  {
    if |fs| > 0 {
      var pre := fs[..|fs| - 1];
      NoNestedAt(pre);
      assert forall i :: 0 <= i < |pre| ==> pre[i] == fs[i];
    }
  }

  lemma PutNoNested(fs: seq<Field>, k: string, v: Value)
    requires NoNested(fs) && !v.Obj?
    ensures NoNested(Put(fs, k, v))
  {
    NoNestedAt(fs);
    NoNestedAt(Put(fs, k, v));
  }

  lemma {:induction false} AssignAllNoNested(acc: seq<Field>, src: seq<Field>)
    requires NoNested(acc) && NoNested(src)
    ensures NoNested(AssignAll(acc, src))
  {
    if |src| > 0 {
      AssignAllNoNested(acc, src[..|src| - 1]);
      PutNoNested(AssignAll(acc, src[..|src| - 1]), src[|src| - 1].key, src[|src| - 1].val);
    }
  }

  /** The flattened object holds no nested object: every value is a primitive, null or an
      array. */
  lemma {:induction false} FlattenNoNested(o: Value, prefix: string)
    requires o.Obj?
    ensures NoNested(Flatten(o, prefix))
    ensures forall i :: 0 <= i < |Flatten(o, prefix)| ==> !Flatten(o, prefix)[i].val.Obj?
    decreases o, 1
  {
    FlattenFirstNoNested(o, prefix, |o.fields|);
    NoNestedAt(Flatten(o, prefix));
  }

  /** The nested object held by property `i`, if any, flattens to no nested object. */
  predicate ChildNoNested(o: Value, prefix: string, i: nat)
    requires o.Obj? && i < |o.fields|
  {
    o.fields[i].val.Obj? ==> NoNested(Flatten(o.fields[i].val, PrefixedKey(prefix, o.fields[i].key)))
  }

  lemma {:induction false} FlattenFirstNoNested(o: Value, prefix: string, n: nat)
    requires o.Obj? && n <= |o.fields|
    ensures NoNested(FlattenFirst(o, prefix, n))
    decreases o, 0, n
  {
    if n > 0 {
      var f := o.fields[n - 1];
      if f.val.Obj? {
        FlattenNoNested(f.val, PrefixedKey(prefix, f.key));
      }
      FlattenFirstNoNested(o, prefix, n - 1);
      NoNestedStep(o, prefix, n);
    }
  }

  /** Property `n - 1` adds no nested object once the object it holds, if any, is flat. */
  lemma NoNestedStep(o: Value, prefix: string, n: nat)
    requires o.Obj? && 0 < n <= |o.fields|
    requires NoNested(FlattenFirst(o, prefix, n - 1))
    requires ChildNoNested(o, prefix, n - 1)
    ensures NoNested(FlattenFirst(o, prefix, n))
  {
    var acc := FlattenFirst(o, prefix, n - 1);
    var f := o.fields[n - 1];
    FlattenFirstLast(o, prefix, n);
    if f.val.Obj? {
      AssignAllNoNested(acc, Flatten(f.val, PrefixedKey(prefix, f.key)));
    } else {
      PutNoNested(acc, PrefixedKey(prefix, f.key), f.val);
    }
  }

  // ---------------------------------------------------------------- leaves

  /** A leaf of a nested object: the path of keys leading to it and its value. */
  datatype Leaf = Leaf(path: seq<string>, val: Value)

  /** Reference definition: the leaves in key order, a nested object contributing its own
      leaves under its key. */
  function Leaves(o: Value): seq<Leaf>
    requires o.Obj?
    decreases o, 1, 0
  {
    LeavesFirst(o, |o.fields|)
  }

  function LeavesFirst(o: Value, n: nat): seq<Leaf>
    requires o.Obj? && n <= |o.fields|
    decreases o, 0, n
  {
    if n == 0 then []
    else
      LeavesFirst(o, n - 1) + Block(o.fields[n - 1])
  }

  /** The leaves one property contributes to its parent: those of the object it holds under
      its key, or the property itself. */
  function Block(f: Field): seq<Leaf>
    decreases f.val, 2
  {
    if f.val.Obj? then Under(f.key, Leaves(f.val)) else [Leaf([f.key], f.val)]
  }

  lemma LeavesFirstLast(o: Value, n: nat)
    requires o.Obj? && 0 < n <= |o.fields|
    ensures LeavesFirst(o, n) == LeavesFirst(o, n - 1) + Block(o.fields[n - 1])
    ensures o.fields[n - 1].val.Obj? ==>
      Block(o.fields[n - 1]) == Under(o.fields[n - 1].key, Leaves(o.fields[n - 1].val))
  {
  }

  /** The leaves of a child, seen from its parent. */
  function Under(k: string, ls: seq<Leaf>): (r: seq<Leaf>)
    ensures |r| == |ls|
    ensures forall i :: 0 <= i < |ls| ==> r[i] == Leaf([k] + ls[i].path, ls[i].val)
  {
    seq(|ls|, i requires 0 <= i < |ls| => Leaf([k] + ls[i].path, ls[i].val))
  }

  /** The flattened key of a leaf under `prefix`: the path joined with ".". */
  function FlatKey(prefix: string, path: seq<string>): string {
    PrefixedKey(prefix, Join(path, '.'))
  }

  function FlatFields(prefix: string, ls: seq<Leaf>): (r: seq<Field>)
    ensures |r| == |ls|
    ensures forall i :: 0 <= i < |ls| ==> r[i] == Field(FlatKey(prefix, ls[i].path), ls[i].val)
  {
    seq(|ls|, i requires 0 <= i < |ls| => Field(FlatKey(prefix, ls[i].path), ls[i].val))
  }

  /** The conditions under which unflattening undoes flattening, at every level: unique keys
      without ".", and no nested object without keys. */
  predicate Clean(o: Value)
    decreases o
  {
    o.Obj? && UniqueKeys(o.fields) &&
    forall i :: 0 <= i < |o.fields| ==>
      '.' !in o.fields[i].key &&
      (o.fields[i].val.Obj? ==> |o.fields[i].val.fields| > 0 && Clean(o.fields[i].val))
  }

  /** A nested object is never flattened under an empty prefix: at the top, the key ""
      does not hold an object. */
  predicate PrefixOk(o: Value, prefix: string)
    requires o.Obj?
  {
    prefix != "" || forall i :: 0 <= i < |o.fields| && o.fields[i].key == "" ==> !o.fields[i].val.Obj?
  }

  /** Paths are not empty, their keys have no ".", no two leaves share a path, and a clean
      object has at least one leaf per key. */
  predicate GoodPaths(ls: seq<Leaf>) {
    (forall i :: 0 <= i < |ls| ==> |ls[i].path| > 0) &&
    (forall i, j :: 0 <= i < |ls| && 0 <= j < |ls[i].path| ==> '.' !in ls[i].path[j]) &&
    (forall i, j :: 0 <= i < j < |ls| ==> ls[i].path != ls[j].path)
  }

  lemma {:induction false} LeavesGood(o: Value)
    requires Clean(o)
    ensures GoodPaths(Leaves(o)) && |Leaves(o)| >= |o.fields|
    decreases o, 1, 0
  {
    LeavesFirstGood(o, |o.fields|);
  }

  lemma {:induction false} LeavesFirstGood(o: Value, n: nat)
    requires Clean(o) && n <= |o.fields|
    ensures GoodPaths(LeavesFirst(o, n)) && |LeavesFirst(o, n)| >= n
    decreases o, 0, n
  {
    if n > 0 {
      var f := o.fields[n - 1];
      var pre := LeavesFirst(o, n - 1);
      LeavesFirstGood(o, n - 1);
      LeavesFirstKeys(o, n - 1);
      var block := Block(f);
      if f.val.Obj? {
        LeavesGood(f.val);
        UnderGood(f.key, Leaves(f.val));
      }
      assert forall i :: 0 <= i < |block| ==> block[i].path[0] == f.key;
      JoinGood(pre, block, o, n);
    }
  }

  /** Every leaf of the first `n` properties starts with one of their keys. */
  lemma {:induction false} LeavesFirstKeys(o: Value, n: nat)
    requires Clean(o) && n <= |o.fields|
    ensures forall i :: 0 <= i < |LeavesFirst(o, n)| ==>
      |LeavesFirst(o, n)[i].path| > 0 && LeavesFirst(o, n)[i].path[0] in Keys(o.fields[..n])
  {
    if n > 0 {
      var f := o.fields[n - 1];
      var pre := LeavesFirst(o, n - 1);
      LeavesFirstKeys(o, n - 1);
      var block := Block(f);
      var all: seq<Leaf> := pre + block;
      assert LeavesFirst(o, n) == all;
      assert Keys(o.fields[..n]) == Keys(o.fields[..n - 1]) + [f.key];
      forall i | 0 <= i < |all| ensures |all[i].path| > 0 && all[i].path[0] in Keys(o.fields[..n]) {
        if i < |pre| {
          assert all[i] == pre[i];
        } else {
          assert all[i] == block[i - |pre|];
        }
      }
    }
  }

  lemma UnderGood(k: string, ls: seq<Leaf>)
    requires GoodPaths(ls) && '.' !in k
    ensures GoodPaths(Under(k, ls))
  {
    var u := Under(k, ls);
    forall i, j | 0 <= i < |u| && 0 <= j < |u[i].path| ensures '.' !in u[i].path[j] {
      if j > 0 {
        assert u[i].path[j] == ls[i].path[j - 1];
      }
    }
    forall i, j | 0 <= i < j < |u| ensures u[i].path != u[j].path {
      assert u[i].path[1..] == ls[i].path && u[j].path[1..] == ls[j].path;
    }
  }

  lemma JoinGood(pre: seq<Leaf>, block: seq<Leaf>, o: Value, n: nat)
    requires Clean(o) && 0 < n <= |o.fields|
    requires GoodPaths(pre) && GoodPaths(block) && |block| >= 1
    requires forall i :: 0 <= i < |pre| ==> pre[i].path[0] in Keys(o.fields[..n - 1])
    requires forall i :: 0 <= i < |block| ==> block[i].path[0] == o.fields[n - 1].key
    ensures GoodPaths(pre + block)
    ensures forall i :: 0 <= i < |pre + block| ==> (pre + block)[i].path[0] in Keys(o.fields[..n])
  {
    var all := pre + block;
    var last := o.fields[n - 1].key;
    assert Keys(o.fields[..n]) == Keys(o.fields[..n - 1]) + [last];
    assert last !in Keys(o.fields[..n - 1]) by {
      var ks := Keys(o.fields[..n - 1]);
      forall m | 0 <= m < |ks| ensures ks[m] != last {
        assert ks[m] == o.fields[m].key;
      }
    }
    forall i, j | 0 <= i < j < |all| ensures all[i].path != all[j].path {
      if j >= |pre| && i < |pre| {
        assert all[i] == pre[i] && all[j] == block[j - |pre|];
      } else if i >= |pre| {
        assert all[i] == block[i - |pre|] && all[j] == block[j - |pre|];
      } else {
        assert all[i] == pre[i] && all[j] == pre[j];
      }
    }
    forall i | 0 <= i < |all| ensures all[i].path[0] in Keys(o.fields[..n]) {
      if i < |pre| {
        assert all[i] == pre[i];
      } else {
        assert all[i] == block[i - |pre|];
      }
    }
  }

  // ---------------------------------------------------------------- flattened keys

  /** Flattening under `prefix.k` is flattening under `prefix` with `k` in front. */
  lemma FlatKeyStep(prefix: string, k: string, path: seq<string>)
    requires |path| > 0 && PrefixedKey(prefix, k) != ""
    ensures FlatKey(PrefixedKey(prefix, k), path) == FlatKey(prefix, [k] + path)
  {
    var p := [k] + path;
    assert p[1..] == path;
    assert Join(p, '.') == k + "." + Join(path, '.');
  }

  lemma FlatFieldsUnder(prefix: string, k: string, ls: seq<Leaf>)
    requires GoodPaths(ls) && PrefixedKey(prefix, k) != ""
    ensures FlatFields(PrefixedKey(prefix, k), ls) == FlatFields(prefix, Under(k, ls))
  {
    forall i | 0 <= i < |ls|
      ensures FlatFields(PrefixedKey(prefix, k), ls)[i] == FlatFields(prefix, Under(k, ls))[i]
    {
      FlatKeyStep(prefix, k, ls[i].path);
    }
  }

  /** Distinct dot-free paths flatten to distinct keys. */
  lemma FlatKeyInjective(prefix: string, p: seq<string>, q: seq<string>)
    requires |p| > 0 && |q| > 0
    requires forall j :: 0 <= j < |p| ==> '.' !in p[j]
    requires forall j :: 0 <= j < |q| ==> '.' !in q[j]
    requires FlatKey(prefix, p) == FlatKey(prefix, q)
    ensures p == q
  {
    var a := Join(p, '.');
    var b := Join(q, '.');
    if prefix != "" {
      assert (prefix + "." + a)[|prefix| + 1..] == a;
      assert (prefix + "." + b)[|prefix| + 1..] == b;
    }
    assert a == b;
    SplitJoin(p, '.');
    SplitJoin(q, '.');
  }

  lemma FlatFieldsUnique(prefix: string, ls: seq<Leaf>)
    requires GoodPaths(ls)
    ensures UniqueKeys(FlatFields(prefix, ls))
  {
    var fs := FlatFields(prefix, ls);
    forall i, j | 0 <= i < j < |fs| ensures fs[i].key != fs[j].key {
      if fs[i].key == fs[j].key {
        FlatKeyInjective(prefix, ls[i].path, ls[j].path);
      }
    }
  }

  /** On a clean object the assignments never collide, so the flattened object lists one
      property per leaf, in leaf order, named by the leaf's joined path. */
  lemma {:induction false} FlattenIsFlat(o: Value, prefix: string)
    requires Clean(o) && PrefixOk(o, prefix)
    ensures Flatten(o, prefix) == FlatFields(prefix, Leaves(o))
    decreases o
  {
    forall i | 0 <= i < |o.fields| && o.fields[i].val.Obj?
      ensures ChildFlat(o, prefix, i)
    {
      FlattenIsFlat(o.fields[i].val, PrefixedKey(prefix, o.fields[i].key));
    }
    assert FlatUpTo(o, prefix, 0);
    FlattenFromIsFlat(o, prefix, 0);
  }

  /** The accumulator after the first `n` properties is the flattening of their leaves. */
  predicate FlatUpTo(o: Value, prefix: string, n: nat)
    requires o.Obj? && n <= |o.fields|
  {
    FlattenFirst(o, prefix, n) == FlatFields(prefix, LeavesFirst(o, n))
  }

  /** The nested object held by property `i`, if any, flattens to its leaves. */
  predicate ChildFlat(o: Value, prefix: string, i: nat)
    requires o.Obj? && i < |o.fields|
  {
    var f := o.fields[i];
    f.val.Obj? ==> Flatten(f.val, PrefixedKey(prefix, f.key)) == FlatFields(PrefixedKey(prefix, f.key), Leaves(f.val))
  }

  /** Once the first `n` properties are flat, so are all of them. */
  lemma {:induction false} FlattenFromIsFlat(o: Value, prefix: string, n: nat)
    requires Clean(o) && PrefixOk(o, prefix) && n <= |o.fields|
    requires forall i :: 0 <= i < |o.fields| ==> ChildFlat(o, prefix, i)
    requires FlatUpTo(o, prefix, n)
    ensures FlatUpTo(o, prefix, |o.fields|)
    decreases |o.fields| - n, 1
  {
    if n < |o.fields| {
      FlattenRestIsFlat(o, prefix, n);
    }
  }

  lemma {:induction false} FlattenRestIsFlat(o: Value, prefix: string, n: nat)
    requires Clean(o) && PrefixOk(o, prefix) && n < |o.fields|
    requires forall i :: 0 <= i < |o.fields| ==> ChildFlat(o, prefix, i)
    requires FlatUpTo(o, prefix, n)
    ensures FlatUpTo(o, prefix, |o.fields|)
    decreases |o.fields| - n, 0
  {
    FlattenFieldIsFlat(o, prefix, n);
    FlattenFromIsFlat(o, prefix, n + 1);
  }

  /** The step for property `n`, given the ones before it. */
  lemma FlattenFieldIsFlat(o: Value, prefix: string, n: nat)
    requires Clean(o) && PrefixOk(o, prefix) && n < |o.fields|
    requires ChildFlat(o, prefix, n)
    requires FlatUpTo(o, prefix, n)
    ensures FlatUpTo(o, prefix, n + 1)
  {
    if o.fields[n].val.Obj? {
      NestedStep(o, prefix, n + 1);
    } else {
      LeafStep(o, prefix, n + 1);
    }
  }

  lemma NestedStep(o: Value, prefix: string, n: nat)
    requires Clean(o) && PrefixOk(o, prefix) && 0 < n <= |o.fields|
    requires o.fields[n - 1].val.Obj?
    requires FlatUpTo(o, prefix, n - 1)
    requires Flatten(o.fields[n - 1].val, PrefixedKey(prefix, o.fields[n - 1].key)) ==
             FlatFields(PrefixedKey(prefix, o.fields[n - 1].key), Leaves(o.fields[n - 1].val))
    ensures FlatUpTo(o, prefix, n)
  {
    var f := o.fields[n - 1];
    var acc := FlattenFirst(o, prefix, n - 1);
    var ls := Leaves(f.val);
    var pre := LeavesFirst(o, n - 1);
    var all := LeavesFirst(o, n);
    LeavesFirstLast(o, n);
    LeavesFirstGood(o, n);
    LeavesGood(f.val);
    FlatFieldsUnder(prefix, f.key, ls);
    var tail := FlatFields(prefix, Under(f.key, ls));
    assert Flatten(f.val, PrefixedKey(prefix, f.key)) == tail;
    FlatFieldsAppend(prefix, pre, Under(f.key, ls));
    assert FlatFields(prefix, all) == acc + tail;
    FlatFieldsUnique(prefix, all);
    AssignAllFresh(acc, tail);
  }

  lemma FlatFieldsAppend(prefix: string, p: seq<Leaf>, q: seq<Leaf>)
    ensures FlatFields(prefix, p + q) == FlatFields(prefix, p) + FlatFields(prefix, q)
  {
    var l := FlatFields(prefix, p + q);
    var r := FlatFields(prefix, p) + FlatFields(prefix, q);
    forall i | 0 <= i < |l| ensures l[i] == r[i] {
      if i < |p| {
        assert (p + q)[i] == p[i];
      } else {
        assert (p + q)[i] == q[i - |p|];
      }
    }
  }

  lemma LeafStep(o: Value, prefix: string, n: nat)
    requires Clean(o) && 0 < n <= |o.fields|
    requires !o.fields[n - 1].val.Obj?
    requires FlatUpTo(o, prefix, n - 1)
    ensures FlatUpTo(o, prefix, n)
  {
    LeavesFirstGood(o, n);
    FlatFieldsUnique(prefix, LeavesFirst(o, n));
    var f := o.fields[n - 1];
    var pk := PrefixedKey(prefix, f.key);
    var acc := FlattenFirst(o, prefix, n - 1);
    var all := LeavesFirst(o, n);
    var pre := LeavesFirst(o, n - 1);
    assert all == pre + [Leaf([f.key], f.val)];
    assert FlatKey(prefix, [f.key]) == pk;
    assert FlatFields(prefix, all) == acc + [Field(pk, f.val)];
    assert pk !in Keys(acc) by {
      forall m | 0 <= m < |acc| ensures acc[m].key != pk {
        assert FlatFields(prefix, all)[m] == acc[m];
        assert FlatFields(prefix, all)[|acc|].key == pk;
      }
    }
  }

  /** Each leaf is what `getNestedValue` reads at its path. */
  lemma {:induction false} LeavesReachable(o: Value, i: nat)
    requires Clean(o) && i < |Leaves(o)|
    ensures GetNestedValue(o, Leaves(o)[i].path) == Leaves(o)[i].val
    decreases o, 1, 0
  {
    LeavesFirstReachable(o, |o.fields|, i);
  }

  lemma {:induction false} LeavesFirstReachable(o: Value, n: nat, i: nat)
    requires Clean(o) && n <= |o.fields| && i < |LeavesFirst(o, n)|
    ensures GetNestedValue(o, LeavesFirst(o, n)[i].path) == LeavesFirst(o, n)[i].val
    decreases o, 0, n
  {
    var pre := LeavesFirst(o, n - 1);
    if i < |pre| {
      LeavesFirstReachable(o, n - 1, i);
    } else {
      assert LeavesFirst(o, n)[i] == Block(o.fields[n - 1])[i - |pre|];
      BlockReachable(o, n - 1, i - |pre|);
    }
  }

  /** Each leaf a property contributes is reachable from the object holding it. */
  lemma {:induction false} BlockReachable(o: Value, j: nat, i: nat)
    requires Clean(o) && j < |o.fields| && i < |Block(o.fields[j])|
    ensures GetNestedValue(o, Block(o.fields[j])[i].path) == Block(o.fields[j])[i].val
    decreases o, 0, j
  {
    var f := o.fields[j];
    var l := Block(f)[i];
    LookupUnique(o.fields, j);
    assert Get(o, f.key) == f.val;
    if f.val.Obj? {
      var ls := Leaves(f.val);
      LeavesReachable(f.val, i);
      assert l.path[1..] == ls[i].path;
    } else {
      assert GetNestedValue(o, l.path) == GetNestedValue(Step(o, f.key), []);
    }
  }

  /** flattenObject on a clean object: one property per leaf, in key order, whose key is
      the leaf's path joined with "." and whose value is what getNestedValue reads there. */
  lemma FlattenMeaning(o: Value, i: nat)
    requires Clean(o) && PrefixOk(o, "") && i < |Flatten(o, "")|
    ensures |Flatten(o, "")| == |Leaves(o)|
    ensures Flatten(o, "")[i] ==
      Field(Join(Leaves(o)[i].path, '.'), GetNestedValue(o, Leaves(o)[i].path))
  {
    FlattenIsFlat(o, "");
    LeavesReachable(o, i);
  }

  // ---------------------------------------------------------------- unflattenObject

  /** `unflattenObject(obj)`, over the properties of `obj`: starting from `{}`, each key is
      split at "." and its value written along that path with setNestedValue's walk. The
      properties of a model object have distinct keys, so `obj[key]` is the field's own
      value. */
  function Unflatten(fs: seq<Field>): (r: Result<Value, Failure>)
    ensures r.Ok? ==> r.value.Obj?
    decreases |fs|
  {
    if |fs| == 0 then Ok(Obj([]))
    else
      match Unflatten(fs[..|fs| - 1])
      case Ok(acc) => SetNestedValue(acc, SplitOn(fs[|fs| - 1].key, '.'), fs[|fs| - 1].val)
      case Err(e) => Err(e)
  }

  /** Writing the leaves one after another, starting from `start`. */
  function WriteLeaves(start: Result<Value, Failure>, ls: seq<Leaf>): Result<Value, Failure>
    decreases |ls|
  {
    if |ls| == 0 then start
    else WriteLeaf(WriteLeaves(start, ls[..|ls| - 1]), ls[|ls| - 1])
  }

  lemma WriteLeavesLast(start: Result<Value, Failure>, ls: seq<Leaf>)
    requires |ls| > 0
    ensures WriteLeaves(start, ls) == WriteLeaf(WriteLeaves(start, ls[..|ls| - 1]), ls[|ls| - 1])
  {
  }

  /** Writing one leaf into the object built so far; a failure stays a failure. */
  function WriteLeaf(r: Result<Value, Failure>, l: Leaf): Result<Value, Failure> {
    match r
    case Ok(acc) => SetNestedValue(acc, l.path, l.val)
    case Err(e) => Err(e)
  }

  lemma {:induction false} WriteLeavesAppend(start: Result<Value, Failure>, p: seq<Leaf>, q: seq<Leaf>)
    ensures WriteLeaves(start, p + q) == WriteLeaves(WriteLeaves(start, p), q)
    decreases |q|
  {
    if |q| == 0 {
      assert p + q == p;
    } else {
      var pq := p + q;
      assert pq[..|pq| - 1] == p + q[..|q| - 1];
      assert pq[|pq| - 1] == q[|q| - 1];
      WriteLeavesAppend(start, p, q[..|q| - 1]);
      WriteLeavesLast(start, pq);
      WriteLeavesLast(WriteLeaves(start, p), q);
    }
  }

  /** Writing leaves into `{}` builds an object, when it succeeds. */
  lemma {:induction false} WriteLeavesObj(ls: seq<Leaf>)
    requires forall i :: 0 <= i < |ls| ==> |ls[i].path| > 0
    ensures WriteLeaves(Ok(Obj([])), ls).Ok? ==> WriteLeaves(Ok(Obj([])), ls).value.Obj?
    decreases |ls|
  {
    if |ls| > 0 {
      WriteLeavesObj(ls[..|ls| - 1]);
    }
  }

  lemma {:induction false} WriteLeavesOfErr(e: Failure, ls: seq<Leaf>)
    ensures WriteLeaves(Err(e), ls) == Err(e)
    decreases |ls|
  {
    if |ls| > 0 {
      WriteLeavesOfErr(e, ls[..|ls| - 1]);
    }
  }

  /** Unflattening the flattened leaves splits every key back into its path. */
  lemma {:induction false} UnflattenFlat(ls: seq<Leaf>)
    requires GoodPaths(ls)
    ensures Unflatten(FlatFields("", ls)) == WriteLeaves(Ok(Obj([])), ls)
    decreases |ls|
  {
    if |ls| > 0 {
      var fs := FlatFields("", ls);
      var pre := ls[..|ls| - 1];
      assert fs[..|fs| - 1] == FlatFields("", pre);
      UnflattenFlat(pre);
      SplitJoin(ls[|ls| - 1].path, '.');
    }
  }

  /** `B` with the object built from `r` stored under the fresh key `k`. */
  function StoreUnder(b: seq<Field>, k: string, r: Result<Value, Failure>): Result<Value, Failure> {
    match r
    case Ok(c) => Ok(Obj(b + [Field(k, c)]))
    case Err(e) => Err(e)
  }

  /** Leaves written into a fresh key `k` of an object build, under `k`, what they build
      from `{}`. */
  lemma {:induction false} WriteUnder(b: seq<Field>, k: string, ls: seq<Leaf>)
    requires k !in Keys(b) && |ls| > 0
    requires forall i :: 0 <= i < |ls| ==> |ls[i].path| > 0
    ensures WriteLeaves(Ok(Obj(b)), Under(k, ls)) == StoreUnder(b, k, WriteLeaves(Ok(Obj([])), ls))
    decreases |ls|
  {
    var u := Under(k, ls);
    var l := ls[|ls| - 1];
    assert u[..|u| - 1] == Under(k, ls[..|ls| - 1]);
    assert u[|u| - 1] == Leaf([k] + l.path, l.val);
    if |ls| == 1 {
      WriteFirstUnder(b, k, l);
    } else {
      var r := WriteLeaves(Ok(Obj([])), ls[..|ls| - 1]);
      WriteUnder(b, k, ls[..|ls| - 1]);
      if r.Ok? {
        WriteLeavesObj(ls[..|ls| - 1]);
        WriteNextUnder(b, k, r.value, l);
      }
    }
  }

  lemma WriteFirstUnder(b: seq<Field>, k: string, l: Leaf)
    requires k !in Keys(b) && |l.path| > 0
    ensures SetNestedValue(Obj(b), [k] + l.path, l.val) ==
            StoreUnder(b, k, SetNestedValue(Obj([]), l.path, l.val))
  {
    var path := [k] + l.path;
    assert path[0] == k && path[1..] == l.path;
    assert Get(Obj(b), k) == Undefined;
    assert Descend(Obj(b), k) == Obj([]);
  }

  lemma WriteNextUnder(b: seq<Field>, k: string, c: Value, l: Leaf)
    requires k !in Keys(b) && |l.path| > 0 && c.Obj?
    ensures SetNestedValue(Obj(b + [Field(k, c)]), [k] + l.path, l.val) ==
            StoreUnder(b, k, SetNestedValue(c, l.path, l.val))
  {
    var path := [k] + l.path;
    assert path[0] == k && path[1..] == l.path;
    LookupAt(b, k, c);
    assert Descend(Obj(b + [Field(k, c)]), k) == c;
  }

  /** The key appended last to a list without it reads its value, and storing it again
      replaces it in place. */
  lemma LookupAt(b: seq<Field>, k: string, c: Value)
    requires k !in Keys(b)
    ensures Lookup(b + [Field(k, c)], k) == Some(c)
    ensures forall x :: Put(b + [Field(k, c)], k, x) == b + [Field(k, x)]
  {
    var fs := b + [Field(k, c)];
    assert fs[|b|].key == k;
    assert KeyIndex(fs, k) == |b| by {
      forall j | 0 <= j < |b| ensures fs[j].key != k {
        assert Keys(b)[j] == b[j].key;
      }
    }
  }

  /** Writing the leaves of a clean object into `{}` rebuilds it, property by property. */
  lemma {:induction false} Rebuild(o: Value)
    requires Clean(o)
    ensures WriteLeaves(Ok(Obj([])), Leaves(o)) == Ok(o)
    decreases o
  {
    forall i | 0 <= i < |o.fields| && o.fields[i].val.Obj?
      ensures ChildRebuilt(o, i)
    {
      Rebuild(o.fields[i].val);
    }
    assert RebuiltUpTo(o, 0);
    RebuildFrom(o, 0);
    assert o.fields[..|o.fields|] == o.fields;
  }

  /** The nested object held by property `i`, if any, is rebuilt from its leaves. */
  predicate ChildRebuilt(o: Value, i: nat)
    requires o.Obj? && i < |o.fields|
  {
    o.fields[i].val.Obj? ==> WriteLeaves(Ok(Obj([])), Leaves(o.fields[i].val)) == Ok(o.fields[i].val)
  }

  /** The leaves of the first `n` properties rebuild those properties. */
  predicate RebuiltUpTo(o: Value, n: nat)
    requires o.Obj? && n <= |o.fields|
  {
    WriteLeaves(Ok(Obj([])), LeavesFirst(o, n)) == Ok(Obj(o.fields[..n]))
  }

  /** Once the first `n` properties are rebuilt, so are all of them. */
  lemma {:induction false} RebuildFrom(o: Value, n: nat)
    requires Clean(o) && n <= |o.fields|
    requires forall i :: 0 <= i < |o.fields| ==> ChildRebuilt(o, i)
    requires RebuiltUpTo(o, n)
    ensures RebuiltUpTo(o, |o.fields|)
    decreases |o.fields| - n, 1
  {
    if n < |o.fields| {
      RebuildRest(o, n);
    }
  }

  lemma {:induction false} RebuildRest(o: Value, n: nat)
    requires Clean(o) && n < |o.fields|
    requires forall i :: 0 <= i < |o.fields| ==> ChildRebuilt(o, i)
    requires RebuiltUpTo(o, n)
    ensures RebuiltUpTo(o, |o.fields|)
    decreases |o.fields| - n, 0
  {
    RebuildField(o, n);
    RebuildFrom(o, n + 1);
  }

  /** Property `n` is rebuilt by its own leaves, written after those before it. */
  lemma RebuildField(o: Value, n: nat)
    requires Clean(o) && n < |o.fields|
    requires ChildRebuilt(o, n)
    requires RebuiltUpTo(o, n)
    ensures RebuiltUpTo(o, n + 1)
  {
    var f := o.fields[n];
    assert LeavesFirst(o, n + 1) == LeavesFirst(o, n) + Block(f);
    TakeOneMore(o.fields, n);
    FreshKeyAt(o, n);
    AppendBlock(o.fields[..n], LeavesFirst(o, n), f);
  }

  lemma TakeOneMore<T>(s: seq<T>, n: nat)
    requires n < |s|
    ensures s[..n + 1] == s[..n] + [s[n]]
  {
  }

  /** A key of a clean object does not occur before its own position, and the object it
      holds, if any, is clean and not empty. */
  lemma FreshKeyAt(o: Value, n: nat)
    requires Clean(o) && n < |o.fields|
    ensures o.fields[n].key !in Keys(o.fields[..n])
    ensures o.fields[n].val.Obj? ==> Clean(o.fields[n].val) && |o.fields[n].val.fields| > 0
  {
    var ks := Keys(o.fields[..n]);
    forall j | 0 <= j < |ks| ensures ks[j] != o.fields[n].key {
      assert ks[j] == o.fields[j].key;
    }
  }

  /** The leaves of a property with a fresh key, written after the leaves that build the
      properties before it, append it. */
  lemma AppendBlock(before: seq<Field>, pre: seq<Leaf>, f: Field)
    requires WriteLeaves(Ok(Obj([])), pre) == Ok(Obj(before))
    requires f.key !in Keys(before)
    requires f.val.Obj? ==> Clean(f.val) && |f.val.fields| > 0
    requires f.val.Obj? ==> WriteLeaves(Ok(Obj([])), Leaves(f.val)) == Ok(f.val)
    ensures WriteLeaves(Ok(Obj([])), pre + Block(f)) == Ok(Obj(before + [f]))
  {
    WriteLeavesAppend(Ok(Obj([])), pre, Block(f));
    if f.val.Obj? {
      LeavesGood(f.val);
      WriteUnder(before, f.key, Leaves(f.val));
    } else {
      assert Block(f)[..0] == [];
      LookupAt(before, f.key, f.val);
    }
  }

  /** unflattenObject undoes flattenObject on a clean object: keys without ".", no empty
      nested object, and no nested object under the key "" at the top. */
  lemma FlattenRoundTrip(o: Value)
    requires Clean(o) && PrefixOk(o, "")
    ensures Unflatten(Flatten(o, "")) == Ok(o)
  {
    FlattenIsFlat(o, "");
    LeavesGood(o);
    UnflattenFlat(Leaves(o));
    Rebuild(o);
  }
}

=== FILE: numbers.dfy ===
/** The integer number utilities. Numbers are modelled as mathematical integers: fractions,
    NaN, infinities and floating-point rounding are outside the model. */
module Numbers {
  import opened Results
  import opened Chars
  import opened Decimal
  import opened JsText
  import opened Random
  import Arrays

  // ---------------------------------------------------------------- randomNumber

  /** `randomNumber(min, max)` for the draw `r` of `Math.random()`. */
  function RandomNumber(min: int, max: int, r: real): int {
    ScaledDraw(r, max - min + 1) + min
  }

  /** For `min <= max` the result lies in [min, max]. */
  lemma RandomNumberInRange(min: int, max: int, r: real)
    requires IsDraw(r) && min <= max
    ensures min <= RandomNumber(min, max, r) <= max
  {
    ScaledDrawRange(r, max - min + 1);
  }

  /** Every integer of [min, max] is the result of some draw. */
  lemma RandomNumberReaches(min: int, max: int, x: int) returns (r: real)
    requires min <= x <= max
    ensures IsDraw(r) && RandomNumber(min, max, r) == x
  {
    r := ScaledDrawReaches(x - min, max - min + 1);
  }

  // ---------------------------------------------------------------- isEven / isOdd

  /** JavaScript's `num % 2`: the remainder of division truncated toward zero, so it takes
      the sign of the dividend (Dafny's own `%` never goes negative). */
  function JsRemTwo(a: int): (r: int)
    ensures a >= 0 ==> r == 0 || r == 1
    ensures a < 0 ==> r == 0 || r == -1
    ensures (a - r) % 2 == 0
  {
    if a >= 0 then a % 2 else -((-a) % 2)
  }

  function Abs(x: int): (y: int)
    ensures y >= 0 && (y == x || y == -x)
  {
    if x < 0 then -x else x
  }

  /** `isEven`: `num % 2 === 0`. */
  predicate IsEven(n: int) { JsRemTwo(n) == 0 }

  /** `isOdd`: `Math.abs(num % 2) === 1`; for a negative odd `num` the remainder is -1. */
  predicate IsOdd(n: int) { Abs(JsRemTwo(n)) == 1 }

  /** Parity in the mathematical sense: exactly one of the two holds for every integer,
      negative ones included. */
  lemma ParityMeaning(n: int)
    ensures IsEven(n) <==> exists k :: n == 2 * k
    ensures IsOdd(n) <==> exists k :: n == 2 * k + 1
    ensures IsEven(n) != IsOdd(n)
  {
    if n % 2 == 0 {
      assert n == 2 * (n / 2);
    } else {
      assert n == 2 * (n / 2) + 1;
    }
    if IsEven(n) {
      assert n % 2 == 0;
    }
  }

  // ---------------------------------------------------------------- findMax / findMin

  /** `findMax`: `undefined` for an empty array, otherwise `Math.max(...array)`. */
  method FindMax(a: seq<int>) returns (m: Option<int>)
    ensures m.None? <==> |a| == 0
    ensures m.Some? ==> m.value in a && forall x :: x in a ==> x <= m.value
  {
    if |a| == 0 {
      return None;
    }
    var best := a[0];
    var i := 1;
    while i < |a|
      invariant 1 <= i <= |a|
      invariant best in a[..i]
      invariant forall k :: 0 <= k < i ==> a[k] <= best
    {
      if a[i] > best {
        best := a[i];
      }
      i := i + 1;
    }
    assert a[..i] == a;
    return Some(best);
  }

  /** `findMin`: `undefined` for an empty array, otherwise `Math.min(...array)`. */
  method FindMin(a: seq<int>) returns (m: Option<int>)
    ensures m.None? <==> |a| == 0
    ensures m.Some? ==> m.value in a && forall x :: x in a ==> m.value <= x
  {
    if |a| == 0 {
      return None;
    }
    var best := a[0];
    var i := 1;
    while i < |a|
      invariant 1 <= i <= |a|
      invariant best in a[..i]
      invariant forall k :: 0 <= k < i ==> best <= a[k]
    {
      if a[i] < best {
        best := a[i];
      }
      i := i + 1;
    }
    assert a[..i] == a;
    return Some(best);
  }

  // ---------------------------------------------------------------- formatNumber

  predicate IsComma(c: char) { c == ',' }

  /** A word character of `\w` sits at index `i` (an index outside `s` is not one). */
  predicate WordAt(s: string, i: int) { 0 <= i < |s| && IsWordChar(s[i]) }

  /** The regular expression `\B(?=(\d{3})+(?!\d))` matches the empty string at `p`: `p` is
      not a word boundary, and the run of digits starting at `p` is a positive multiple of
      three long (the greedy group backtracks, but a shorter multiple leaves a digit next). */
  predicate CommaAt(s: string, p: nat)
    requires p <= |s|
  {
    var run := RunEnd(s, p, IsDigit) - p;
    WordAt(s, p - 1) == WordAt(s, p) && run >= 3 && run % 3 == 0
  }

  /** `s.replace(/\B(?=(\d{3})+(?!\d))/g, ',')` over the first `k` characters: a comma goes in
      front of every position that matches. The end of the string never matches. */
  function InsertCommas(s: string, k: nat): string
    requires k <= |s|
  {
    if k == 0 then ""
    else InsertCommas(s, k - 1) + (if CommaAt(s, k - 1) then "," else "") + [s[k - 1]]
  }

  /** `formatNumber` on an integer: its decimal text with the commas inserted. */
  function FormatNumber(n: int): string {
    var s := IntToString(n);
    InsertCommas(s, |s|)
  }

  function SignOf(n: int): string {
    if n < 0 then "-" else ""
  }

  /** Reference grouping: the digits split into threes from the right, the first group
      taking what is left over. */
  function Groups(d: string): (g: seq<string>)
    requires |d| >= 1
    ensures |g| >= 1
  {
    if |d| <= 3 then [d] else Groups(d[..|d| - 3]) + [d[|d| - 3..]]
  }

  /** The groups put back together are the digits; the first holds one to three of them and
      every later one exactly three. */
  lemma {:induction false} GroupsShape(d: string)
    requires |d| >= 1
    ensures Arrays.Concat(Groups(d)) == d
    ensures 1 <= |Groups(d)[0]| <= 3
    ensures forall k :: 1 <= k < |Groups(d)| ==> |Groups(d)[k]| == 3
    ensures forall k :: 0 <= k < |Groups(d)| ==> AllDigits(Groups(d)[k]) || !AllDigits(d)
  {
    if |d| > 3 {
      var p := d[..|d| - 3];
      GroupsShape(p);
      var g := Groups(d);
      assert g[..|g| - 1] == Groups(p);
      assert d == p + d[|d| - 3..];
    } else {
      assert Arrays.Concat([d]) == Arrays.Concat([d][..0]) + d;
    }
  }

  /** `formatNumber` is the sign followed by the comma-joined groups of the digits. */
  lemma FormatNumberGroups(n: int)
    ensures FormatNumber(n) == SignOf(n) + Join(Groups(NatToString(Abs(n))), ',')
  {
    var d := NatToString(Abs(n));
    var s := IntToString(n);
    var sign := SignOf(n);
    IntToStringSplit(n);
    InsertCommasOfNumber(s, sign, d);
    var g := GroupPrefix(d, |d|);
    assert FormatNumber(n) == sign + g by {
      assert |s| == |sign| + |d|;
    }
    GroupedIsJoin(d);
  }

  lemma IntToStringSplit(n: int)
    ensures IntToString(n) == SignOf(n) + NatToString(Abs(n))
  {
  }

  /** Deleting the commas of `formatNumber` gives the decimal text back. */
  lemma FormatNumberRemoveCommas(n: int)
    ensures RemoveChars(FormatNumber(n), IsComma) == IntToString(n)
  {
    var s := IntToString(n);
    IntToStringSplit(n);
    assert ',' !in s by {
      assert AllDigits(NatToString(Abs(n)));
    }
    RemoveInsertedCommas(s, |s|);
    assert s[..|s|] == s;
  }

  /** Splitting the digits part on "," gives the groups back: the first of one to three
      digits, every later one of exactly three, and a leading "-" is followed by a digit. */
  lemma FormatNumberShape(n: int)
    ensures var f := FormatNumber(n);
      var body := f[|SignOf(n)|..];
      var parts := SplitOn(body, ',');
      && |f| > |SignOf(n)|
      && f[..|SignOf(n)|] == SignOf(n)
      && IsDigit(f[|SignOf(n)|])
      && parts == Groups(NatToString(Abs(n)))
      && 1 <= |parts[0]| <= 3
      && (forall k :: 1 <= k < |parts| ==> |parts[k]| == 3)
      && (forall k :: 0 <= k < |parts| ==> AllDigits(parts[k]))
  {
    var d := NatToString(Abs(n));
    var g := Groups(d);
    FormatNumberGroups(n);
    GroupsShape(d);
    var f := FormatNumber(n);
    var body := Join(g, ',');
    assert f == SignOf(n) + body;
    assert f[|SignOf(n)|..] == body;
    forall k | 0 <= k < |g| ensures ',' !in g[k] {
      assert AllDigits(g[k]);
    }
    SplitJoin(g, ',');
    JoinStartsWith(g, ',');
    assert AllDigits(g[0]);
  }

  lemma {:induction false} JoinStartsWith(parts: seq<string>, sep: char)
    requires |parts| >= 1 && |parts[0]| >= 1
    ensures |Join(parts, sep)| >= 1 && Join(parts, sep)[0] == parts[0][0]
  {
  }

  /** The decimal text with commas inserted, digit by digit: before the digit at `j >= 1`
      exactly when the digits from `j` on number a multiple of three. */
  function GroupPrefix(d: string, k: nat): string
    requires k <= |d|
  {
    if k == 0 then ""
    else GroupPrefix(d, k - 1) + (if k - 1 >= 1 && (|d| - (k - 1)) % 3 == 0 then "," else "") + [d[k - 1]]
  }

  /** The regular expression's matches in `sign + digits` are the positions `GroupPrefix` uses. */
  lemma InsertCommasOfNumber(s: string, sign: string, d: string)
    requires sign == "" || sign == "-"
    requires |d| >= 1 && AllDigits(d)
    requires s == sign + d
    ensures InsertCommas(s, |s|) == sign + GroupPrefix(d, |d|)
  {
    if sign == "-" {
      NoCommaAfterSign(s);
    }
    assert CommasUpTo(s, sign, d, 0);
    InsertCommasFrom(s, sign, d, 0);
  }

  /** The commas in front of the first `k` digits are the ones `GroupPrefix` puts. */
  predicate CommasUpTo(s: string, sign: string, d: string, k: nat)
    requires s == sign + d && k <= |d|
  {
    InsertCommas(s, |sign| + k) == sign + GroupPrefix(d, k)
  }

  lemma {:induction false} InsertCommasFrom(s: string, sign: string, d: string, k: nat)
    requires sign == "" || sign == "-"
    requires |d| >= 1 && AllDigits(d)
    requires s == sign + d && k <= |d|
    requires CommasUpTo(s, sign, d, k)
    ensures CommasUpTo(s, sign, d, |d|)
    decreases |d| - k, 1
  {
    if k < |d| {
      InsertCommasRest(s, sign, d, k);
    }
  }

  lemma {:induction false} InsertCommasRest(s: string, sign: string, d: string, k: nat)
    requires sign == "" || sign == "-"
    requires |d| >= 1 && AllDigits(d)
    requires s == sign + d && k < |d|
    requires CommasUpTo(s, sign, d, k)
    ensures CommasUpTo(s, sign, d, |d|)
    decreases |d| - k, 0
  {
    InsertCommasStep(s, sign, d, k);
    InsertCommasFrom(s, sign, d, k + 1);
  }

  /** One more digit: the comma in front of it, if any, is the one `GroupPrefix` puts. */
  lemma InsertCommasStep(s: string, sign: string, d: string, j: nat)
    requires sign == "" || sign == "-"
    requires |d| >= 1 && AllDigits(d)
    requires s == sign + d && j < |d|
    requires CommasUpTo(s, sign, d, j)
    ensures CommasUpTo(s, sign, d, j + 1)
  {
    var p := |sign| + j;
    CommaAtOfNumber(s, sign, d, j);
    InsertCommasNext(s, p);
    assert s[p] == d[j];
  }

  lemma InsertCommasNext(s: string, p: nat)
    requires p < |s|
    ensures InsertCommas(s, p + 1) == InsertCommas(s, p) + (if CommaAt(s, p) then "," else "") + [s[p]]
  {
  }

  lemma NoCommaAfterSign(s: string)
    requires |s| >= 1 && s[0] == '-'
    ensures InsertCommas(s, 1) == "-"
  {
    assert !CommaAt(s, 0);
  }

  /** Inside `sign + digits` the expression matches before the digit at `j` exactly when
      `j >= 1` and the digits from `j` on number a multiple of three. */
  lemma CommaAtOfNumber(s: string, sign: string, d: string, j: nat)
    requires sign == "" || sign == "-"
    requires |d| >= 1 && AllDigits(d)
    requires s == sign + d
    requires j < |d|
    ensures CommaAt(s, |sign| + j) <==> j >= 1 && (|d| - j) % 3 == 0
  {
    var o := |sign|;
    DigitsRunToEnd(s, o + j);
    assert s[o + j] == d[j];
    if j >= 1 {
      assert s[o + j - 1] == d[j - 1];
      assert IsWordChar(s[o + j - 1]) && IsWordChar(s[o + j]);
    } else {
      assert !WordAt(s, o - 1);
    }
  }

  lemma DigitsRunToEnd(s: string, i: nat)
    requires i < |s|
    requires forall k :: i <= k < |s| ==> IsDigit(s[k])
    ensures RunEnd(s, i, IsDigit) == |s|
  {
  }

  /** The digit-by-digit insertion is the join of the groups. */
  lemma {:induction false} GroupedIsJoin(d: string)
    requires |d| >= 1
    ensures GroupPrefix(d, |d|) == Join(Groups(d), ',')
    decreases |d|
  {
    if |d| <= 3 {
      NoCommaInShortPrefix(d, |d|);
    } else {
      var n := |d|;
      var p := d[..n - 3];
      var t := d[n - 3..];
      GroupPrefixOfLonger(d, p, |p|);
      GroupedIsJoin(p);
      assert Groups(d) == Groups(p) + [t];
      JoinAppend(Groups(p), t, ',');
      LastGroup(d);
    }
  }

  /** The last three digits of a number longer than three form the last group, after a comma. */
  lemma LastGroup(d: string)
    requires |d| > 3
    ensures GroupPrefix(d, |d|) == GroupPrefix(d, |d| - 3) + "," + d[|d| - 3..]
  {
    var n := |d|;
    CommaBefore(d, n - 2);
    NoCommaBefore(d, n - 1);
    NoCommaBefore(d, n);
    LastThree(d);
    AppendThree(GroupPrefix(d, n - 3) + ",", d[n - 3], d[n - 2], d[n - 1],
                GroupPrefix(d, n - 2), GroupPrefix(d, n - 1), GroupPrefix(d, n));
  }

  /** A comma goes before digit `k - 1` when three, six, ... digits remain from it on. */
  lemma CommaBefore(d: string, k: nat)
    requires 1 < k <= |d| && (|d| - (k - 1)) % 3 == 0
    ensures GroupPrefix(d, k) == GroupPrefix(d, k - 1) + "," + [d[k - 1]]
  {
  }

  lemma NoCommaBefore(d: string, k: nat)
    requires 0 < k <= |d| && (|d| - (k - 1)) % 3 != 0
    ensures GroupPrefix(d, k) == GroupPrefix(d, k - 1) + [d[k - 1]]
  {
  }

  lemma LastThree(d: string)
    requires |d| >= 3
    ensures d[|d| - 3..] == [d[|d| - 3], d[|d| - 2], d[|d| - 1]]
  {
  }

  lemma AppendThree(a: string, c0: char, c1: char, c2: char, x0: string, x1: string, x2: string)
    requires x0 == a + [c0] && x1 == x0 + [c1] && x2 == x1 + [c2]
    ensures x2 == a + [c0, c1, c2]
  {
  }

  lemma {:induction false} NoCommaInShortPrefix(d: string, k: nat)
    requires 1 <= |d| <= 3 && k <= |d|
    ensures GroupPrefix(d, k) == d[..k]
  {
    if k > 0 {
      NoCommaInShortPrefix(d, k - 1);
      assert d[..k] == d[..k - 1] + [d[k - 1]];
    }
  }

  /** Dropping the last three digits keeps every earlier insertion decision. */
  lemma {:induction false} GroupPrefixOfLonger(d: string, p: string, k: nat)
    requires |d| >= 3 && p == d[..|d| - 3]
    requires k <= |p|
    ensures GroupPrefix(d, k) == GroupPrefix(p, k)
  {
    if k > 0 {
      GroupPrefixOfLonger(d, p, k - 1);
      assert (|d| - (k - 1)) % 3 == (|p| - (k - 1)) % 3;
    }
  }

  lemma {:induction false} JoinAppend(parts: seq<string>, x: string, sep: char)
    requires |parts| >= 1
    ensures Join(parts + [x], sep) == Join(parts, sep) + [sep] + x
  {
    if |parts| > 1 {
      assert (parts + [x])[1..] == parts[1..] + [x];
      JoinAppend(parts[1..], x, sep);
    }
  }

  /** Deleting the inserted commas gives back the comma-free original. */
  lemma {:induction false} RemoveInsertedCommas(s: string, k: nat)
    requires k <= |s|
    requires ',' !in s
    ensures RemoveChars(InsertCommas(s, k), IsComma) == s[..k]
  {
    if k > 0 {
      RemoveInsertedCommas(s, k - 1);
      assert s[k - 1] in s;
      RemoveCharsStep(InsertCommas(s, k - 1), if CommaAt(s, k - 1) then "," else "", s[k - 1]);
      assert s[..k] == s[..k - 1] + [s[k - 1]];
    }
  }

  lemma RemoveCharsStep(prefix: string, c: string, x: char)
    requires c == "" || c == ","
    requires x != ','
    ensures RemoveChars(prefix + c + [x], IsComma) == RemoveChars(prefix, IsComma) + [x]
  {
    RemoveCharsAppend(prefix, c + [x], IsComma);
    RemoveCharsAppend(c, [x], IsComma);
    assert RemoveChars(c, IsComma) == "";
    assert prefix + c + [x] == prefix + (c + [x]);
  }

  lemma {:induction false} RemoveCharsAppend(a: string, b: string, p: char -> bool)
    ensures RemoveChars(a + b, p) == RemoveChars(a, p) + RemoveChars(b, p)
  {
    if |a| > 0 {
      assert (a + b)[1..] == a[1..] + b;
      RemoveCharsAppend(a[1..], b, p);
    } else {
      assert a + b == b;
    }
  }
}

=== FILE: objects.dfy ===
/** The flat object utilities: pick, omit, compactObject, groupBy, renameKeys,
    invertObject and the key difference and intersection of two objects. Objects are
    property lists (`JsValues`); each `reduce` over keys that assigns into a fresh
    accumulator is `AssignAll` of the assignments it makes, in order. */
module Objects {
  import opened Results
  import opened Decimal
  import opened JsValues
  import Arrays

  // ---------------------------------------------------------------- pick

  /** The assignments `pick` makes: each requested key that `obj` has, in request order. */
  function PickedFields(fs: seq<Field>, keys: seq<string>): (r: seq<Field>)
    ensures |r| <= |keys|
  {
    if |keys| == 0 then []
    else
      var k := keys[|keys| - 1];
      PickedFields(fs, keys[..|keys| - 1]) +
        (match Lookup(fs, k) case Some(v) => [Field(k, v)] case None => [])
  }

  /** `pick(obj, keys)`. */
  function Pick(fs: seq<Field>, keys: seq<string>): seq<Field> {
    AssignAll([], PickedFields(fs, keys))
  }

  lemma {:induction false} PickedFieldsKeys(fs: seq<Field>, keys: seq<string>)
    ensures Keys(PickedFields(fs, keys)) == Arrays.Intersect(keys, Keys(fs))
  {
    if |keys| > 0 {
      PickedFieldsKeys(fs, keys[..|keys| - 1]);
    }
  }

  /** Every assignment `pick` makes to a key copies that key's value from `obj`. */
  lemma {:induction false} PickedFieldsLast(fs: seq<Field>, keys: seq<string>, k: string)
    ensures LastLookup(PickedFields(fs, keys), k) == if k in keys then Lookup(fs, k) else None
  {
    if |keys| > 0 {
      var pre := keys[..|keys| - 1];
      PickedFieldsLast(fs, pre, k);
      PickedFieldsStep(fs, keys, k);
      Arrays.InLast(keys, k);
    }
  }

  /** The last requested key is assigned after all the others, when `obj` has it. */
  lemma PickedFieldsStep(fs: seq<Field>, keys: seq<string>, k: string)
    requires |keys| > 0
    ensures LastLookup(PickedFields(fs, keys), k) ==
      if keys[|keys| - 1] == k && Lookup(fs, k).Some? then Lookup(fs, k)
      else LastLookup(PickedFields(fs, keys[..|keys| - 1]), k)
  {
    var last := keys[|keys| - 1];
    var pf := PickedFields(fs, keys[..|keys| - 1]);
    match Lookup(fs, last)
    case Some(v) =>
      var r := pf + [Field(last, v)];
      assert r[..|r| - 1] == pf;
    case None =>
      assert pf + [] == pf;
  }

  /** `pick` returns exactly the requested keys `obj` has, once each in request order,
      holding `obj`'s values; no other key. */
  lemma PickMeaning(fs: seq<Field>, keys: seq<string>, k: string)
    ensures Keys(Pick(fs, keys)) == Arrays.RemoveDuplicates(Arrays.Intersect(keys, Keys(fs)))
    ensures Lookup(Pick(fs, keys), k) == if k in keys then Lookup(fs, k) else None
  {
    var pf := PickedFields(fs, keys);
    AssignAllKeys([], pf);
    PickedFieldsKeys(fs, keys);
    AssignAllLookup([], pf, k);
    PickedFieldsLast(fs, keys, k);
  }

  // ---------------------------------------------------------------- omit

  /** `omit(obj, keys)`: a copy of `obj` with each listed key deleted in turn. */
  function Omit(fs: seq<Field>, keys: seq<string>): seq<Field> {
    if |keys| == 0 then fs else Remove(Omit(fs, keys[..|keys| - 1]), keys[|keys| - 1])
  }

  /** Deleting the keys one by one keeps exactly the fields whose key is not listed. */
  lemma {:induction false} OmitFilters(fs: seq<Field>, keys: seq<string>)
    ensures Omit(fs, keys) == FilterFields(fs, (f: Field) => f.key !in keys)
  {
    if |keys| == 0 {
      FilterAll(fs, (f: Field) => f.key !in keys);
    } else {
      var pre := keys[..|keys| - 1];
      var k := keys[|keys| - 1];
      OmitFilters(fs, pre);
      assert keys == pre + [k];
      FilterFilter(fs, (f: Field) => f.key !in pre, (f: Field) => f.key != k,
                   (f: Field) => f.key !in keys);
    }
  }

  /** A filter that passes everything is the identity. */
  lemma {:induction false} FilterAll(fs: seq<Field>, p: Field -> bool)
    requires forall f :: p(f)
    ensures FilterFields(fs, p) == fs
  {
    if |fs| > 0 {
      var pre := fs[..|fs| - 1];
      FilterAll(pre, p);
      assert FilterFields(fs, p) == FilterFields(pre, p) + [fs[|fs| - 1]];
      assert pre + [fs[|fs| - 1]] == fs;
    }
  }

  lemma {:induction false} FilterOutKeys(fs: seq<Field>, keys: seq<string>)
    ensures Keys(FilterFields(fs, (f: Field) => f.key !in keys)) ==
            Arrays.Difference(Keys(fs), keys)
  {
    if |fs| > 0 {
      var pre := fs[..|fs| - 1];
      FilterOutKeys(pre, keys);
      assert Keys(fs)[..|fs| - 1] == Keys(pre);
    }
  }

  /** `omit` returns exactly `obj`'s keys minus the listed ones, in `obj`'s order, with
      `obj`'s values. */
  lemma OmitMeaning(fs: seq<Field>, keys: seq<string>, k: string)
    requires UniqueKeys(fs)
    ensures Keys(Omit(fs, keys)) == Arrays.Difference(Keys(fs), keys)
    ensures Lookup(Omit(fs, keys), k) == if k in keys then None else Lookup(fs, k)
  {
    OmitFilters(fs, keys);
    FilterOutKeys(fs, keys);
    FilterLookup(fs, (f: Field) => f.key !in keys, k);
  }

  // ---------------------------------------------------------------- compactObject

  /** A property `compactObject` keeps: its value is neither null nor undefined. */
  predicate Kept(f: Field) {
    !IsNullish(f.val)
  }

  /** `compactObject(obj)`: the properties whose value is neither null nor undefined. */
  function CompactObject(fs: seq<Field>): seq<Field> {
    AssignAll([], FilterFields(fs, Kept))
  }

  /** Rebuilding the kept properties into a fresh object copies them as they are. */
  lemma CompactObjectFiltered(fs: seq<Field>)
    requires UniqueKeys(fs)
    ensures CompactObject(fs) == FilterFields(fs, Kept)
  {
    var kept := FilterFields(fs, Kept);
    FilterLookup(fs, Kept, "");
    assert UniqueKeys(kept);
    assert [] + kept == kept;
    AssignAllFresh([], kept);
  }

  /** Compacting drops exactly the null and undefined values, keeps the other values, and
      keeps `obj`'s key order. */
  lemma CompactObjectMeaning(fs: seq<Field>, k: string)
    requires UniqueKeys(fs)
    ensures forall i :: 0 <= i < |CompactObject(fs)| ==> !IsNullish(CompactObject(fs)[i].val)
    ensures Lookup(CompactObject(fs), k) ==
      match Lookup(fs, k)
      case Some(v) => if IsNullish(v) then None else Some(v)
      case None => None
    ensures InKeyOrder(fs, CompactObject(fs))
  {
    CompactObjectFiltered(fs);
    FilterLookup(fs, Kept, k);
    FilterKeepsOrder(fs, Kept);
  }

  // ---------------------------------------------------------------- groupBy

  /** The label `selector(value, key)` of each property, in key order. */
  function Labels(fs: seq<Field>, selector: (Value, string) -> string): (ls: seq<string>)
    ensures |ls| == |fs|
  {
    seq(|fs|, i requires 0 <= i < |fs| => selector(fs[i].val, fs[i].key))
  }

  /** Reference definition: the values labelled `g`, in key order. */
  function WithLabel(fs: seq<Field>, selector: (Value, string) -> string, g: string): seq<Value> {
    if |fs| == 0 then []
    else
      var last := fs[|fs| - 1];
      WithLabel(fs[..|fs| - 1], selector, g) +
        (if selector(last.val, last.key) == g then [last.val] else [])
  }

  /** The array a group holds so far (`acc[groupKey] || []`). */
  function Members(acc: seq<Field>, g: string): seq<Value> {
    match Lookup(acc, g)
    case Some(Arr(xs)) => xs
    case _ => []
  }

  /** `groupBy(obj, selector)` as the list of groups built so far. */
  function GroupBy(fs: seq<Field>, selector: (Value, string) -> string): seq<Field> {
    if |fs| == 0 then []
    else
      var last := fs[|fs| - 1];
      var acc := GroupBy(fs[..|fs| - 1], selector);
      var g := selector(last.val, last.key);
      Put(acc, g, Arr(Members(acc, g) + [last.val]))
  }

  /** There is one group per distinct label, in order of first appearance, and each holds
      exactly the values with that label in the original key order. */
  lemma GroupByMeaning(fs: seq<Field>, selector: (Value, string) -> string, g: string)
    ensures Keys(GroupBy(fs, selector)) == Arrays.RemoveDuplicates(Labels(fs, selector))
    ensures Lookup(GroupBy(fs, selector), g) ==
      if g in Labels(fs, selector) then Some(Arr(WithLabel(fs, selector, g))) else None
  {
    GroupByKeys(fs, selector);
    GroupByLookup(fs, selector, g);
  }

  lemma LabelsStep(fs: seq<Field>, selector: (Value, string) -> string)
    requires |fs| > 0
    ensures Labels(fs, selector) ==
      Labels(fs[..|fs| - 1], selector) + [selector(fs[|fs| - 1].val, fs[|fs| - 1].key)]
  {
  }

  lemma {:induction false} GroupByKeys(fs: seq<Field>, selector: (Value, string) -> string)
    ensures Keys(GroupBy(fs, selector)) == Arrays.RemoveDuplicates(Labels(fs, selector))
  {
    if |fs| > 0 {
      var pre := fs[..|fs| - 1];
      GroupByKeys(pre, selector);
      LabelsStep(fs, selector);
      var ls := Labels(fs, selector);
      assert ls[..|ls| - 1] == Labels(pre, selector);
    }
  }

  lemma {:induction false} GroupByLookup(fs: seq<Field>, selector: (Value, string) -> string,
                                         g: string)
    ensures Lookup(GroupBy(fs, selector), g) ==
      if g in Labels(fs, selector) then Some(Arr(WithLabel(fs, selector, g))) else None
  {
    if |fs| > 0 {
      var pre := fs[..|fs| - 1];
      var last := fs[|fs| - 1];
      var acc := GroupBy(pre, selector);
      var lg := selector(last.val, last.key);
      GroupByLookup(pre, selector, g);
      GroupByLookup(pre, selector, lg);
      var x := Arr(Members(acc, lg) + [last.val]);
      assert GroupBy(fs, selector) == Put(acc, lg, x);
      PutLookup(acc, lg, x, g);
      LabelsStep(fs, selector);
      if g == lg {
        WithoutLabel(pre, selector, g);
        assert Members(acc, lg) == WithLabel(pre, selector, g);
        assert WithLabel(fs, selector, g) == WithLabel(pre, selector, g) + [last.val];
      } else {
        assert WithLabel(fs, selector, g) == WithLabel(pre, selector, g);
      }
    }
  }

  lemma {:induction false} WithoutLabel(fs: seq<Field>, selector: (Value, string) -> string,
                                        g: string)
    ensures g !in Labels(fs, selector) ==> WithLabel(fs, selector, g) == []
  {
    if |fs| > 0 {
      WithoutLabel(fs[..|fs| - 1], selector, g);
      LabelsStep(fs, selector);
    }
  }

  /** The values a list of groups holds, group after group. */
  function AllMembers(acc: seq<Field>): seq<Value> {
    Arrays.Concat(GroupLists(acc))
  }

  function GroupLists(acc: seq<Field>): (ss: seq<seq<Value>>)
    ensures |ss| == |acc|
  {
    seq(|acc|, i requires 0 <= i < |acc| => ItemsOf(acc[i].val))
  }

  function ItemsOf(v: Value): seq<Value> {
    if v.Arr? then v.items else []
  }

  function Values(fs: seq<Field>): (vs: seq<Value>)
    ensures |vs| == |fs|
  {
    seq(|fs|, i requires 0 <= i < |fs| => fs[i].val)
  }

  /** Concatenating all groups gives a permutation of `obj`'s values. */
  lemma {:induction false} GroupByPermutation(fs: seq<Field>, selector: (Value, string) -> string)
    ensures multiset(AllMembers(GroupBy(fs, selector))) == multiset(Values(fs))
  {
    if |fs| > 0 {
      GroupByPermutation(fs[..|fs| - 1], selector);
      GroupByPermutationStep(fs, selector);
      ValuesLast(fs);
    }
  }

  /** The last property adds its value to the groups' contents. */
  lemma GroupByPermutationStep(fs: seq<Field>, selector: (Value, string) -> string)
    requires |fs| > 0
    ensures multiset(AllMembers(GroupBy(fs, selector))) ==
            multiset(AllMembers(GroupBy(fs[..|fs| - 1], selector))) + multiset{fs[|fs| - 1].val}
  {
    var last := fs[|fs| - 1];
    var acc := GroupBy(fs[..|fs| - 1], selector);
    AllMembersAdd(acc, selector(last.val, last.key), last.val);
  }

  lemma ValuesLast(fs: seq<Field>)
    requires |fs| > 0
    ensures multiset(Values(fs)) == multiset(Values(fs[..|fs| - 1])) + multiset{fs[|fs| - 1].val}
  {
    assert Values(fs) == Values(fs[..|fs| - 1]) + [fs[|fs| - 1].val];
  }

  /** Pushing a value onto one group adds exactly that value to the groups' contents. */
  lemma AllMembersAdd(acc: seq<Field>, g: string, v: Value)
    ensures multiset(AllMembers(Put(acc, g, Arr(Members(acc, g) + [v])))) ==
            multiset(AllMembers(acc)) + multiset{v}
  {
    var ss := GroupLists(acc);
    var i := KeyIndex(acc, g);
    var r := Put(acc, g, Arr(Members(acc, g) + [v]));
    if i < |acc| {
      assert Members(acc, g) == ss[i];
      assert GroupLists(r) == ss[i := ss[i] + [v]];
      ConcatUpdate(ss, i, v);
    } else {
      assert Members(acc, g) == [];
      assert Members(acc, g) + [v] == [v];
      assert r == acc + [Field(g, Arr([v]))];
      assert forall j :: 0 <= j < |acc| ==> GroupLists(r)[j] == ss[j];
      assert GroupLists(r) == ss + [[v]];
      assert (ss + [[v]])[..|ss|] == ss;
    }
  }

  /** Appending one value to one of the concatenated sequences adds it to the whole. */
  lemma {:induction false} ConcatUpdate<T>(ss: seq<seq<T>>, i: nat, v: T)
    requires i < |ss|
    ensures multiset(Arrays.Concat(ss[i := ss[i] + [v]])) == multiset(Arrays.Concat(ss)) + multiset{v}
  {
    var pre := ss[..|ss| - 1];
    if i == |ss| - 1 {
      assert ss[i := ss[i] + [v]][..|ss| - 1] == pre;
    } else {
      ConcatUpdate(pre, i, v);
      assert ss[i := ss[i] + [v]][..|ss| - 1] == pre[i := pre[i] + [v]];
    }
  }

  // ---------------------------------------------------------------- renameKeys

  /** `keyMap[key] || key`: a mapping to the empty string is ignored like a missing one. */
  function NewKey(keyMap: map<string, string>, k: string): string {
    if k in keyMap && keyMap[k] != "" then keyMap[k] else k
  }

  /** The new name of each property, in key order. */
  function NewKeys(fs: seq<Field>, keyMap: map<string, string>): (ks: seq<string>)
    ensures |ks| == |fs|
  {
    seq(|fs|, i requires 0 <= i < |fs| => NewKey(keyMap, fs[i].key))
  }

  function Renamed(fs: seq<Field>, keyMap: map<string, string>): (r: seq<Field>)
    ensures Keys(r) == NewKeys(fs, keyMap)
    ensures forall i :: 0 <= i < |r| ==> r[i].val == fs[i].val
  {
    seq(|fs|, i requires 0 <= i < |fs| => Field(NewKey(keyMap, fs[i].key), fs[i].val))
  }

  /** `renameKeys(obj, keyMap)`. */
  function RenameKeys(fs: seq<Field>, keyMap: map<string, string>): seq<Field> {
    AssignAll([], Renamed(fs, keyMap))
  }

  /** The new keys appear once each in order of first use; a new key holds the value of the
      last property renamed to it. */
  lemma RenameKeysMeaning(fs: seq<Field>, keyMap: map<string, string>, j: string)
    ensures Keys(RenameKeys(fs, keyMap)) == Arrays.RemoveDuplicates(NewKeys(fs, keyMap))
    ensures Lookup(RenameKeys(fs, keyMap), j).Some? <==> j in NewKeys(fs, keyMap)
    ensures Lookup(RenameKeys(fs, keyMap), j).Some? ==>
      exists i :: 0 <= i < |fs| && NewKeys(fs, keyMap)[i] == j &&
        Lookup(RenameKeys(fs, keyMap), j) == Some(fs[i].val) &&
        forall m :: i < m < |fs| ==> NewKeys(fs, keyMap)[m] != j
  {
    var rn := Renamed(fs, keyMap);
    AssignAllKeys([], rn);
    AssignAllLookup([], rn, j);
    if j in Keys(rn) {
      var i := LastLookupWitness(rn, j);
    }
  }

  /** When no two keys are renamed alike, every property keeps its value and its place under
      its new name. */
  lemma RenameKeysInjective(fs: seq<Field>, keyMap: map<string, string>)
    requires forall a, b :: 0 <= a < b < |fs| ==> NewKey(keyMap, fs[a].key) != NewKey(keyMap, fs[b].key)
    ensures |RenameKeys(fs, keyMap)| == |fs|
    ensures forall i :: 0 <= i < |fs| ==>
      RenameKeys(fs, keyMap)[i] == Field(NewKey(keyMap, fs[i].key), fs[i].val)
  {
    var rn := Renamed(fs, keyMap);
    assert [] + rn == rn;
    RenamedUnique(fs, keyMap);
    AssignAllFresh([], rn);
    RenamedAt(fs, keyMap);
  }

  lemma RenamedAt(fs: seq<Field>, keyMap: map<string, string>)
    ensures forall i :: 0 <= i < |fs| ==> Renamed(fs, keyMap)[i] == Field(NewKey(keyMap, fs[i].key), fs[i].val)
  {
  }

  lemma RenamedUnique(fs: seq<Field>, keyMap: map<string, string>)
    requires forall a, b :: 0 <= a < b < |fs| ==> NewKey(keyMap, fs[a].key) != NewKey(keyMap, fs[b].key)
    ensures UniqueKeys(Renamed(fs, keyMap))
  {
    var rn := Renamed(fs, keyMap);
    forall a, b | 0 <= a < b < |rn| ensures rn[a].key != rn[b].key {
      assert rn[a].key == Keys(rn)[a] == NewKeys(fs, keyMap)[a];
      assert rn[b].key == Keys(rn)[b] == NewKeys(fs, keyMap)[b];
    }
  }

  // ---------------------------------------------------------------- invertObject

  /** The property key a string or number value becomes. */
  function PropertyKey(v: Value): string
    requires v.Str? || v.Num?
  {
    if v.Str? then v.s else IntToString(v.n)
  }

  predicate StringOrNumberValues(fs: seq<Field>) {
    forall i :: 0 <= i < |fs| ==> fs[i].val.Str? || fs[i].val.Num?
  }

  /** The key each value becomes, in key order. */
  function ValueKeys(fs: seq<Field>): (ks: seq<string>)
    requires StringOrNumberValues(fs)
    ensures |ks| == |fs|
  {
    seq(|fs|, i requires 0 <= i < |fs| => PropertyKey(fs[i].val))
  }

  function Inverted(fs: seq<Field>): (r: seq<Field>)
    requires StringOrNumberValues(fs)
    ensures Keys(r) == ValueKeys(fs)
    ensures forall i :: 0 <= i < |r| ==> r[i].val == Str(fs[i].key)
  {
    seq(|fs|, i requires 0 <= i < |fs| => Field(PropertyKey(fs[i].val), Str(fs[i].key)))
  }

  /** `invertObject(obj)`: each value becomes a key holding the name of its property. */
  function InvertObject(fs: seq<Field>): seq<Field>
    requires StringOrNumberValues(fs)
  {
    AssignAll([], Inverted(fs))
  }

  /** Each value of `obj` becomes a key once, in order of first use, and holds the name of
      the last property with that value. */
  lemma InvertObjectMeaning(fs: seq<Field>, j: string)
    requires StringOrNumberValues(fs)
    ensures Keys(InvertObject(fs)) == Arrays.RemoveDuplicates(ValueKeys(fs))
    ensures Lookup(InvertObject(fs), j).Some? <==> j in ValueKeys(fs)
    ensures Lookup(InvertObject(fs), j).Some? ==>
      exists i :: 0 <= i < |fs| && ValueKeys(fs)[i] == j &&
        Lookup(InvertObject(fs), j) == Some(Str(fs[i].key)) &&
        forall m :: i < m < |fs| ==> ValueKeys(fs)[m] != j
  {
    var inv := Inverted(fs);
    AssignAllKeys([], inv);
    AssignAllLookup([], inv, j);
    if j in Keys(inv) {
      var i := LastLookupWitness(inv, j);
    }
  }

  /** With distinct values nothing collides: the inversion swaps each pair in place. */
  lemma InvertObjectDistinct(fs: seq<Field>)
    requires StringOrNumberValues(fs)
    requires forall a, b :: 0 <= a < b < |fs| ==> ValueKeys(fs)[a] != ValueKeys(fs)[b]
    ensures InvertObject(fs) == Inverted(fs)
  {
    var inv := Inverted(fs);
    assert [] + inv == inv;
    assert UniqueKeys(inv) by {
      forall a, b | 0 <= a < b < |inv| ensures inv[a].key != inv[b].key {
        assert inv[a].key == ValueKeys(fs)[a] && inv[b].key == ValueKeys(fs)[b];
      }
    }
    AssignAllFresh([], inv);
  }

  /** Inverting twice gives back an object whose values are distinct strings. */
  lemma InvertObjectTwice(fs: seq<Field>)
    requires UniqueKeys(fs)
    requires forall i :: 0 <= i < |fs| ==> fs[i].val.Str?
    requires forall a, b :: 0 <= a < b < |fs| ==> fs[a].val != fs[b].val
    ensures StringOrNumberValues(InvertObject(fs))
    ensures InvertObject(InvertObject(fs)) == fs
  {
    assert forall i :: 0 <= i < |fs| ==> ValueKeys(fs)[i] == fs[i].val.s;
    InvertObjectDistinct(fs);
    var inv := Inverted(fs);
    assert forall i :: 0 <= i < |inv| ==> ValueKeys(inv)[i] == fs[i].key;
    InvertObjectDistinct(inv);
    var back := Inverted(inv);
    assert forall i :: 0 <= i < |fs| ==> back[i].key == fs[i].key && back[i].val == fs[i].val;
    assert back == fs;
  }

  // ---------------------------------------------------------------- difference / intersection

  /** `difference(obj1, obj2)`: the keys of `obj1` that `obj2` lacks. */
  function KeyDifference(o1: Value, o2: Value): seq<string> {
    Arrays.Difference(Arrays.RemoveDuplicates(ObjectKeys(o1)), ObjectKeys(o2))
  }

  /** `intersection(obj1, obj2)`: the keys of `obj1` that `obj2` has too. */
  function KeyIntersection(o1: Value, o2: Value): seq<string> {
    Arrays.Intersect(Arrays.RemoveDuplicates(ObjectKeys(o1)), ObjectKeys(o2))
  }

  /** The two results split `obj1`'s keys between them by membership in `obj2`, and each
      lists its keys in `obj1`'s order. */
  lemma KeyPartition(o1: Value, o2: Value, k: string)
    requires WellFormed(o1)
    ensures multiset(KeyDifference(o1, o2)) + multiset(KeyIntersection(o1, o2)) ==
            multiset(ObjectKeys(o1))
    ensures k in KeyDifference(o1, o2) <==> k in ObjectKeys(o1) && k !in ObjectKeys(o2)
    ensures k in KeyIntersection(o1, o2) <==> k in ObjectKeys(o1) && k in ObjectKeys(o2)
    ensures Arrays.InOrder(KeyDifference(o1, o2), ObjectKeys(o1))
    ensures Arrays.InOrder(KeyIntersection(o1, o2), ObjectKeys(o1))
  {
    var ks := ObjectKeys(o1);
    EntriesUnique(o1);
    assert Arrays.NoDuplicates(ks) by {
      forall a, b | 0 <= a < b < |ks| ensures ks[a] != ks[b] {
        assert Entries(o1)[a].key != Entries(o1)[b].key;
      }
    }
    Arrays.NoDuplicatesFixed(ks);
    Arrays.DifferenceIntersectPartition(ks, ObjectKeys(o2));
    Arrays.DifferenceIntersectMembers(ks, ObjectKeys(o2), k);
    Arrays.DifferenceIntersectOrder(ks, ObjectKeys(o2));
  }
}

=== FILE: random.dfy ===
/** `Math.random()` and the `Math.floor(Math.random() * n)` idiom. A draw is a parameter of
    the model: any real number in [0, 1) the host's generator may produce. */
module Random {

  predicate IsDraw(r: real) { 0.0 <= r < 1.0 }

  /** `Math.floor(r * n)`, computed exactly (floating-point rounding is not modelled). */
  function ScaledDraw(r: real, n: int): int {
    (r * n as real).Floor
  }

  /** A draw scaled by a positive `n` is an index in [0, n). */
  lemma ScaledDrawRange(r: real, n: int)
    requires IsDraw(r) && n > 0
    ensures 0 <= ScaledDraw(r, n) < n
  {
    assert 0.0 <= r * n as real;
    assert r * n as real < n as real by {
      assert (1.0 - r) * n as real > 0.0;
    }
  }

  /** Every index in [0, n) is produced by some draw. */
  lemma ScaledDrawReaches(k: int, n: int) returns (r: real)
    requires 0 <= k < n
    ensures IsDraw(r) && ScaledDraw(r, n) == k
  {
    r := k as real / n as real;
    assert r * n as real == k as real;
  }
}

=== FILE: results.dfy ===
/** Failure-carrying wrappers shared by the model: an optional value (JavaScript's
    `undefined` as "no answer") and the outcome of an operation that may throw. */
module Results {

  /** A value that may be absent, as in `T | undefined` return types. */
  datatype Option<+T> = None | Some(value: T)

  /** The outcome of an operation that may throw a JavaScript error. */
  datatype Result<+T, +E> = Ok(value: T) | Err(error: E) {

    predicate IsFailure() {
      Err?
    }

    function PropagateFailure<U>(): Result<U, E>
      requires Err?
    {
      Err(error)
    }

    function Extract(): T
      requires Ok?
    {
      value
    }
  }
}

=== FILE: strings.dfy ===
/** The string utilities: capitalisation, truncation, character-class checks, word
    counting, kebab-case and slug conversion, and the e-mail pattern. Case mapping is
    ASCII-only (see `Chars`). */
module Strings {
  import opened Chars
  import opened JsText

  // ---------------------------------------------------------------- capitalize

  /** `capitalize`: the empty string stays empty; otherwise the first character is
      upper-cased and the rest is kept. */
  function Capitalize(s: string): (r: string)
    ensures |r| == |s|
    ensures |s| > 0 ==> r[1..] == s[1..] && r[0] == ToUpper(s[0])
    ensures |s| > 0 ==> !IsLower(r[0])
  {
    if s == "" then "" else [ToUpper(s[0])] + s[1..]
  }

  /** Capitalising twice is capitalising once, and a string is its own capitalisation
      exactly when it does not start with a lower-case letter. */
  lemma CapitalizeIdempotent(s: string)
    ensures Capitalize(Capitalize(s)) == Capitalize(s)
    ensures Capitalize(s) == s <==> (|s| == 0 || !IsLower(s[0]))
  {
    if |s| > 0 && IsLower(s[0]) {
      assert Capitalize(s)[0] != s[0];
    }
  }

  // ---------------------------------------------------------------- truncateString

  const DefaultSuffix := "..."

  /** `truncateString(str, maxLength, suffix)`. */
  function TruncateString(s: string, maxLength: int, suffix: string): (r: string)
    ensures |s| <= maxLength ==> r == s
    ensures 0 <= maxLength < |s| ==> r == s[..maxLength] + suffix && |r| == maxLength + |suffix|
    ensures maxLength < 0 ==>
      r == s[..if |s| + maxLength > 0 then |s| + maxLength else 0] + suffix
  {
    if |s| <= maxLength then s else SliceTo(s, maxLength) + suffix
  }

  /** A truncation is the input itself, or a prefix of it followed by the suffix,
      never longer than `maxLength + |suffix|` when `maxLength` is not negative. */
  lemma TruncateIsPrefixPlusSuffix(s: string, maxLength: int, suffix: string)
    ensures var r := TruncateString(s, maxLength, suffix);
      r == s || exists k :: 0 <= k <= |s| && r == s[..k] + suffix
    ensures maxLength >= 0 ==> |TruncateString(s, maxLength, suffix)| <= maxLength + |suffix| || |s| <= maxLength
  {
    var r := TruncateString(s, maxLength, suffix);
    if |s| > maxLength {
      var k := if maxLength >= 0 then maxLength else if |s| + maxLength > 0 then |s| + maxLength else 0;
      assert r == s[..k] + suffix;
    }
  }

  // ---------------------------------------------------------------- isAlphaNumeric

  /** The class `[a-z0-9]` under the `i` flag: a character matches when its upper-case
      canonical form is in the canonicalised class `[A-Z0-9]`. */
  predicate InAlnumClassIgnoringCase(c: char) {
    IsUpper(ToUpper(c)) || IsDigit(ToUpper(c))
  }

  /** `isAlphaNumeric`: the pattern `/^[a-z0-9]+$/i`. */
  function IsAlphaNumeric(s: string): bool {
    |s| >= 1 && AllSatisfy(s, InAlnumClassIgnoringCase)
  }

  /** The pattern accepts exactly the non-empty strings of ASCII letters and digits. */
  lemma AlphaNumericMeaning(s: string)
    ensures IsAlphaNumeric(s) <==>
      |s| > 0 && forall i :: 0 <= i < |s| ==> IsAsciiLetter(s[i]) || IsDigit(s[i])
  {
  }

  // ---------------------------------------------------------------- countWords

  predicate IsNotSpace(c: char) { !IsJsSpace(c) }

  /** `countWords`: the number of pieces of the trimmed string split on white-space runs. */
  function CountWords(s: string): (n: nat)
    ensures n >= 1
  {
    |SplitRuns(Trim(s), IsJsSpace)|
  }

  /** Reference count: the number of maximal runs of non-white-space characters. */
  function WordRuns(s: string): nat
    decreases |s|
  {
    if |s| == 0 then 0
    else if IsJsSpace(s[0]) then WordRuns(s[1..])
    else 1 + WordRuns(s[RunEnd(s, 0, IsNotSpace)..])
  }

  /** `countWords` counts the words of its input, except that a string without any word
      counts as one word. */
  lemma CountWordsMeaning(s: string)
    ensures CountWords(s) == if WordRuns(s) == 0 then 1 else WordRuns(s)
  {
    var t := Trim(s);
    TrimmedWords(s);
    if |t| == 0 {
      assert SplitRuns(t, IsJsSpace) == [t];
    }
  }

  /** Trimming keeps the words; the trimmed string is empty exactly when there are none,
      and otherwise splits into them. */
  lemma TrimmedWords(s: string)
    ensures |Trim(s)| == 0 <==> WordRuns(s) == 0
    ensures |Trim(s)| > 0 ==> |SplitRuns(Trim(s), IsJsSpace)| == WordRuns(s)
  {
    var t := Trim(s);
    TrimKeepsWords(s);
    if |t| > 0 {
      assert WordRuns(t) >= 1 by {
        assert !IsJsSpace(t[0]);
      }
      SplitRunsCountsWords(t);
    }
  }

  lemma TrimKeepsWords(s: string)
    ensures WordRuns(Trim(s)) == WordRuns(s)
  {
    var lo := LeadingSpaces(s);
    var hi := TrimmedEnd(s, lo);
    SkipLeadingSpaces(s, lo);
    DropTrailingSpaces(s[lo..], hi - lo);
    assert s[lo..][..hi - lo] == Trim(s);
  }

  lemma SkipLeadingSpaces(s: string, j: nat)
    requires j <= |s|
    requires forall k :: 0 <= k < j ==> IsJsSpace(s[k])
    ensures WordRuns(s) == WordRuns(s[j..])
  {
    SkipSpaces(s, 0, j);
    assert s[0..] == s;
  }

  /** `countWords("")` is 1: splitting the empty string gives one empty piece, though the
      string holds no word. */
  lemma CountWordsOfEmpty()
    ensures CountWords("") == 1 && WordRuns("") == 0
  {
    CountWordsMeaning("");
  }

  /** countWords answering 0 for a string without any word. */
  function CountWordsFixed(s: string): (n: nat)
  {
    if |Trim(s)| == 0 then 0 else CountWords(s)
  }

  /** The corrected count is the number of words, blank strings included. */
  lemma CountWordsFixedMeaning(s: string)
    ensures CountWordsFixed(s) == WordRuns(s)
  {
    TrimmedWords(s);
  }

  /** White space before a word does not change the count. */
  lemma {:induction false} SkipSpaces(s: string, i: nat, j: nat)
    requires i <= j <= |s|
    requires forall k :: i <= k < j ==> IsJsSpace(s[k])
    ensures WordRuns(s[i..]) == WordRuns(s[j..])
    decreases j - i
  {
    if i < j {
      assert s[i..][1..] == s[i + 1..];
      SkipSpaces(s, i + 1, j);
    }
  }

  lemma {:induction false} AllSpacesNoWords(s: string)
    requires AllSatisfy(s, IsJsSpace)
    ensures WordRuns(s) == 0
    decreases |s|
  {
    if |s| > 0 {
      AllSpacesNoWords(s[1..]);
    }
  }

  /** White space after the last word does not change the count. */
  lemma {:induction false} DropTrailingSpaces(u: string, m: nat)
    requires m <= |u|
    requires forall k :: m <= k < |u| ==> IsJsSpace(u[k])
    ensures WordRuns(u) == WordRuns(u[..m])
    decreases |u|
  {
    if |u| > 0 {
      if m == 0 {
        AllSpacesNoWords(u);
      } else if IsJsSpace(u[0]) {
        assert u[..m][1..] == u[1..][..m - 1];
        DropTrailingSpaces(u[1..], m - 1);
      } else {
        var e := RunEnd(u, 0, IsNotSpace);
        var e' := RunEnd(u[..m], 0, IsNotSpace);
        SameRunEnd(u, m, 0);
        assert e == e';
        assert u[..m][e..] == u[e..][..m - e];
        DropTrailingSpaces(u[e..], m - e);
      }
    }
  }

  lemma {:induction false} SameRunEnd(u: string, m: nat, i: nat)
    requires i <= m <= |u|
    requires forall k :: m <= k < |u| ==> IsJsSpace(u[k])
    ensures RunEnd(u, i, IsNotSpace) == RunEnd(u[..m], i, IsNotSpace)
    decreases m - i
  {
    if i < m && IsNotSpace(u[i]) {
      SameRunEnd(u, m, i + 1);
    }
  }

  /** On a string with a word at each end, the split pieces are the words. */
  lemma {:induction false} SplitRunsCountsWords(t: string)
    requires |t| > 0 && !IsJsSpace(t[0]) && !IsJsSpace(t[|t| - 1])
    ensures |SplitRuns(t, IsJsSpace)| == WordRuns(t)
    decreases |t|
  {
    var i := FirstWhere(t, IsJsSpace);
    FirstWhereIsRunEnd(t, 0);
    assert i == RunEnd(t, 0, IsNotSpace);
    if i < |t| {
      var j := RunEnd(t, i, IsJsSpace);
      assert j < |t|;
      SkipSpaces(t, i, j);
      assert t[j..][|t[j..]| - 1] == t[|t| - 1];
      SplitRunsCountsWords(t[j..]);
    } else {
      assert t[i..] == [];
    }
  }

  lemma {:induction false} FirstWhereIsRunEnd(t: string, i: nat)
    requires i <= |t|
    requires forall k :: 0 <= k < i ==> !IsJsSpace(t[k])
    ensures FirstWhere(t, IsJsSpace) == RunEnd(t, i, IsNotSpace)
    decreases |t| - i
  {
    if i < |t| && IsNotSpace(t[i]) {
      FirstWhereIsRunEnd(t, i + 1);
    }
  }

  // ---------------------------------------------------------------- toKebabCase

  predicate IsNotWordOrDash(c: char) { !IsWordChar(c) && c != '-' }

  /** `toKebabCase`: lower-case, trim, white-space runs become `-`, then runs outside
      `[\w-]` are deleted. */
  function ToKebabCase(s: string): string {
    ReplaceRuns(ReplaceRuns(Trim(Lower(s)), IsJsSpace, "-"), IsNotWordOrDash, "")
  }

  predicate IsKebabChar(c: char) { IsLower(c) || IsDigit(c) || c == '_' || c == '-' }

  /** A kebab-cased string holds only lower-case letters, digits, `_` and `-`, and in
      particular no white space. */
  lemma KebabAlphabet(s: string)
    ensures AllSatisfy(ToKebabCase(s), IsKebabChar)
    ensures NoneSatisfy(ToKebabCase(s), IsJsSpace)
  {
    var t := Trim(Lower(s));
    var u := ReplaceRuns(t, IsJsSpace, "-");
    var r := ToKebabCase(s);
    ReplaceRunsWithNothing(u, IsNotWordOrDash);
    assert r == RemoveChars(u, IsNotWordOrDash);
    ReplaceRunsChars(t, IsJsSpace, "-");
    assert forall c :: c in t ==> c in Lower(s);
    forall c | c in Lower(s) ensures !IsUpper(c) {
      var i :| 0 <= i < |Lower(s)| && Lower(s)[i] == c;
      ToLowerClasses(s[i]);
    }
    forall i | 0 <= i < |r| ensures IsKebabChar(r[i]) && !IsJsSpace(r[i]) {
      assert r[i] in u;
    }
  }

  // ---------------------------------------------------------------- isValidEmail

  /** Characters of the class `[^\s@]`. */
  predicate IsPlain(c: char) { !IsJsSpace(c) && c != '@' }

  /** `isValidEmail`: the pattern `/^[^\s@]+@[^\s@]+\.[^\s@]+$/`. The classes exclude `@`,
      so the `@` of a match is the only one; backtracking lets the `\.` be any dot of the
      domain with plain characters on both sides. */
  function IsValidEmail(s: string): bool {
    exists at, dot | 0 < at && at + 1 < dot && dot + 1 < |s| ::
      && s[at] == '@' && s[dot] == '.'
      && AllSatisfy(s[..at], IsPlain)
      && AllSatisfy(s[at + 1..dot], IsPlain)
      && AllSatisfy(s[dot + 1..], IsPlain)
  }

  function CountChar(s: string, c: char): nat {
    if |s| == 0 then 0 else (if s[0] == c then 1 else 0) + CountChar(s[1..], c)
  }

  lemma {:induction false} CountCharZero(s: string, c: char)
    ensures CountChar(s, c) == 0 <==> c !in s
    decreases |s|
  {
    if |s| > 0 {
      CountCharZero(s[1..], c);
      assert s == [s[0]] + s[1..];
    }
  }

  lemma {:induction false} CountCharAppend(a: string, b: string, c: char)
    ensures CountChar(a + b, c) == CountChar(a, c) + CountChar(b, c)
    decreases |a|
  {
    if |a| > 0 {
      assert (a + b)[1..] == a[1..] + b;
      assert (a + b)[0] == a[0];
      CountCharAppend(a[1..], b, c);
    } else {
      assert a + b == b;
    }
  }

  /** The e-mail pattern in plain words: no white space, exactly one `@`, something before
      it, and a dot after it that is neither the first nor the last character of the
      domain. */
  predicate EmailShape(s: string) {
    && NoneSatisfy(s, IsJsSpace)
    && CountChar(s, '@') == 1
    && var at := IndexOfChar(s, '@');
       && at > 0
       && exists dot | at + 1 < dot < |s| - 1 :: s[dot] == '.'
  }

  lemma EmailPatternMeaning(s: string)
    ensures IsValidEmail(s) <==> EmailShape(s)
  {
    if IsValidEmail(s) {
      var at, dot :| 0 < at && at + 1 < dot && dot + 1 < |s| && s[at] == '@' && s[dot] == '.'
        && AllSatisfy(s[..at], IsPlain) && AllSatisfy(s[at + 1..dot], IsPlain)
        && AllSatisfy(s[dot + 1..], IsPlain);
      PlainOutsideAt(s, at, dot);
      CountOne(s, '@', at);
      IndexOfCharAt(s, '@', at);
    }
    if EmailShape(s) {
      var at := IndexOfChar(s, '@');
      CountCharZero(s, '@');
      var dot :| at + 1 < dot < |s| - 1 && s[dot] == '.';
      OnlyOccurrence(s, '@', at);
      assert AllSatisfy(s[..at], IsPlain);
      assert AllSatisfy(s[at + 1..dot], IsPlain);
      assert AllSatisfy(s[dot + 1..], IsPlain);
    }
  }

  lemma PlainOutsideAt(s: string, at: nat, dot: nat)
    requires 0 < at && at + 1 < dot && dot + 1 < |s| && s[at] == '@' && s[dot] == '.'
    requires AllSatisfy(s[..at], IsPlain)
    requires AllSatisfy(s[at + 1..dot], IsPlain)
    requires AllSatisfy(s[dot + 1..], IsPlain)
    ensures NoneSatisfy(s, IsJsSpace)
    ensures forall k :: 0 <= k < |s| && k != at ==> s[k] != '@'
  {
    SliceAll(s, 0, at, IsPlain);
    SliceAll(s, at + 1, dot, IsPlain);
    SliceAll(s, dot + 1, |s|, IsPlain);
  }

  lemma SliceAll(s: string, i: nat, j: nat, p: char -> bool)
    requires i <= j <= |s|
    requires AllSatisfy(s[i..j], p)
    ensures forall k :: i <= k < j ==> p(s[k])
  {
    forall k | i <= k < j ensures p(s[k]) {
      assert s[k] == s[i..j][k - i];
    }
  }

  lemma {:induction false} CountOne(s: string, c: char, at: nat)
    requires at < |s| && s[at] == c
    requires forall k :: 0 <= k < |s| && k != at ==> s[k] != c
    ensures CountChar(s, c) == 1
    decreases |s|
  {
    if at == 0 {
      CountCharZero(s[1..], c);
    } else {
      CountOne(s[1..], c, at - 1);
    }
  }

  lemma {:induction false} IndexOfCharAt(s: string, c: char, at: nat)
    requires at < |s| && s[at] == c
    requires forall k :: 0 <= k < at ==> s[k] != c
    ensures IndexOfChar(s, c) == at
    decreases |s|
  {
    if at > 0 {
      IndexOfCharAt(s[1..], c, at - 1);
    }
  }

  lemma {:induction false} OnlyOccurrence(s: string, c: char, i: nat)
    requires CountChar(s, c) == 1
    requires i < |s| && s[i] == c
    ensures forall k :: 0 <= k < |s| && k != i ==> s[k] != c
    decreases |s|
  {
    if s[0] == c {
      CountCharZero(s[1..], c);
      forall k | 0 < k < |s| ensures s[k] != c {
        assert s[k] == s[1..][k - 1];
      }
    } else {
      OnlyOccurrence(s[1..], c, i - 1);
      forall k | 0 < k < |s| && k != i ensures s[k] != c {
        assert s[k] == s[1..][k - 1];
      }
    }
  }

  // ---------------------------------------------------------------- toSlug

  predicate IsNotWordSpaceDash(c: char) { !IsWordChar(c) && !IsJsSpace(c) && c != '-' }

  /** Characters of the class `[\s_-]`. */
  predicate IsSlugSeparator(c: char) { IsJsSpace(c) || c == '_' || c == '-' }

  /** `toSlug`: lower-case, trim, delete every character outside `[\w\s-]`, then each run
      of white space, `_` and `-` becomes one `-`. */
  function ToSlug(s: string): string {
    ReplaceRuns(RemoveChars(Trim(Lower(s)), IsNotWordSpaceDash), IsSlugSeparator, "-")
  }

  predicate IsSlugChar(c: char) { IsLower(c) || IsDigit(c) || c == '-' }

  /** Slug shape: only `[a-z0-9-]`, and no two dashes in a row. */
  predicate IsSlug(s: string) {
    && AllSatisfy(s, IsSlugChar)
    && forall i :: 0 <= i < |s| - 1 ==> !(s[i] == '-' && s[i + 1] == '-')
  }

  /** Every slug has the slug shape. */
  lemma SlugShape(s: string)
    ensures IsSlug(ToSlug(s))
  {
    var t := Trim(Lower(s));
    var u := RemoveChars(t, IsNotWordSpaceDash);
    var r := ToSlug(s);
    assert forall c :: c in t ==> c in Lower(s);
    forall c | c in Lower(s) ensures !IsUpper(c) {
      var i :| 0 <= i < |Lower(s)| && Lower(s)[i] == c;
      ToLowerClasses(s[i]);
    }
    ReplaceRunsChars(u, IsSlugSeparator, "-");
    forall i | 0 <= i < |r| ensures IsSlugChar(r[i]) {
      assert (r[i] in u && !IsSlugSeparator(r[i])) || r[i] in "-";
    }
    NoDoubleSeparator(u, IsSlugSeparator, '-');
  }

  /** Replacing runs of a class by one character of that class never yields two of that
      character in a row. */
  lemma {:induction false} NoDoubleSeparator(s: string, p: char -> bool, x: char)
    requires p(x)
    ensures var r := ReplaceRuns(s, p, [x]);
      forall i :: 0 <= i < |r| - 1 ==> !(r[i] == x && r[i + 1] == x)
    ensures var r := ReplaceRuns(s, p, [x]);
      |r| > 0 ==> (r[0] == x <==> p(s[0]))
    decreases |s|
  {
    if |s| > 0 {
      if p(s[0]) {
        var j := RunEnd(s, 0, p);
        NoDoubleSeparator(s[j..], p, x);
      } else {
        NoDoubleSeparator(s[1..], p, x);
      }
    }
  }

  /** A string that already has the slug shape is its own slug: `toSlug` is idempotent. */
  lemma SlugIdempotent(s: string)
    ensures ToSlug(ToSlug(s)) == ToSlug(s)
  {
    SlugShape(s);
    SlugFixedPoint(ToSlug(s));
  }

  lemma SlugFixedPoint(r: string)
    requires IsSlug(r)
    ensures ToSlug(r) == r
  {
    assert Lower(r) == r;
    TrimOfTrimmed(r);
    KeepAll(r, IsNotWordSpaceDash);
    SingleSeparators(r);
  }

  lemma {:induction false} KeepAll(s: string, p: char -> bool)
    requires NoneSatisfy(s, p)
    ensures RemoveChars(s, p) == s
    decreases |s|
  {
    if |s| > 0 {
      KeepAll(s[1..], p);
    }
  }

  lemma {:induction false} SingleSeparators(r: string)
    requires IsSlug(r)
    ensures ReplaceRuns(r, IsSlugSeparator, "-") == r
    decreases |r|
  {
    if |r| > 0 {
      if IsSlugSeparator(r[0]) {
        assert r[0] == '-';
        assert RunEnd(r, 0, IsSlugSeparator) == 1 by {
          if |r| > 1 {
            assert r[1] != '-';
            assert !IsSlugSeparator(r[1]);
          }
          assert RunEnd(r, 0, IsSlugSeparator) == RunEnd(r, 1, IsSlugSeparator);
        }
      }
      SingleSeparators(r[1..]);
      assert r == [r[0]] + r[1..];
    }
  }
}

=== FILE: version.dfy ===
/** `incrementVersion` of the release script: a semantic-version bump on the text of a
    version. The script's file-system, git and npm steps are outside the model. */
module Version {
  import opened Results
  import opened Chars
  import opened Decimal
  import opened JsText

  /** A number as `Number(...)` and `+ 1` can produce it here: an integer or NaN. */
  datatype JsNum = NaN | Int(value: int)

  /** `Number(s)` on a version component: blank text is 0, a plain digit string is its
      value, anything else is NaN. */
  function ToNumber(s: string): JsNum {
    var t := Trim(s);
    if |t| == 0 then Int(0)
    else if AllDigits(t) then Int(ParseDecimal(t))
    else NaN
  }

  /** A plain non-empty digit string reads as its value. */
  lemma ToNumberOfDigits(s: string)
    requires AllDigits(s) && |s| > 0
    ensures ToNumber(s) == Int(ParseDecimal(s))
  {
    TrimOfTrimmed(s);
  }

  /** The destructured component `i` of the split text: `undefined` (None) past the end. */
  function Component(parts: seq<string>, i: nat): Option<JsNum> {
    if i < |parts| then Some(ToNumber(parts[i])) else None
  }

  /** `x + 1`: `undefined + 1` and `NaN + 1` are NaN. */
  function PlusOne(x: Option<JsNum>): JsNum {
    match x
    case Some(Int(v)) => Int(v + 1)
    case _ => NaN
  }

  function ShowNum(n: JsNum): string {
    match n
    case NaN => "NaN"
    case Int(v) => IntToString(v)
  }

  /** A component as the template literal prints it. */
  function Show(x: Option<JsNum>): string {
    match x
    case None => "undefined"
    case Some(n) => ShowNum(n)
  }

  /** `incrementVersion(currentVersion, type)`; any type other than "major" and "minor"
      takes the patch branch. */
  function IncrementVersion(current: string, kind: string): string {
    IncrementParts(SplitOn(current, '.'), kind)
  }

  /** The bump on the components of the text split on ".". */
  function IncrementParts(parts: seq<string>, kind: string): string {
    var major := Component(parts, 0);
    var minor := Component(parts, 1);
    var patch := Component(parts, 2);
    if kind == "major" then ShowNum(PlusOne(major)) + ".0.0"
    else if kind == "minor" then Show(major) + "." + ShowNum(PlusOne(minor)) + ".0"
    else Show(major) + "." + Show(minor) + "." + ShowNum(PlusOne(patch))
  }

  // ---------------------------------------------------------------- version triples

  datatype Triple = Triple(major: nat, minor: nat, patch: nat)

  /** The text "major.minor.patch". */
  function Render(v: Triple): string {
    NatToString(v.major) + "." + NatToString(v.minor) + "." + NatToString(v.patch)
  }

  /** The semantic-version bump on triples. */
  function Bump(v: Triple, kind: string): Triple {
    if kind == "major" then Triple(v.major + 1, 0, 0)
    else if kind == "minor" then Triple(v.major, v.minor + 1, 0)
    else Triple(v.major, v.minor, v.patch + 1)
  }

  predicate LexLess(a: Triple, b: Triple) {
    a.major < b.major
    || (a.major == b.major && a.minor < b.minor)
    || (a.major == b.major && a.minor == b.minor && a.patch < b.patch)
  }

  /** A bump always moves forward in lexicographic order. */
  lemma BumpIncreases(v: Triple, kind: string)
    ensures LexLess(v, Bump(v, kind))
  {
  }

  /** Splitting the text of a triple on "." and reading each part gives the triple back. */
  function ParseVersion(s: string): Option<Triple> {
    var parts := SplitOn(s, '.');
    if |parts| == 3 && Component(parts, 0).Some? && Component(parts, 0).value.Int?
      && Component(parts, 1).value.Int? && Component(parts, 2).value.Int?
      && Component(parts, 0).value.value >= 0 && Component(parts, 1).value.value >= 0
      && Component(parts, 2).value.value >= 0
    then Some(Triple(Component(parts, 0).value.value, Component(parts, 1).value.value,
                     Component(parts, 2).value.value))
    else None
  }

  lemma RenderParts(v: Triple)
    ensures SplitOn(Render(v), '.') == [NatToString(v.major), NatToString(v.minor), NatToString(v.patch)]
  {
    var parts := [NatToString(v.major), NatToString(v.minor), NatToString(v.patch)];
    forall k | 0 <= k < 3 ensures '.' !in parts[k] {
      assert AllDigits(parts[k]);
    }
    SplitJoin(parts, '.');
    JoinThree(parts[0], parts[1], parts[2]);
  }

  /** The three components of a triple's text read as its three numbers. */
  lemma RenderComponents(v: Triple)
    ensures var parts := SplitOn(Render(v), '.');
      && |parts| == 3
      && Component(parts, 0) == Some(Int(v.major))
      && Component(parts, 1) == Some(Int(v.minor))
      && Component(parts, 2) == Some(Int(v.patch))
  {
    RenderParts(v);
    ParseNatToString(v.major);
    ParseNatToString(v.minor);
    ParseNatToString(v.patch);
    ToNumberOfDigits(NatToString(v.major));
    ToNumberOfDigits(NatToString(v.minor));
    ToNumberOfDigits(NatToString(v.patch));
  }

  lemma JoinThree(a: string, b: string, c: string)
    ensures Join([a, b, c], '.') == a + "." + b + "." + c
  {
    assert [a, b, c][1..] == [b, c];
    assert [b, c][1..] == [c];
    assert Join([c], '.') == c;
    assert Join([b, c], '.') == b + ['.'] + c;
  }

  /** Reading the text of a triple gives the triple. */
  lemma ParseRender(v: Triple)
    ensures ParseVersion(Render(v)) == Some(v)
  {
    RenderComponents(v);
  }

  /** On well-formed text `incrementVersion` is the bump of the triple, written out. */
  lemma IncrementVersionBumps(v: Triple, kind: string)
    ensures IncrementVersion(Render(v), kind) == Render(Bump(v, kind))
  {
    RenderComponents(v);
    IncrementOfComponents(Render(v), v, kind);
  }

  lemma IncrementOfComponents(current: string, v: Triple, kind: string)
    requires Component(SplitOn(current, '.'), 0) == Some(Int(v.major))
    requires Component(SplitOn(current, '.'), 1) == Some(Int(v.minor))
    requires Component(SplitOn(current, '.'), 2) == Some(Int(v.patch))
    ensures IncrementVersion(current, kind) == Render(Bump(v, kind))
  {
    var parts := SplitOn(current, '.');
    if kind == "major" {
      IncrementMajor(parts, v);
    } else if kind == "minor" {
      IncrementMinor(parts, v);
    } else {
      IncrementPatch(parts, v, kind);
    }
  }

  /** A present, non-negative component prints as its decimal text. */
  lemma ShowNat(n: nat)
    ensures Show(Some(Int(n))) == NatToString(n)
    ensures ShowNum(Int(n)) == NatToString(n)
    ensures NatToString(0) == "0"
  {
  }

  lemma IncrementMajor(parts: seq<string>, v: Triple)
    requires Component(parts, 0) == Some(Int(v.major))
    ensures IncrementParts(parts, "major") == Render(Bump(v, "major"))
  {
    var t := NatToString(v.major + 1);
    ShowNat(v.major + 1);
    assert Render(Bump(v, "major")) == t + "." + "0" + "." + "0";
    assert t + "." + "0" + "." + "0" == t + ".0.0";
  }

  lemma IncrementMinor(parts: seq<string>, v: Triple)
    requires Component(parts, 0) == Some(Int(v.major))
    requires Component(parts, 1) == Some(Int(v.minor))
    ensures IncrementParts(parts, "minor") == Render(Bump(v, "minor"))
  {
    var a, b := NatToString(v.major), NatToString(v.minor + 1);
    assert "minor"[1] != "major"[1];
    ShowNat(v.major);
    ShowNat(v.minor + 1);
    assert Render(Bump(v, "minor")) == a + "." + b + "." + "0";
    assert a + "." + b + "." + "0" == a + "." + b + ".0";
  }

  lemma IncrementPatch(parts: seq<string>, v: Triple, kind: string)
    requires kind != "major" && kind != "minor"
    requires Component(parts, 0) == Some(Int(v.major))
    requires Component(parts, 1) == Some(Int(v.minor))
    requires Component(parts, 2) == Some(Int(v.patch))
    ensures IncrementParts(parts, kind) == Render(Bump(v, kind))
  {
    ShowNat(v.major);
    ShowNat(v.minor);
    ShowNat(v.patch + 1);
  }

  /** The new version text reads back as the bumped triple. */
  lemma IncrementVersionRoundTrip(v: Triple, kind: string)
    ensures ParseVersion(IncrementVersion(Render(v), kind)) == Some(Bump(v, kind))
  {
    IncrementVersionBumps(v, kind);
    ParseRender(Bump(v, kind));
  }
}
